=== FILE: README.md ===
# wa-transcribe in Dafny

wa-transcribe watches WhatsApp Desktop's media folder for voice notes. It transcribes each
new note with Whisper, copies the text to the clipboard, and appends it to a daily transcript
log. It records the file in an SQLite ledger so the note is never transcribed twice, and at
startup it queues the notes it missed while it was not running. This project models that
core as pure Dafny functions over immutable data and proves what the program promises about
it.

The modules follow the program's components:

| module | file | models |
|---|---|---|
| `Wrappers` | wrappers.dfy | `Option` and `Result`, the error paths |
| `Text` | text.dfy | `str.strip`, `os.path.basename`, `os.path.join`, `str * n`, the audio-extension test, the marker glyphs |
| `LogFormat` | logformat.dfy | the daily transcript log: `save_to_log` and the history reader `get_processed_history` |
| `Ledger` | ledger.dfy | the processed-files table of `app/db.py` and its backfill from old logs |
| `Scanner` | scanner.dfy | the startup scan `queue_recent_files` |
| `Monitor` | monitor.dfy | the folder watcher `InternalAudioHandler.on_created` |
| `Worker` | worker.dfy | `TranscriptionWorker`: `wait_for_file_ready`, `process_file`, `run` |
| `Maintenance` | maintenance.dfy | `cleanup_unused_models` |
| `Config` | config.dfy | `load_configuration`, `save_configuration`, WhatsApp folder detection |
| `Sizing` | sizing.dfy | model suggestion in the setup wizard and the health report, the report's bar and advice, the forced-language answer |
| `Utils` | utils.dfy | device choice and label, `check_command`, `get_memory_info`, `show_logs` |

Everything the program learns from the outside comes in as a parameter:

- the file system: a map from log names to contents, directory listings, existence sets, stat results;
- the clock: dates, timestamps, `time.time()` values;
- `torch`, `platform` and `shutil`;
- the Whisper engine: a `Result` carrying the transcript or an error;
- the clipboard and the database: success flags and a `Store` that is `Available` or `Failing`;
- the console: how many `print` calls succeed before one raises (`Text.Console`), or, for the worker, which of its messages raise.

A raised exception becomes an `Err`, a `None`, or a flag that skips what the source skips.

## Model

| member | source | states |
|---|---|---|
| Text.Strip | app/transcriber.py:136 | `str.strip()` returns a contiguous slice of its input with no whitespace at either end |
| Text.StripPadded | app/setup.py:150-152 | stripping removes exactly the surrounding whitespace: a trimmed string padded with whitespace strips back to itself |
| Text.StripTrimmed | app/transcriber.py:136 | a string without surrounding whitespace is unchanged by stripping |
| Text.Basename | app/transcriber.py:86 | `os.path.basename` gives a `/`-free suffix of the path that follows its last `/` |
| Text.PathJoin | app/core.py:163 | POSIX `os.path.join`: an absolute name replaces the directory; otherwise the result starts with the directory and ends with the name, with a `/` before the name unless the directory is empty |
| Text.BasenameOfJoin | app/core.py:163 | the base name of a directory joined with a plain file name is that file name |
| Text.Repeat | check_health.py:51 | `c * n` has `max(n, 0)` copies of `c` and nothing else |
| LogFormat.DailyLogName | app/transcriber.py:44-45 | the day's log is named by its date and ends in `_daily.log` |
| LogFormat.HeaderLine | app/transcriber.py:50 | the header keeps its stem and is padded with rule glyphs to 80 characters, never truncated |
| LogFormat.MetaLine | app/transcriber.py:52 | the metadata line starts with the base name, the separator and the hourglass, and ends with `s` |
| LogFormat.AppendTo | app/transcriber.py:56-58 | append mode changes only the one file, whose text gains the entry at its end; a missing file is created |
| LogFormat.SaveToLog | app/transcriber.py:34-60 | a failure to create the log directory is an error; a failed open is swallowed and changes nothing; otherwise the whole entry is appended (a write failing part-way is PartialWriteKeepsPrefix) |
| LogFormat.PartialWriteKeepsPrefix | app/transcriber.py:56-60 | a write failing part-way is swallowed and leaves the day's file holding its old text plus the first `kept` characters of the entry (all of it when `kept` reaches its length); the file exists and no other file changes |
| LogFormat.SaveToLogAppends | app/transcriber.py:42-58 | a successful save appends exactly `header, meta, blank, stripped text, blank` to the day's log |
| LogFormat.Newlines | app/core.py:125-126 | text-mode reading leaves no carriage return: `\r\n` and a lone `\r` become `\n`; nothing is added, and only empty text reads as empty |
| LogFormat.NewlinesPrefix | app/core.py:125-126 | a prefix without carriage returns reads back unchanged, followed by the translation of the rest |
| LogFormat.NewlinesPlain | app/core.py:125-126 | text without carriage returns reads back exactly as written |
| LogFormat.NewlinesAppend | app/core.py:125-126 | the translation of a text ending in a newline does not depend on what follows, and still ends in a newline |
| LogFormat.SplitLinesShape | app/core.py:126 | each line is non-empty, holds a newline only at its end, and every line but the last ends with one |
| LogFormat.Lines | app/core.py:125-126 | `for line in f` yields no lines iff the file is empty |
| LogFormat.LinesShape | app/core.py:125-126 | the lines read are non-empty with a newline only at their end, every line but the last ends with one, and no line holds a carriage return |
| LogFormat.LinesJoin | app/core.py:125-126 | joining the lines read gives back the file's text with its line ends translated, and exactly the text when it has no `\r` |
| LogFormat.CarriageReturnEndsLine | app/core.py:125-126 | a `\r\n`, or a `\r` not followed by `\n`, ends a line that is read with a `\n` in its place |
| LogFormat.LinesAppend | app/core.py:125-126 | a file ending in a newline splits into lines independently of what is appended to it |
| LogFormat.NewlinesConcat | app/core.py:125-126 | text-mode translation of two texts joined is the two translations joined, unless the second starts with `\n` (which could complete a `\r`) |
| LogFormat.SplitLinesKeepsLater | app/core.py:126 | whatever text precedes it, every line of a text after its first is still a line |
| LogFormat.SplitLinesMerge | app/core.py:126 | an unfinished line in front of a text merges into that text's first line, and the lines after it are left as they were |
| LogFormat.LaterLineOfAppended | app/core.py:125-126 | whatever a file held before, every line after the first of a text appended to it, not starting with `\n`, is read back as a line |
| LogFormat.ReadLines | app/core.py:123-133 | a read fault yields a prefix of the file's lines; a fault-free read yields all of them |
| LogFormat.HistoryLineName | app/core.py:127-131 | a line counts iff it holds both `\|` and the hourglass; the name is trimmed and free of `\|` and bullets |
| LogFormat.UnionUpToMembers | app/core.py:117-119 | the union over the window's days holds a name iff some day in the window holds it |
| LogFormat.GetProcessedHistory | app/core.py:103-135 | a missing log directory or an empty window gives the empty history |
| LogFormat.HistoryMembers | app/core.py:116-135 | a name is in the history iff the readable part of some day's log inside the window yields it |
| LogFormat.HistoryReadsMetaPrefix | app/core.py:127-131 | any line starting like a metadata line reads back as its base name |
| LogFormat.SavedEntryIsRead | app/transcriber.py:48-58 | round trip: after saving an entry, the history reader recovers the base name from that day's log, whatever the log held before, an unfinished last line included |
| LogFormat.CutOffEntryKeepsNextReadable | app/transcriber.py:56-60 | after a write that fails part-way leaves a cut-off entry, the next successful save is still read back |
| LogFormat.SavedEntryInHistory | app/core.py:103-135 | end to end: a transcription logged on a day inside the window is in `get_processed_history`, whatever read faults the other days' logs have |
| Ledger.IsFileProcessed | app/db.py:82-94 | a name reads as processed only if it has a row; a database error reads as not processed |
| Ledger.Insert | app/db.py:101-102 | `INSERT OR IGNORE`: a new name gains its row, an existing row is kept, no other row changes |
| Ledger.AddProcessedFile | app/db.py:97-113 | the name gains a row unless the database fails, which changes nothing; existing rows are kept |
| Ledger.GetAllProcessedFilenames | app/db.py:116-129 | the names listed are exactly the names `is_file_processed` accepts |
| Ledger.AddThenProcessed | app/db.py:82-113 | after an add the name is processed, and every other name's status is unchanged |
| Ledger.AddIdempotent | app/db.py:101-102 | adding a name twice equals adding it once: the first row wins |
| Ledger.TwoAddsListTwo | tests/test_db.py:67-79 | two different names added to an empty ledger are listed as exactly those two |
| Ledger.BackfillCapture | app/db.py:150-165 | the pattern `^[●\s]*(.*?)\s*\|` fails on lines without `\|`; its group is trimmed and free of `\|` and newlines |
| Ledger.BackfillName | app/db.py:162-165 | only hourglass lines that the pattern matches give a name, which is trimmed |
| Ledger.BackfillOf | app/db.py:150-165 | a line laid out as leading bullets and blanks, the name, blanks and `\|` backfills as that name |
| Ledger.BackfillReadsMetaPrefix | app/db.py:150-165 | round trip with the writer: a metadata line backfills as its base name |
| Ledger.ReadersAgree | app/db.py:150-165 | on metadata lines the backfill pattern and the history reader of `app/core.py` give the same name |
| Ledger.BackfillExampleFirst | tests/test_db.py:93-96 | `valid_file_1.mp3 \| ⏳ …` backfills as `valid_file_1.mp3` |
| Ledger.BackfillExampleSecond | tests/test_db.py:93-97 | the indented, padded `valid_file_2.wav` line backfills as `valid_file_2.wav` |
| Ledger.BackfillExampleHeader | tests/test_db.py:93-94 | the header line without an hourglass is passed over |
| Ledger.LineNamesMembers | app/db.py:161-165 | a name comes from a file iff some line of it backfills as that name |
| Ledger.InsertLines | app/db.py:161-176 | the line loop keeps existing rows and gives new names the `migrated_from_log` path |
| Ledger.InsertLinesKeys | app/db.py:161-176 | after the line loop a name has a row iff it had one or some line backfills as it |
| Ledger.MigrateFiles | app/db.py:154-180 | the file loop keeps existing rows and gives new rows the `migrated_from_log` path |
| Ledger.MigrateFilesErr | app/db.py:154-180 | the loop fails iff some listed daily log that opens raises a decode error, which no handler catches |
| Ledger.MigrateFilesKeys | app/db.py:154-180 | on success a name has a row iff it had one or some readable daily log in the listing yields it |
| Ledger.MigrateFromLogs | app/db.py:132-141 | nothing changes when the log directory is missing, the database fails, or the table already has rows |
| Ledger.MigrateRecoversLogNames | app/db.py:132-190 | on an empty ledger the backfill fails iff a daily log raises a decode error, else it holds exactly the names the daily logs yield |
| Scanner.Candidates | app/core.py:160-171 | the tuples collected are audio files with a readable mtime strictly after the cutoff, at most one per walked file |
| Scanner.CandidatesMembers | app/core.py:160-171 | a tuple is collected iff some walked file yields it |
| Scanner.InsertByTime | app/core.py:173 | one insertion step of the sort adds exactly the element |
| Scanner.InsertSorted | app/core.py:173 | one insertion step keeps the sequence sorted by mtime |
| Scanner.SortByTime | app/core.py:173 | `list.sort(key=mtime)` yields a permutation in non-decreasing mtime order |
| Scanner.SortStable | app/core.py:173 | the sort is stable: files sharing an mtime keep their walk order |
| Scanner.SortSorted | app/core.py:173 | sorting a sequence already in mtime order leaves it unchanged |
| Scanner.Pending | app/core.py:175-181 | only tuples whose name is not in the history are queued, and the order is kept |
| Scanner.PendingCount | app/core.py:175-181 | each tuple is queued as often as it was collected, unless its name is in the history |
| Scanner.PendingNone | app/core.py:175-181 | with an empty history every collected tuple is queued |
| Scanner.ScanQueue | app/core.py:148-149 | a missing watched folder queues nothing |
| Scanner.ScanOrdered | app/core.py:173-181 | the queue is in non-decreasing mtime order, oldest first |
| Scanner.QueueRecentFiles | app/core.py:138-186 | the count is the number of paths queued; a missing folder queues nothing and raises nothing; the paths queued are a prefix of the scan's pending paths, and all of them when no print raises |
| Scanner.Announce | app/core.py:151-186 | the printing part of the scan: the count is the number queued, the paths queued are a prefix of the pending paths, and all of them when no print raises |
| Scanner.AnnounceCut | app/core.py:151-186 | with `k` prints succeeding, the banner takes one, the first `k - 1` pending paths are queued, and the scan raises iff `k` is at most the number pending plus two |
| Scanner.QueueEach | app/core.py:175-180 | each pending path is announced before it is queued: the paths queued are a prefix of the pending ones, and a loop that stops early stops at a raising print |
| Scanner.QueueEachCut | app/core.py:175-180 | with `k` prints succeeding, the loop queues the first `k` pending paths |
| Scanner.RaisingPrintCutsScan | app/core.py:151-186 | with `k` prints succeeding, the banner takes one, the first `k - 1` pending paths are queued, and the exception leaves the scan iff `k` is at most the number pending plus two |
| Scanner.ScanMembers | app/core.py:155-181 | a file is queued iff the folder exists, it is an audio file inside the window, and its name is not in the history |
| Scanner.ScanPermutes | app/core.py:173-181 | the queue is the pending tuples, permuted: nothing is queued twice unless the walk met it twice |
| Scanner.ScanStable | app/core.py:173-181 | files sharing an mtime are queued in walk order |
| Scanner.CutoffExclusive | app/core.py:156-168 | a file modified exactly at the cutoff is not collected |
| Scanner.QueuedPathBasename | app/core.py:163 | the queued path's base name is the walked file's name, the name the worker records |
| Scanner.SavedFileNotRequeued | app/core.py:143-181 | a file transcribed and logged on a day in the history window is not queued again, whatever read faults the other days' logs have |
| Scanner.CandidatesSkipMiddle | tests/test_core_extended.py:25-42 | two audio files around a `.txt` file are collected in walk order |
| Scanner.ScanExampleFound | tests/test_core_extended.py:25-42 | the scan example queues both `.opus` files, in walk order, and counts two |
| Monitor.OnCreated | app/monitor.py:29-52 | an accepted event becomes the last path and, when its announcement does not raise, is appended to the queue; any other event changes nothing |
| Monitor.OnCreatedValid | app/monitor.py:25-52 | an event whose announcement succeeds keeps the handler invariant (the last path is the last queued one, no path queued twice in a row); an accepted event whose announcement raises breaks it |
| Monitor.RunValid | app/monitor.py:25-52 | a run from a valid handler keeps that invariant when no print raises, and never queues a path twice in a row on any console |
| Monitor.RunAppends | app/monitor.py:52 | a run only appends to the queue, at most one path per event, on any console |
| Monitor.RaisingEchoCutsRun | app/monitor.py:47-52 | with `k` prints succeeding and more than `k` paths to queue, the run queues the first `k`, leaves the next one debounced but unqueued and the handler invalid; otherwise it is the run without a raise |
| Monitor.RaisingEchoLosesFile | app/monitor.py:47-52 | a new audio file whose announcement raises is never queued, not even when created again |
| Monitor.AudioPaths | app/monitor.py:36-43 | at most one audio path per event |
| Monitor.RunCollapses | app/monitor.py:36-52 | a run appends the audio paths with immediate repeats collapsed, even across ignored events |
| Monitor.DuplicateEventQueuedOnce | tests/test_monitor.py:22-37 | a duplicated creation event queues its path once |
| Monitor.NonAudioIgnored | tests/test_monitor.py:39-51 | a non-audio path is never queued |
| Monitor.RunThree | app/monitor.py:29-52 | three events act one after another |
| Monitor.AlternationRequeues | app/monitor.py:45-47 | `A, B, A` queues `A` again: only the last path is debounced |
| Monitor.IgnoredEventKeepsDebounce | app/monitor.py:36-47 | `A, x, A` with a non-audio `x` queues `A` once |
| Worker.LastSize | app/transcriber.py:173-183 | the remembered size is -1 iff no read succeeded, and is otherwise the size of the last successful read |
| Worker.LastSizeAppend | app/transcriber.py:176-183 | after any polls, a failed read keeps the remembered size and a successful read replaces it |
| Worker.WaitForFileReady | app/transcriber.py:159-185 | ready iff some successful read equals the previous successful read and is positive; polling stops at the first such read |
| Worker.FirstPollNeverSettles | app/transcriber.py:173-178 | the first poll never makes the file ready |
| Worker.EmptyFileNeverReady | app/transcriber.py:178 | a file that always reads as empty is never ready |
| Worker.StableTwice | tests/test_transcriber.py:211-222 | two equal positive reads make the file ready on the second poll |
| Worker.FailedReadKeepsLastSize | app/transcriber.py:176-183 | after any history, a read that repeats the last successful size across a failed read makes the file ready, and `100, error, 100` is ready on the third poll |
| Worker.GrowingNeverSettles | app/transcriber.py:175-185 | polls whose successful reads strictly grow never make the file ready, whatever reads fail in between |
| Worker.UseFp16 | app/transcriber.py:121-130 | fp16 is used only when the model has a device |
| Worker.Fp16Rule | app/transcriber.py:121-130 | fp16 iff the device is CUDA, or MPS with `ENABLE_MPS_FP16`; never without a device or on the CPU |
| Worker.CoreUseFp16 | app/core.py:246-248 | the worker copy in `app/core.py` uses fp16 iff the model's device is CUDA |
| Worker.Fp16CopiesDiffer | app/core.py:246-248 | the two worker copies choose fp16 differently exactly on MPS with `ENABLE_MPS_FP16` on |
| Worker.DurationText | app/transcriber.py:94-106 | the logged duration is the formatted one, or `Unknown duration` when decoding failed |
| Worker.ProcessFile | app/transcriber.py:79-157 | a file that never gets ready has no effect, and raises iff the timeout notice does; a raising working notice escapes before anything else; otherwise the transcription comes first; an engine error changes nothing after it; the ledger gains at most the file's base name, and nothing when an exception escapes |
| Worker.EffectsArePrefix | app/transcriber.py:115-154 | a call attempts a prefix of transcribe, copy, log, record: it can only stop early |
| Worker.ProcessFileInOrder | app/transcriber.py:115-154 | the effects come in the order transcribe, copy, log, record |
| Worker.NotReadyNoEffects | tests/test_transcriber.py:198-208 | a file that is not ready is not transcribed, copied, logged or recorded |
| Worker.EngineFailureNoRecord | tests/test_transcriber.py:147-165 | an engine failure leaves the clipboard, the log and the ledger untouched |
| Worker.ClipboardFailureKeepsLogAndLedger | app/transcriber.py:147-154 | a clipboard failure whose warning prints changes only the clipboard; the log and the ledger are as with a working clipboard |
| Worker.UnknownDurationStillRecorded | tests/test_transcriber.py:123-145 | an undecodable duration is logged as `Unknown duration` and the file is still transcribed and recorded |
| Worker.StripIdempotent | app/transcriber.py:133-136 | stripping the already stripped transcript again changes nothing |
| Worker.SuccessRecordsFile | app/transcriber.py:148-154 | a successful transcription puts the base name in the ledger and in the names read back from the day's log |
| Worker.RunLoopShape | app/transcriber.py:71-77 | a run takes the items in order; each item taken gets its `task_done`, including one whose processing raised; the thread survives iff nothing escaped, and then it took every item; otherwise it stops right after the raising item |
| Worker.RunLoopFollowsProcessFile | app/transcriber.py:71-77 | each step's effects and escape are those of `process_file` on its item against the world the earlier items left, and the run ends in the world its last step left |
| Worker.RunLoopKeepsLedger | app/transcriber.py:71-77 | over a run the ledger only grows and keeps its rows |
| Maintenance.KeepName | app/maintenance.py:33 | the kept file is the current model's name followed by `.pt` |
| Maintenance.CleanupUnusedModels | app/maintenance.py:23-55 | a missing cache removes nothing and raises nothing; the current model's file and unknown names are never removed, whatever the console does |
| Maintenance.Sweep | app/maintenance.py:41-55 | the loop removes at most one file per entry, never the current model's and only known names |
| Maintenance.SweepMembers | app/maintenance.py:41-55 | with every print succeeding, the loop removes a name iff some entry with it meets the removal rule, and does not raise |
| Maintenance.CleanupMembers | app/maintenance.py:41-55 | with every print succeeding, a name is removed iff the cache exists and some listed entry has it, is known, is not kept, has a readable access time older than the retention, and its removal succeeds |
| Maintenance.SweepCut | app/maintenance.py:46-54 | with `k` prints succeeding, the loop removes the first `k + 1` files of the full loop and raises iff there are more than `k` |
| Maintenance.RaisingPrintCutsCleanup | app/maintenance.py:37-54 | with `k` prints succeeding, the banner takes one, the first `k` removals of the full cleanup happen, and the exception leaves the cleanup iff the cache exists and the full cleanup removes at least `k` files |
| Maintenance.BoundaryKept | app/maintenance.py:47 | a file unused for exactly the retention period is kept: the comparison is strict |
| Maintenance.CleanupExample | tests/test_maintenance.py:14-55 | of `turbo.pt` (current), `old.pt` (eight days) and `other.pt` (one day), only `old.pt` is removed |
| Maintenance.UnknownNeverRemoved | app/config.py:56-67 | with the shipped `KNOWN_MODELS`, a file outside the list such as `other.pt` is never removed |
| Config.SettingsEqual | app/config.py:85-95 | the eleven settings determine the configuration |
| Config.Loaded | app/config.py:192-222 | every setting is taken from the document, or from the default when the document lacks it |
| Config.LoadConfiguration | app/config.py:166-226 | success iff the file exists and parses to a JSON object; on failure the settings are unchanged; on success each one is the document's value or the default |
| Config.EmptyDocumentLoadsDefaults | tests/test_config.py:53-60 | `{}` loads successfully as the defaults, with the model size `turbo` |
| Config.OverridesDefaults | tests/test_config.py:120-130 | `MODEL_SIZE` `base` and `FILE_READY_TIMEOUT` 20 override their defaults; the rest stay default |
| Config.UnknownKeysIgnored | app/config.py:192-222 | names outside the eleven settings do not affect loading |
| Config.ForeignDocumentLoadsDefaults | app/config.py:192-222 | a document with none of the eleven names loads as the defaults |
| Config.ToDocument | app/config.py:70-82 | the settings are written under all eleven names |
| Config.DocumentEntry | app/config.py:70-82 | each setting is written under its own name |
| Config.SaveConfiguration | app/config.py:229-234 | a failed open leaves the file as it was; a successful open leaves a file that exists, holding the document as one object if the dump completes and an unparsable text if it does not |
| Config.InterruptedSave | app/config.py:166-234 | a dump that fails after the open makes the next load fail, whatever the file held before; a failed open changes nothing the next load sees |
| Config.SaveThenLoad | app/config.py:166-234 | saving a full set of settings and loading them back returns those settings |
| Config.LoadTwice | app/config.py:166-234 | saving what was loaded and loading it again gives the same settings |
| Config.DetectWhatsappPath | app/config.py:275-288 | a set, existing override wins; otherwise the detected folder, possibly none |
| Config.WinJoin | app/config.py:257-265 | `ntpath.join` ends with the part it appends |
| Config.Candidates | app/config.py:244-270 | macOS and Windows each have two locations to search, other systems none |
| Config.FirstExisting | app/config.py:250-253 | the folder found exists and is one of the locations |
| Config.FirstExistingIsFirst | app/config.py:244-270 | nothing is found iff no location exists; otherwise the earliest existing location is found |
| Config.FirstOfTwo | app/config.py:250-253 | of two locations, the first if it exists, else the second if it exists |
| Config.FindDefaultWhatsappPath | app/config.py:237-272 | the folder found exists; other systems find nothing |
| Config.MacPriority | tests/test_config.py:142-152 | on macOS the App Store container beats the direct-download folder, which is used when it alone exists |
| Config.WindowsPriority | app/config.py:255-270 | on Windows the Store package folder beats the legacy folder |
| Config.OverrideBeatsDetection | tests/test_config.py:154-161 | an existing override beats detection; without one the detected folder is used |
| Sizing.Position | app/setup.py:84 | every model has a place in the sorted table |
| Sizing.ByRequirementSorted | app/setup.py:84 | the table order is non-increasing in requirement, so the stable sort keeps it, `base` before `tiny` |
| Sizing.Usable | app/setup.py:72-81 | on a GPU the smaller of the factor's share and the total less 2 GB (at least 0); otherwise the system factor's share |
| Sizing.FitsIff | app/setup.py:87 | `size / usable <= 0.7` with positive usable memory is `size <= 0.7 * usable` |
| Sizing.FirstFit | app/setup.py:86-88 | the model found fits and is in the table |
| Sizing.FirstFitIsFirst | app/setup.py:86-88 | nothing is found iff no model fits; otherwise the earliest fitting model is found |
| Sizing.Recommend | app/setup.py:86-90 | the recommendation fits, or it is the `tiny` fallback |
| Sizing.SuggestBestModel | app/setup.py:61-90 | unknown memory suggests `turbo` |
| Sizing.RecommendIsLargestFit | app/setup.py:83-88 | the recommendation fits and needs at least as much as any fitting model |
| Sizing.RecommendMonotone | app/setup.py:83-90 | more usable memory never recommends a model that needs less |
| Sizing.NoMemoryTiny | app/setup.py:87-90 | with no usable memory `tiny` is recommended |
| Sizing.SuggestVram24 | tests/test_setup.py:4-10 | 24 GB of VRAM leaves 16.8 GB usable and suggests `large` |
| Sizing.SuggestRam32 | tests/test_setup.py:12-17 | 32 GB of system memory suggests `large` |
| Sizing.Lookup | check_health.py:185-186 | the model found is listed under the name asked for; none is found iff no listed model has that name |
| Sizing.ReqOf | check_health.py:185-186 | a listed model's requirement comes from the table; an unlisted name gets the fallback |
| Sizing.SuggestModel | check_health.py:57-99 | unknown memory gives `base` with 0 usable and 0%; otherwise the usable memory, and 100% when nothing is usable |
| Sizing.ReportAgreesWithWizard | check_health.py:88-94 | the health report recommends the same model as the setup wizard whenever the memory is known |
| Sizing.FittingUsageAtMost70 | check_health.py:92-97 | a recommendation that fits is drawn at 70% or less |
| Sizing.ReportVram4 | tests/test_health.py:46-51 | 4 GB of VRAM leaves 2 GB usable and recommends `base` |
| Sizing.ReportSystem16 | tests/test_health.py:60-65 | 16 GB of system memory leaves 8 GB usable and recommends `medium` |
| Sizing.Trunc | check_health.py:50 | `int()` truncates toward zero: the integer at most `x` and within 1 of it for `x >= 0`, at least `x` and within 1 of it for `x < 0` |
| Sizing.Clamp | check_health.py:49 | the percentage is clamped into `[0, 100]` and kept when already inside |
| Sizing.FilledInRange | check_health.py:49-50 | for a non-negative width the filled count is `floor(width * p / 100)`, between 0 and the width |
| Sizing.BarShape | check_health.py:49-51 | the bar has exactly `width` cells: the filled ones first, then the empty ones |
| Sizing.BarExamples | tests/test_health.py:16-35 | 0%, 50% and 100% of 20 cells fill 0, 10 and 20; values outside the range are clamped |
| Sizing.BarColour | check_health.py:53 | green iff below 70%, red iff at least 90%, yellow between |
| Sizing.FittingIsGreen | check_health.py:53-97 | a fitting recommendation is never drawn red |
| Sizing.AdviceFor | check_health.py:185-219 | the advice is critical iff the configured model needs more than is usable; an unlisted model counts as 6 GB |
| Sizing.RecommendedIsOptimal | check_health.py:216-219 | using the recommended, fitting model is reported as optimal |
| Sizing.AdviceExamples | tests/test_health.py:96-123 | `large` on 4 GB of VRAM is critical, `tiny` where `large` fits is under-used, `large` there is optimal |
| Sizing.NormalizeLanguage | app/setup.py:150-152 | no forced language iff the answer is blank; otherwise the answer, stripped |
| Sizing.NormalizeLanguageStable | app/setup.py:150-152 | a language code with padding is normalised to the code, and a normalised code stays as it is |
| Sizing.BlankLanguageIsAuto | tests/test_setup.py:111-140 | a blank answer means automatic detection |
| Utils.DevicePriority | app/utils.py:77-81 | CUDA iff available; MPS iff CUDA is not and MPS is; otherwise the CPU |
| Utils.DeviceNameAgrees | app/utils.py:84-90 | the device label always names the device `get_compute_device` picks |
| Utils.Fp16OnChosenDevice | app/transcriber.py:121-130 | for a model on the device `get_compute_device` picks, the worker of `app/transcriber.py` would use fp16 iff CUDA is available, or MPS is and its flag is on |
| Utils.LoadedDevice | app/core.py:355-371 | the model is loaded on the chosen device, or on the CPU when loading there raises |
| Utils.Fp16InRunningApp | app/core.py:355-377 | the running app, which starts the worker of `app/core.py`, uses fp16 iff CUDA is available and the model loaded there |
| Utils.CheckCommand | app/utils.py:104-107 | found iff the lookup gives a non-empty path, which is then returned; otherwise `(False, None)` |
| Utils.CheckCommandStable | app/utils.py:104-107 | a path is returned iff the command counts as found, and checking the returned path again gives the same answer |
| Utils.TokenLen | app/utils.py:150 | the leading run of non-whitespace characters stops at whitespace |
| Utils.Words | app/utils.py:150 | `str.split()` yields non-empty words without whitespace |
| Utils.WordsOfSpaced | app/utils.py:150 | whitespace, then a word, then the end or whitespace, splits with that word first |
| Utils.ParseInt | app/utils.py:142-150 | `int()` accepts exactly an optional sign and one or more digits inside surrounding whitespace |
| Utils.Show | app/utils.py:142 | the decimal digits of a number |
| Utils.ShowValue | app/utils.py:142 | reading back the digits of a number gives the number |
| Utils.ParseShow | app/utils.py:142 | round trip: `int` of a number's digits with surrounding whitespace is that number |
| Utils.ParseBlank | app/utils.py:142 | a blank string is not a number |
| Utils.ParseRejectsNonDigit | app/utils.py:150 | a word with a non-digit after its first character is not a number |
| Utils.FirstContaining | app/utils.py:148-149 | the line found is the first that contains the pattern; none found iff no line contains it |
| Utils.SecondWordValue | app/utils.py:150 | a line with fewer than two words gives no value |
| Utils.MeminfoTotal | app/utils.py:146-151 | a Linux reading is system memory |
| Utils.MemoryInfo | app/utils.py:123-157 | CUDA gives VRAM, macOS unified memory, Linux system memory; any other system without CUDA is unknown |
| Utils.CudaEightGb | tests/test_utils.py:57-66 | eight gibibytes of CUDA memory read as 8.0 GB of VRAM |
| Utils.MacReading | app/utils.py:140-143 | on macOS without CUDA, `sysctl` printing the digits of `b` and a newline reads as `b / 1024³` GB of unified memory |
| Utils.MacSixteenGb | tests/test_utils.py:69-78 | `sysctl` printing 17179869184 reads as 16.0 GB of unified memory |
| Utils.SecondWord | app/utils.py:150 | a tag, whitespace and a word split with that word second, and its value is the word's |
| Utils.KbLine | app/utils.py:149-150 | a tag mentioning `MemTotal`, whitespace, a number and a unit is a `MemTotal` line reading that number |
| Utils.MeminfoOfFirst | app/utils.py:148-151 | a first line that mentions `MemTotal` and reads a number gives that many kB as gigabytes |
| Utils.LinuxMeminfo | app/utils.py:146-151 | a `MemTotal` line reading `n` kB gives `n / 1024²` GB of system memory |
| Utils.MemTotalLabel | tests/test_utils.py:81-92 | `MemTotal:` is such a tag, and 16384000 kB is 15.625 GB |
| Utils.MeminfoWithoutTotal | app/utils.py:146-154 | a meminfo without a `MemTotal` line means unknown memory |
| Utils.UnknownSystemSuggestsTurbo | app/setup.py:66-70 | on a system other than macOS or Linux without CUDA, the wizard suggests `turbo` |
| Utils.Newest | app/utils.py:184 | `max` by mtime picks a file no other file is newer than, and the first of those |
| Utils.Tail | app/utils.py:194 | `deque(maxlen=n)` keeps the last `min(n, count)` lines, a suffix of the file |
| Utils.ShowLogs | app/utils.py:160-204 | an invalid log type is an error; no daily logs iff the chosen directory has none |
| Utils.ShownIsNewestTail | app/utils.py:184-201 | what is shown is the newest file's last `min(n, count)` lines, stripped, in file order |
| Utils.EmptyLogShownEmpty | app/utils.py:196-197 | an empty log shows no lines |
| Utils.NewestOfAppended | app/utils.py:184 | a file newer than all others is the newest |
| Utils.NewerLogIsShown | app/utils.py:176-194 | a daily log newer than every other is the one shown |

## Left out

- Threads and the live queue are not modelled, because they are concurrency plumbing: the worker thread's lifecycle, `queue.Queue` blocking, the watchdog observer, `run_transcriber` with its sleep loop and Ctrl+C handling, and `main`. The queue is a sequence. Producers append to it, and `Worker.RunLoop` consumes a given sequence.
- The copies in `app/core.py` of `cleanup_unused_models`, `save_to_log`, `TranscriptionWorker` and `InternalAudioHandler` are modelled through the `app/transcriber.py`, `app/maintenance.py` and `app/monitor.py` versions, and they differ in ways the model names. `run_transcriber` (`app/core.py:336`), which `app/cli.py:99` calls, starts the `app/core.py` worker. Its fp16 rule is CUDA-only; this is modelled as `Worker.CoreUseFp16` and `Utils.Fp16InRunningApp`. Its `process_file` never calls `db.add_processed_file` (`app/core.py:262-273` against `app/transcriber.py:154`), so the `LedgerAdd` effect is specific to the `app/transcriber.py` worker. Its `save_to_log` writes to `LOG_FOLDER_PATH` (`app/core.py:82-85`) rather than `TRANSCRIBED_AUDIO_LOGS_DIR`.
- LogFormat.SavedEntryInHistory: the directory the writer appends to is taken to be the one the history reader reads (`LOG_FOLDER_PATH`, `app/core.py:111`). The `app/transcriber.py` writer uses `TRANSCRIBED_AUDIO_LOGS_DIR` instead (`app/transcriber.py:42-45`). The round trip therefore holds for the `app/core.py` writer, or when the two settings name the same folder.
- Worker.SuccessRecordsFile: the same assumption; the log it reads back is the one the writer appended to.
- LogFormat.SaveToLog: a write failing part-way is cut at a character. A cut inside the UTF-8 bytes of a multi-byte character (the header's `─`, the `⏳`) would make a later read of that file raise a decode error. The model represents that error only as an injected read fault (`ReadFault`), and the round-trip lemmas assume a fault-free read.
- Worker.WaitForFileReady: the timeout is modelled as the sequence of polls that fit in the time budget, not as wall-clock time, and that budget is a free input. As written, the default `timeout=config.FILE_READY_TIMEOUT` (`app/transcriber.py:160`, `app/core.py:277`) is evaluated when the module is imported. `app/cli.py:19` imports it before `load_configuration` runs (`app/cli.py:90`), and the callers (`app/transcriber.py:90`, `app/core.py:217`) pass no timeout. So the running program always waits the default 10 seconds (`app/config.py:94`), and a configured `FILE_READY_TIMEOUT` never takes effect.
- Maintenance.CleanupUnusedModels: `retention` is a free input. As written, the default `retention_days=config.MODEL_RETENTION_DAYS` (`app/maintenance.py:24`, `app/core.py:40`) is bound at import time, and the caller at `app/core.py:352` passes none. So the running program always keeps models for the default 3 days (`app/config.py:90`), whatever is configured.
- Scanner.SavedFileNotRequeued: the same assumption; the history the scan consults is read from the folder the writer appended to.
- Text.Basename: only the POSIX rule is modelled (the part after the last `/`). On Windows `ntpath.basename` also splits at `\` and after a drive prefix such as `C:`, and that is not modelled.
- Text.PathJoin: only the POSIX join with `/` is modelled, absolute second parts included. The Windows join with `\` and its handling of drives and absolute second parts is not (`Config.WinJoin` covers the one Windows join the source spells out).
- Writing the log in text mode on Windows turns each `\n` into `\r\n`. The writer is modelled as POSIX and writes `\n`; the reader's translation (`LogFormat.Newlines`) reads either form back the same way.
- LogFormat.RoundTrips: a base name holding `\r` does not round-trip, because universal newlines end the line at that `\r`. Such names are excluded, and so are timestamps holding line ends.
- A `print` that raises is modelled where it changes what the program does: the announcement in the watcher (`Monitor.OnCreated`), the banner, announcements and summary lines of the startup scan (`Scanner.QueueRecentFiles`), the banner and removal messages of the cache cleanup (`Maintenance.CleanupUnusedModels`), and the worker's messages (`Worker.ProcessFile`). The console is a parameter: the number of prints that succeed before one raises. The other prints of `run_transcriber` and of the command line are not modelled; `run_transcriber` catches no exception from them.
- Monitor.Run: that an exception out of `on_created` ends watchdog's observer thread, so no later event is handled, is watchdog's behaviour; watchdog is not part of this model.
- Maintenance.CleanupUnusedModels: a removal message whose `print` raises `OSError` is swallowed by `except OSError` (`app/maintenance.py:54`), and the loop goes on. The model's raising print stands for any other exception, such as `UnicodeEncodeError`, which leaves the cleanup.
- Scanner.QueueRecentFiles: an exception out of the scan also leaves `run_transcriber` (`app/core.py:381`), which does not catch it; what follows is not modelled.
- Terminal output is not modelled: banners, colours, the text of `print` calls, `clear_screen`, `set_window_title`, `show_config`, the interactive wizard's prompts, `reset_application` and the health report's printing. Only the computed values the program prints or acts on are modelled.
- Formatting floats is left out, because it is floating-point text. This covers the duration text, `elapsed:.1f`, the bar's `percent:.0f` and the report's `rule_desc`. These strings are parameters or are not produced.
- Floating point is not modelled: memory sizes and factors, and also `time.time()` values, file mtimes and access times, the scan cutoff `now - hours * 3600` and the retention `now - atime`, are exact reals. An IEEE rounding case such as `24 * 0.7` is therefore not represented.
- Maintenance.BoundaryKept: the boundary case holds over exact reals. With IEEE doubles, `now - atime` for a file at the boundary can round to either side of the retention period.
- Scanner.CutoffExclusive: likewise, the boundary is exact over the reals. With IEEE doubles, `now - hours * 3600` can round so that a file at the intended cutoff lands on either side.
- Worker.ProcessFile: the console messages are modelled only by whether their `print` raises (the `Notice` set). Their text is not modelled.
- Ledger: SQLite is a map from file name to row. `init_db`, WAL mode and `chmod` are left out, because they have no effect on which names are recorded.
- `check_import` is left out, because it is a bare call to `importlib.util.find_spec`.
- Utils.ParseInt: underscores between digits and non-ASCII digits, which Python's `int()` also accepts, are not modelled.
- Utils.ShowLogs: the `*_daily.log` glob is a parameter (the matching files of each directory). The `errors="replace"` decoding is left out.
- Utils.MemoryInfo: errors from `torch.cuda.is_available` itself are not modelled.
- Config.WinJoin: drive letters and absolute second parts are not handled, because `LOCALAPPDATA` joins only relative parts.
- Config.LoadConfiguration: JSON parsing is a parameter (`None` for a file that cannot be read or parsed). The values are not type-checked, just as the source does not check them.
- Scanner.QueueRecentFiles: the folder test at `app/core.py:148` is modelled by whether the watched folder exists. The `SCAN_LOOKBACK_ENABLED` flag is checked by the caller at `app/core.py:380`.
- The names `LOG_FOLDER_PATH`, `SCAN_LOG_HISTORY_DAYS` and the root `config` module's factors are referenced but not defined in `app/config.py`. They are parameters.
- `format_duration` is called by the tests but is not defined in `app/utils.py`, so it is not part of this model.

=== FILE: config.dfy ===
/**
 * The user configuration (`app/config.py`): loading `config.json` over the built-in defaults,
 * saving it back, and choosing the WhatsApp media folder to watch.
 */
module Config {
  import opened Wrappers
  import opened Text

  /** A JSON value as `json.load` produces it; numbers are kept as reals. */
  datatype Json =
    | JNull
    | JBool(b: bool)
    | JNumber(n: real)
    | JString(s: string)
    | JArray(items: seq<Json>)
    | JObject(fields: map<string, Json>)

  /** The eleven settings `load_configuration` assigns. */
  datatype Key =
    | ModelSize | TranscriptionLanguage | ScanLookbackEnabled | ScanLookbackHours
    | ModelCleanupEnabled | ModelRetentionDays | EnableMpsFp16
    | SystemMemoryLimitFactor | NvidiaVramLimitFactor | FileReadyTimeout | ManualPathOverride

  /** The module-level settings `load_configuration` assigns. */
  datatype Settings = Settings(
    modelSize: Json, transcriptionLanguage: Json, scanLookbackEnabled: Json, scanLookbackHours: Json,
    modelCleanupEnabled: Json, modelRetentionDays: Json, enableMpsFp16: Json,
    systemMemoryLimitFactor: Json, nvidiaVramLimitFactor: Json, fileReadyTimeout: Json,
    manualPathOverride: Json)

  /** The current value of one setting. */
  function Get(s: Settings, k: Key): Json {
    match k
    case ModelSize => s.modelSize
    case TranscriptionLanguage => s.transcriptionLanguage
    case ScanLookbackEnabled => s.scanLookbackEnabled
    case ScanLookbackHours => s.scanLookbackHours
    case ModelCleanupEnabled => s.modelCleanupEnabled
    case ModelRetentionDays => s.modelRetentionDays
    case EnableMpsFp16 => s.enableMpsFp16
    case SystemMemoryLimitFactor => s.systemMemoryLimitFactor
    case NvidiaVramLimitFactor => s.nvidiaVramLimitFactor
    case FileReadyTimeout => s.fileReadyTimeout
    case ManualPathOverride => s.manualPathOverride
  }

  /** Settings are equal when every setting is. */
  lemma SettingsEqual(a: Settings, b: Settings)
    requires forall k: Key :: Get(a, k) == Get(b, k)
    ensures a == b
  {
    assert Get(a, ModelSize) == Get(b, ModelSize) && Get(a, TranscriptionLanguage) == Get(b, TranscriptionLanguage);
    assert Get(a, ScanLookbackEnabled) == Get(b, ScanLookbackEnabled) && Get(a, ScanLookbackHours) == Get(b, ScanLookbackHours);
    assert Get(a, ModelCleanupEnabled) == Get(b, ModelCleanupEnabled) && Get(a, ModelRetentionDays) == Get(b, ModelRetentionDays);
    assert Get(a, EnableMpsFp16) == Get(b, EnableMpsFp16) && Get(a, SystemMemoryLimitFactor) == Get(b, SystemMemoryLimitFactor);
    assert Get(a, NvidiaVramLimitFactor) == Get(b, NvidiaVramLimitFactor) && Get(a, FileReadyTimeout) == Get(b, FileReadyTimeout);
    assert Get(a, ManualPathOverride) == Get(b, ManualPathOverride);
  }

  /** The name of a setting, as a global and as a key of `config.json`. */
  function KeyName(k: Key): string {
    match k
    case ModelSize => "MODEL_SIZE"
    case TranscriptionLanguage => "TRANSCRIPTION_LANGUAGE"
    case ScanLookbackEnabled => "SCAN_LOOKBACK_ENABLED"
    case ScanLookbackHours => "SCAN_LOOKBACK_HOURS"
    case ModelCleanupEnabled => "MODEL_CLEANUP_ENABLED"
    case ModelRetentionDays => "MODEL_RETENTION_DAYS"
    case EnableMpsFp16 => "ENABLE_MPS_FP16"
    case SystemMemoryLimitFactor => "SYSTEM_MEMORY_LIMIT_FACTOR"
    case NvidiaVramLimitFactor => "NVIDIA_VRAM_LIMIT_FACTOR"
    case FileReadyTimeout => "FILE_READY_TIMEOUT"
    case ManualPathOverride => "MANUAL_PATH_OVERRIDE"
  }

  /** `DEFAULT_CONFIG`. */
  const DefaultConfig: Settings := Settings(
    JString("turbo"), JNull, JBool(true), JNumber(1.0), JBool(true), JNumber(3.0), JBool(false),
    JNumber(0.5), JNumber(0.7), JNumber(10.0), JNull)

  /** `user_config.get(name, DEFAULT_CONFIG[name])`. */
  function Lookup(fields: map<string, Json>, k: Key): Json {
    if KeyName(k) in fields then fields[KeyName(k)] else Get(DefaultConfig, k)
  }

  /** Every setting looked up in the document. */
  function Loaded(fields: map<string, Json>): (r: Settings)
    ensures forall k: Key :: Get(r, k) == Lookup(fields, k)
  {
    Settings(
      Lookup(fields, ModelSize), Lookup(fields, TranscriptionLanguage), Lookup(fields, ScanLookbackEnabled),
      Lookup(fields, ScanLookbackHours), Lookup(fields, ModelCleanupEnabled), Lookup(fields, ModelRetentionDays),
      Lookup(fields, EnableMpsFp16), Lookup(fields, SystemMemoryLimitFactor), Lookup(fields, NvidiaVramLimitFactor),
      Lookup(fields, FileReadyTimeout), Lookup(fields, ManualPathOverride))
  }

  /**
   * `load_configuration`: `(loaded, settings)`. A missing file returns false with the settings
   * as they were; so does any exception while reading or parsing (`parsed` is `None`) or a
   * document that is not a JSON object (its `.get` raises). Otherwise every one of the eleven
   * settings is assigned, from the document or from the defaults, whatever it was before.
   */
  function LoadConfiguration(current: Settings, fileExists: bool, parsed: Option<Json>): (r: (bool, Settings))
    ensures r.0 <==> fileExists && parsed.Some? && parsed.value.JObject?
    ensures !r.0 ==> r.1 == current
    ensures r.0 ==> forall k: Key :: Get(r.1, k) == if KeyName(k) in parsed.value.fields
      then parsed.value.fields[KeyName(k)] else Get(DefaultConfig, k)
  {
    if !fileExists then (false, current)
    else match parsed
      case Some(JObject(fields)) => (true, Loaded(fields))
      case _ => (false, current)
  }

  /** An empty document loads the defaults; in particular the model size is "turbo". */
  lemma EmptyDocumentLoadsDefaults(current: Settings)
    ensures LoadConfiguration(current, true, Some(JObject(map[]))) == (true, DefaultConfig)
    ensures LoadConfiguration(current, true, Some(JObject(map[]))).1.modelSize == JString("turbo")
  {
    SettingsEqual(Loaded(map[]), DefaultConfig);
  }

  /** The document's values win over the defaults: `MODEL_SIZE` "base" and `FILE_READY_TIMEOUT` 20 load as such, the rest as defaults. */
  lemma OverridesDefaults(current: Settings)
    ensures var r := LoadConfiguration(current, true,
        Some(JObject(map["MODEL_SIZE" := JString("base"), "FILE_READY_TIMEOUT" := JNumber(20.0)]))).1;
      r.modelSize == JString("base") && r.fileReadyTimeout == JNumber(20.0) && r.scanLookbackHours == JNumber(1.0)
  {
    assert KeyName(ScanLookbackHours) != "MODEL_SIZE" && KeyName(ScanLookbackHours) != "FILE_READY_TIMEOUT";
  }

  /** Names outside the eleven settings have no effect on what is loaded. */
  lemma UnknownKeysIgnored(current: Settings, f1: map<string, Json>, f2: map<string, Json>)
    requires forall k: Key :: Lookup(f1, k) == Lookup(f2, k)
    ensures LoadConfiguration(current, true, Some(JObject(f1))) == LoadConfiguration(current, true, Some(JObject(f2)))
  {
    SettingsEqual(Loaded(f1), Loaded(f2));
  }

  /** A document with no entry for any of the eleven names loads as the defaults, whatever else it holds. */
  lemma ForeignDocumentLoadsDefaults(current: Settings, fields: map<string, Json>)
    requires forall k: Key :: KeyName(k) !in fields
    ensures LoadConfiguration(current, true, Some(JObject(fields))) == (true, DefaultConfig)
  {
    SettingsEqual(Loaded(fields), DefaultConfig);
  }

  /** The eleven settings written out as a `config.json` document under their names. */
  function ToDocument(s: Settings): (r: map<string, Json>)
    ensures forall k: Key :: KeyName(k) in r
  {
    map[
      "MODEL_SIZE" := s.modelSize,
      "TRANSCRIPTION_LANGUAGE" := s.transcriptionLanguage,
      "SCAN_LOOKBACK_ENABLED" := s.scanLookbackEnabled,
      "SCAN_LOOKBACK_HOURS" := s.scanLookbackHours,
      "MODEL_CLEANUP_ENABLED" := s.modelCleanupEnabled,
      "MODEL_RETENTION_DAYS" := s.modelRetentionDays,
      "ENABLE_MPS_FP16" := s.enableMpsFp16,
      "SYSTEM_MEMORY_LIMIT_FACTOR" := s.systemMemoryLimitFactor,
      "NVIDIA_VRAM_LIMIT_FACTOR" := s.nvidiaVramLimitFactor,
      "FILE_READY_TIMEOUT" := s.fileReadyTimeout,
      "MANUAL_PATH_OVERRIDE" := s.manualPathOverride
    ]
  }

  /** Each setting is written under its own name. */
  lemma DocumentEntry(s: Settings, k: Key)
    ensures ToDocument(s)[KeyName(k)] == Get(s, k)
  {
    var doc := ToDocument(s);
    match k
    case ModelSize =>
    case TranscriptionLanguage =>
    case ScanLookbackEnabled =>
    case ScanLookbackHours =>
    case ModelCleanupEnabled =>
    case ModelRetentionDays =>
    case EnableMpsFp16 =>
    case SystemMemoryLimitFactor =>
    case NvidiaVramLimitFactor =>
    case FileReadyTimeout =>
    case ManualPathOverride =>
  }

  /** `config.json` on disk: whether it exists, and what `json.load` makes of it (`None` when it does not parse). */
  datatype ConfigFile = ConfigFile(present: bool, parsed: Option<Json>)

  /**
   * `save_configuration`: `open(..., "w")` then `json.dump`. A failed open leaves the file as
   * it was. A successful open truncates the file first, so a dump that then fails leaves an
   * empty or partly written document, which no longer parses; a completed dump stores the
   * document as one object.
   */
  function SaveConfiguration(file: ConfigFile, newConfig: map<string, Json>, openOk: bool, dumpOk: bool): (r: ConfigFile)
    ensures !openOk ==> r == file
    ensures openOk ==> r.present
    ensures openOk && dumpOk ==> r.parsed == Some(JObject(newConfig))
    ensures openOk && !dumpOk ==> r.parsed.None?
  {
    if !openOk then file
    else if dumpOk then ConfigFile(true, Some(JObject(newConfig)))
    else ConfigFile(true, None)
  }

  /** What `load_configuration` makes of the file as it is on disk. */
  function LoadFile(current: Settings, file: ConfigFile): (bool, Settings) {
    LoadConfiguration(current, file.present, file.parsed)
  }

  /** Saving a full set of settings and loading the file back returns those settings. */
  lemma SaveThenLoad(current: Settings, saved: Settings, file: ConfigFile)
    ensures LoadFile(current, SaveConfiguration(file, ToDocument(saved), true, true)) == (true, saved)
  {
    var doc := ToDocument(saved);
    forall k: Key
      ensures Get(Loaded(doc), k) == Get(saved, k)
    {
      DocumentEntry(saved, k);
    }
    SettingsEqual(Loaded(doc), saved);
  }

  /**
   * A save that fails after the open has destroyed the previous file: whatever it held, the
   * next load fails and keeps the settings it started with. A save whose open fails changes
   * nothing the next load sees.
   */
  lemma InterruptedSave(current: Settings, file: ConfigFile, newConfig: map<string, Json>)
    ensures LoadFile(current, SaveConfiguration(file, newConfig, true, false)) == (false, current)
    ensures LoadFile(current, SaveConfiguration(file, newConfig, false, false)) == LoadFile(current, file)
    ensures LoadFile(current, SaveConfiguration(file, newConfig, false, true)) == LoadFile(current, file)
  {
  }

  /** Loading is idempotent: saving what was loaded and loading it again gives the same settings. */
  lemma LoadTwice(current: Settings, fields: map<string, Json>, file: ConfigFile)
    ensures var once := LoadConfiguration(current, true, Some(JObject(fields))).1;
      LoadFile(once, SaveConfiguration(file, ToDocument(once), true, true)) == (true, once)
  {
    var once := LoadConfiguration(current, true, Some(JObject(fields))).1;
    SaveThenLoad(once, once, file);
  }

  /** Python truthiness of the override value: neither `None` nor the empty string. */
  predicate Truthy(path: Option<string>) {
    path.Some? && path.value != []
  }

  /**
   * `detect_whatsapp_path`: the manual override when it is set and names an existing path;
   * otherwise whatever auto-detection found, which may be nothing.
   */
  function DetectWhatsappPath(manualOverride: Option<string>, existing: set<string>, detected: Option<string>): (r: Option<string>)
    ensures Truthy(manualOverride) && manualOverride.value in existing ==> r == manualOverride
    ensures !(Truthy(manualOverride) && manualOverride.value in existing) ==> r == detected
  {
    if Truthy(manualOverride) && manualOverride.value in existing then manualOverride else detected
  }

  /** `ntpath.join` of a base and a relative part: a backslash is put between them unless the base is empty or ends with a separator. */
  function WinJoin(base: string, part: string): (r: string)
    ensures EndsWith(r, part)
  {
    if base == [] || base[|base| - 1] == '\\' || base[|base| - 1] == '/' then base + part
    else base + "\\" + part
  }

  /** The macOS App Store container. */
  function MacStorePath(home: string): string {
    PathJoin(home, "Library/Group Containers/group.net.whatsapp.WhatsApp.shared/Message/Media")
  }

  /** The macOS direct-download location. */
  function MacDirectPath(home: string): string {
    PathJoin(home, "Library/Application Support/WhatsApp/Media")
  }

  /** The Windows Store package folder under `LOCALAPPDATA`. */
  function WinStorePath(localAppData: string): string {
    WinJoin(localAppData, "Packages\\5319275A.WhatsAppDesktop_cv1g1gvanyjgm\\LocalState\\shared\\transfers")
  }

  /** The legacy Windows location under `LOCALAPPDATA`. */
  function WinLegacyPath(localAppData: string): string {
    WinJoin(localAppData, "WhatsApp\\Media")
  }

  /** The two places searched on a system, in priority order; none on other systems. */
  function Candidates(system: string, home: string, localAppData: string): (r: seq<string>)
    ensures |r| == 0 || |r| == 2
  {
    if system == "Darwin" then [MacStorePath(home), MacDirectPath(home)]
    else if system == "Windows" then [WinStorePath(localAppData), WinLegacyPath(localAppData)]
    else []
  }

  /** The first of the locations that exists, if any. */
  function FirstExisting(c: seq<string>, existing: set<string>): (r: Option<string>)
    ensures r.Some? ==> r.value in existing && r.value in c
    decreases |c|
  {
    if c == [] then None
    else if c[0] in existing then Some(c[0])
    else FirstExisting(c[1..], existing)
  }

  /** `FirstExisting` finds nothing exactly when no location exists, and otherwise the earliest one that does. */
  lemma {:induction false} FirstExistingIsFirst(c: seq<string>, existing: set<string>)
    ensures FirstExisting(c, existing).None? <==> forall i :: 0 <= i < |c| ==> c[i] !in existing
    ensures FirstExisting(c, existing).Some? ==>
      exists i :: 0 <= i < |c| && c[i] == FirstExisting(c, existing).value && forall j :: 0 <= j < i ==> c[j] !in existing
    decreases |c|
  {
    if c != [] && c[0] !in existing {
      FirstExistingIsFirst(c[1..], existing);
      assert forall i :: 1 <= i < |c| ==> c[1..][i - 1] == c[i];
      if FirstExisting(c, existing).Some? {
        var i :| 0 <= i < |c| - 1 && c[1..][i] == FirstExisting(c, existing).value &&
          forall j :: 0 <= j < i ==> c[1..][j] !in existing;
        assert c[i + 1] == FirstExisting(c, existing).value;
      }
    }
  }

  /** With two locations: the first if it exists, else the second if it exists. */
  lemma FirstOfTwo(a: string, b: string, existing: set<string>)
    ensures FirstExisting([a, b], existing) ==
      if a in existing then Some(a) else if b in existing then Some(b) else None
  {
    assert [a, b][1..] == [b];
    assert [b][1..] == [];
  }

  /**
   * `find_default_whatsapp_path`: the first of the system's locations that exists, nothing on
   * a system other than macOS and Windows; `LOCALAPPDATA` is the empty string when unset.
   */
  function FindDefaultWhatsappPath(system: string, home: string, localAppData: string, existing: set<string>): (r: Option<string>)
    ensures r.Some? ==> r.value in existing
    ensures system != "Darwin" && system != "Windows" ==> r.None?
  {
    FirstExisting(Candidates(system, home, localAppData), existing)
  }

  /** On macOS, when both locations exist the App Store container wins; when only the direct one exists it is used. */
  lemma MacPriority(home: string, existing: set<string>)
    ensures MacStorePath(home) in existing ==> FindDefaultWhatsappPath("Darwin", home, "", existing) == Some(MacStorePath(home))
    ensures MacStorePath(home) !in existing && MacDirectPath(home) in existing ==>
      FindDefaultWhatsappPath("Darwin", home, "", existing) == Some(MacDirectPath(home))
  {
    FirstOfTwo(MacStorePath(home), MacDirectPath(home), existing);
  }

  /** On Windows, the Store package folder wins over the legacy folder. */
  lemma WindowsPriority(localAppData: string, existing: set<string>)
    ensures WinStorePath(localAppData) in existing ==>
      FindDefaultWhatsappPath("Windows", "", localAppData, existing) == Some(WinStorePath(localAppData))
    ensures WinStorePath(localAppData) !in existing && WinLegacyPath(localAppData) in existing ==>
      FindDefaultWhatsappPath("Windows", "", localAppData, existing) == Some(WinLegacyPath(localAppData))
  {
    FirstOfTwo(WinStorePath(localAppData), WinLegacyPath(localAppData), existing);
  }

  /** End to end: an existing override beats detection; without one the detected folder is used. */
  lemma OverrideBeatsDetection(manualOverride: string, system: string, home: string, localAppData: string, existing: set<string>)
    ensures manualOverride != [] && manualOverride in existing ==>
      DetectWhatsappPath(Some(manualOverride), existing, FindDefaultWhatsappPath(system, home, localAppData, existing)) == Some(manualOverride)
    ensures DetectWhatsappPath(None, existing, FindDefaultWhatsappPath(system, home, localAppData, existing)) ==
      FindDefaultWhatsappPath(system, home, localAppData, existing)
  {
  }
}

=== FILE: ledger.dfy ===
/**
 * The processed-file ledger (`app/db.py`): a table keyed by a UNIQUE file name that is
 * written with insert-or-ignore, read by lookups that fail open, and filled once from the
 * daily transcript logs when it is empty.
 */
module Ledger {
  import opened Wrappers
  import opened Text
  import opened LogFormat

  /** The row kept for one file: its full path and the UTC time it was recorded. */
  datatype Record = Record(filepath: string, processedAt: string)

  /** The `processed_files` table, keyed by its UNIQUE `filename` column. */
  type Db = map<string, Record>

  /** Whether the database can be opened and queried; a failing store raises `sqlite3.Error`. */
  datatype Store = Available | Failing

  /** The `filepath` the backfill records for every name it recovers. */
  const MigratedPath: string := "migrated_from_log"

  /** `is_file_processed`: a database error is reported as "not processed". */
  function IsFileProcessed(db: Db, store: Store, filename: string): (r: bool)
    ensures r ==> filename in db
    ensures store.Failing? ==> !r
  {
    store.Available? && filename in db
  }

  /** `INSERT OR IGNORE`: a new name gains its row, a known name keeps the row it has. */
  function Insert(db: Db, filename: string, rec: Record): (r: Db)
    ensures r.Keys == db.Keys + {filename}
    ensures filename in db ==> r == db
    ensures filename !in db ==> r[filename] == rec
    ensures forall f :: f in db ==> r[f] == db[f]
  {
    if filename in db then db else db[filename := rec]
  }

  /** `add_processed_file`: insert-or-ignore of the name; a database error changes nothing. */
  function AddProcessedFile(db: Db, store: Store, filename: string, filepath: string, now: string): (r: Db)
    ensures store.Failing? ==> r == db
    ensures store.Available? ==> r.Keys == db.Keys + {filename}
    ensures forall f :: f in db ==> f in r && r[f] == db[f]
  {
    if store.Failing? then db else Insert(db, filename, Record(filepath, now))
  }

  /** `get_all_processed_filenames`: every key of the table, or nothing when the store fails. */
  function GetAllProcessedFilenames(db: Db, store: Store): (r: set<string>)
    ensures forall f :: f in r <==> IsFileProcessed(db, store, f)
  {
    if store.Failing? then {} else db.Keys
  }

  /** A recorded file is reported as processed, and the add changed nothing but that name's row. */
  lemma AddThenProcessed(db: Db, filename: string, filepath: string, now: string, other: string)
    requires other != filename
    ensures IsFileProcessed(AddProcessedFile(db, Available, filename, filepath, now), Available, filename)
    ensures IsFileProcessed(AddProcessedFile(db, Available, filename, filepath, now), Available, other) ==
      IsFileProcessed(db, Available, other)
  {
  }

  /** Adding a name twice is the same as adding it once: the first row wins. */
  lemma AddIdempotent(db: Db, store: Store, filename: string, p1: string, t1: string, p2: string, t2: string)
    ensures AddProcessedFile(AddProcessedFile(db, store, filename, p1, t1), store, filename, p2, t2) ==
      AddProcessedFile(db, store, filename, p1, t1)
  {
  }

  /** Two different names added to an empty ledger are listed as exactly two names. */
  lemma TwoAddsListTwo(f1: string, f2: string, p1: string, p2: string, now: string)
    requires f1 != f2
    ensures var db := AddProcessedFile(AddProcessedFile(map[], Available, f1, p1, now), Available, f2, p2, now);
      GetAllProcessedFilenames(db, Available) == {f1, f2} && |GetAllProcessedFilenames(db, Available)| == 2
  {
    var db := AddProcessedFile(AddProcessedFile(map[], Available, f1, p1, now), Available, f2, p2, now);
    assert db.Keys == {f1, f2};
  }

  /** A character the backfill pattern skips before the name: the bullet or whitespace (`[●\s]`). */
  predicate IsLead(c: char) {
    c == Bullet || IsSpace(c)
  }

  /** The greedy `^[●\s]*` prefix removed: what is left starts with neither. */
  function SkipLead(s: string): (r: string)
    ensures |r| <= |s| && r == s[|s| - |r|..]
    ensures r == [] || !IsLead(r[0])
    ensures forall i :: 0 <= i < |s| - |r| ==> IsLead(s[i])
  {
    if s != [] && IsLead(s[0]) then SkipLead(s[1..]) else s
  }

  lemma {:induction false} SkipLeadPadded(lead: string, t: string)
    requires forall i :: 0 <= i < |lead| ==> IsLead(lead[i])
    requires t == [] || !IsLead(t[0])
    ensures SkipLead(lead + t) == t
  {
    if lead != [] {
      assert (lead + t)[1..] == lead[1..] + t;
      SkipLeadPadded(lead[1..], t);
    } else {
      assert lead + t == t;
    }
  }

  /**
   * The group of `^[●\s]*(.*?)\s*\|` matched at the start of a line: the text after the
   * leading run up to the whitespace before the first `|`. No match when the line has no
   * `|`, or when a newline (which `.` refuses) falls inside the group.
   */
  function BackfillCapture(line: string): (r: Option<string>)
    ensures Pipe !in line ==> r.None?
    ensures r.Some? ==> IsTrimmed(r.value) && Pipe !in r.value && '\n' !in r.value
  {
    var rest := SkipLead(line);
    match FirstIndex(rest, Pipe)
    case None => None
    case Some(m) =>
      var group := TrimRight(rest[..m]);
      if '\n' in group then None
      else
        assert IsTrimmed(group) && Pipe !in group by {
          assert group == rest[..m][..|group|];
          assert group == [] || group[0] == rest[0];
        }
        Some(group)
  }

  /** One line of a daily log as the backfill reads it: only hourglass lines, the group stripped. */
  function BackfillName(line: string): (r: Option<string>)
    ensures r.Some? ==> Hourglass in line && Pipe in line
    ensures r.Some? ==> IsTrimmed(r.value) && Pipe !in r.value && '\n' !in r.value
  {
    if Hourglass !in line then None
    else match BackfillCapture(line)
      case None => None
      case Some(g) =>
        StripTrimmed(g);
        Some(Strip(g))
  }

  /** The capture once the leading run and the first separator are known. */
  lemma CaptureOf(line: string, t: string, m: nat, g: string)
    requires SkipLead(line) == t && FirstIndex(t, Pipe) == Some(m)
    requires TrimRight(t[..m]) == g && '\n' !in g
    ensures BackfillCapture(line) == Some(g)
  {
  }

  /** The stripped capture of an hourglass line is its name. */
  lemma NameOf(line: string, name: string)
    requires Hourglass in line && BackfillCapture(line) == Some(name)
    ensures BackfillName(line) == Some(name)
  {
    StripTrimmed(name);
  }

  /** The first `|` after a `|`-free prefix is the one right after it. */
  lemma PipeAfter(p: string, rest: string)
    requires Pipe !in p
    ensures FirstIndex(p + [Pipe] + rest, Pipe) == Some(|p|)
    ensures (p + [Pipe] + rest)[..|p|] == p
  {
    assert (p + [Pipe] + rest)[..|p|] == p;
    FirstIndexAt(p + [Pipe] + rest, Pipe, |p|);
  }

  /** A run of bullets and blanks followed by more blanks is still such a run. */
  lemma LeadThenSpace(lead: string, ws: string)
    requires forall i :: 0 <= i < |lead| ==> IsLead(lead[i])
    requires forall i :: 0 <= i < |ws| ==> IsSpace(ws[i])
    ensures forall i :: 0 <= i < |lead + ws| ==> IsLead((lead + ws)[i])
  {
    forall i | 0 <= i < |lead + ws|
      ensures IsLead((lead + ws)[i])
    {
      if i >= |lead| {
        assert (lead + ws)[i] == ws[i - |lead|];
      }
    }
  }

  /** Past the leading run, a non-empty name, blanks and `|` are captured as the name. */
  lemma CaptureName(name: string, ws: string, rest: string)
    requires forall i :: 0 <= i < |ws| ==> IsSpace(ws[i])
    requires name != [] && !IsSpace(name[|name| - 1])
    requires Pipe !in name
    ensures FirstIndex(name + ws + [Pipe] + rest, Pipe) == Some(|name| + |ws|)
    ensures TrimRight((name + ws + [Pipe] + rest)[..|name| + |ws|]) == name
  {
    assert Pipe !in ws;
    PipeAfter(name + ws, rest);
    TrimRightPadded(name, ws);
  }

  /** A line whose leading run reaches the `|` directly gives the empty name. */
  lemma BackfillEmptyOf(lead: string, ws: string, rest: string)
    requires forall i :: 0 <= i < |lead| ==> IsLead(lead[i])
    requires forall i :: 0 <= i < |ws| ==> IsSpace(ws[i])
    requires Hourglass in rest
    ensures BackfillName(lead + ws + [Pipe] + rest) == Some([])
  {
    var t := [Pipe] + rest;
    var line := (lead + ws) + t;
    assert lead + ws + [Pipe] + rest == line;
    assert Hourglass in line by {
      assert line == (lead + ws + [Pipe]) + rest;
    }
    LeadThenSpace(lead, ws);
    SkipLeadPadded(lead + ws, t);
    PipeAfter([], rest);
    assert [] + [Pipe] + rest == t;
    CaptureOf(line, t, 0, []);
    NameOf(line, []);
  }

  /** A line whose leading run stops at a non-empty name gives that name. */
  lemma BackfillNameOf(lead: string, name: string, ws: string, rest: string)
    requires forall i :: 0 <= i < |lead| ==> IsLead(lead[i])
    requires forall i :: 0 <= i < |ws| ==> IsSpace(ws[i])
    requires name != [] && !IsLead(name[0]) && !IsSpace(name[|name| - 1])
    requires Pipe !in name && '\n' !in name
    requires Hourglass in rest
    ensures BackfillName(lead + (name + ws + [Pipe] + rest)) == Some(name)
  {
    var t := name + ws + [Pipe] + rest;
    var line := lead + t;
    var m := |name| + |ws|;
    assert Hourglass in line by {
      assert line == (lead + name + ws + [Pipe]) + rest;
    }
    assert SkipLead(line) == t by {
      assert t[0] == name[0];
      SkipLeadPadded(lead, t);
    }
    assert FirstIndex(t, Pipe) == Some(m) && TrimRight(t[..m]) == name by {
      CaptureName(name, ws, rest);
    }
    CaptureOf(line, t, m, name);
    NameOf(line, name);
  }

  /**
   * The backfill recovers `name` from any hourglass line laid out as leading bullets and
   * blanks, the name, blanks, then `|`.
   */
  lemma BackfillOf(lead: string, name: string, ws: string, rest: string)
    requires forall i :: 0 <= i < |lead| ==> IsLead(lead[i])
    requires forall i :: 0 <= i < |ws| ==> IsSpace(ws[i])
    requires name == [] || (!IsLead(name[0]) && !IsSpace(name[|name| - 1]))
    requires Pipe !in name && '\n' !in name
    requires Hourglass in rest
    ensures BackfillName(lead + name + ws + [Pipe] + rest) == Some(name)
  {
    if name == [] {
      assert lead + name + ws + [Pipe] + rest == lead + ws + [Pipe] + rest;
      BackfillEmptyOf(lead, ws, rest);
    } else {
      assert lead + name + ws + [Pipe] + rest == lead + (name + ws + [Pipe] + rest);
      BackfillNameOf(lead, name, ws, rest);
    }
  }

  /** Round trip with the log writer: a metadata line is backfilled as its base name. */
  lemma BackfillReadsMetaPrefix(base: string, rest: string)
    requires RoundTrips(base)
    ensures BackfillName(MetaPrefix(base) + rest) == Some(base)
  {
    var tail := "  " + [Hourglass] + rest;
    assert MetaPrefix(base) + rest == [] + base + "  " + [Pipe] + tail;
    assert Hourglass in tail by {
      assert tail[2] == Hourglass;
    }
    BackfillOf([], base, "  ", tail);
  }

  /** On metadata lines the backfill and the startup history reader agree. */
  lemma ReadersAgree(base: string, rest: string)
    requires RoundTrips(base)
    ensures BackfillName(MetaPrefix(base) + rest) == HistoryLineName(MetaPrefix(base) + rest)
  {
    BackfillReadsMetaPrefix(base, rest);
    HistoryReadsMetaPrefix(base, rest);
  }

  /** A name the backfill reads back unchanged: it has no `|` or newline and no surrounding lead characters. */
  predicate PlainName(name: string) {
    name != [] && !IsLead(name[0]) && !IsSpace(name[|name| - 1]) && Pipe !in name && '\n' !in name
  }

  /** The file names of the backfill example are plain. */
  lemma ExampleNamesPlain()
    ensures PlainName("valid_file_1.mp3") && PlainName("valid_file_2.wav")
  {
  }

  /**
   * The first line of the backfill example, `valid_file_1.mp3 | ⏳ 1m 20s | ⏱ done in 5.0s`,
   * is read as its file name whatever follows the hourglass.
   */
  lemma BackfillExampleFirst(tail: string)
    ensures BackfillName("valid_file_1.mp3 | " + [Hourglass] + tail) == Some("valid_file_1.mp3")
  {
    var name := "valid_file_1.mp3";
    var rest := " " + [Hourglass] + tail;
    assert "valid_file_1.mp3 | " + [Hourglass] + tail == [] + name + " " + [Pipe] + rest by {
      assert "valid_file_1.mp3 | " == [] + name + " " + [Pipe] + " ";
    }
    assert Hourglass in rest by {
      assert rest[1] == Hourglass;
    }
    ExampleNamesPlain();
    BackfillOf([], name, " ", rest);
  }

  /**
   * The second line of the backfill example, `  valid_file_2.wav  | ⏳ 0m 30s | ⏱ done in 2.0s`,
   * indented and padded, is read as its file name whatever follows the hourglass.
   */
  lemma BackfillExampleSecond(tail: string)
    ensures BackfillName("  valid_file_2.wav  | " + [Hourglass] + tail) == Some("valid_file_2.wav")
  {
    var name := "valid_file_2.wav";
    var rest := " " + [Hourglass] + tail;
    assert "  valid_file_2.wav  | " + [Hourglass] + tail == "  " + name + "  " + [Pipe] + rest by {
      assert "  valid_file_2.wav  | " == "  " + name + "  " + [Pipe] + " ";
    }
    assert Hourglass in rest by {
      assert rest[1] == Hourglass;
    }
    ExampleNamesPlain();
    BackfillOf("  ", name, "  ", rest);
  }

  /** A header line without an hourglass is passed over. */
  lemma BackfillExampleHeader(line: string)
    requires line == "Ignored Header Line"
    ensures BackfillName(line) == None
  {
    assert Hourglass !in line;
  }

  /** The names a sequence of lines gives the backfill. */
  function LineNames(lines: seq<string>): set<string> {
    set l | l in lines && BackfillName(l).Some? :: BackfillName(l).value
  }

  /** `n` is among the names of `lines` exactly when some line is backfilled as `n`. */
  lemma LineNamesMembers(lines: seq<string>, n: string)
    ensures n in LineNames(lines) <==> exists k :: 0 <= k < |lines| && BackfillName(lines[k]) == Some(n)
  {
    if exists k :: 0 <= k < |lines| && BackfillName(lines[k]) == Some(n) {
      var k :| 0 <= k < |lines| && BackfillName(lines[k]) == Some(n);
      assert lines[k] in lines;
    }
    if n in LineNames(lines) {
      var l :| l in lines && BackfillName(l).Some? && BackfillName(l).value == n;
      var k :| 0 <= k < |lines| && lines[k] == l;
    }
  }

  /** The names one readable log file gives the backfill. */
  function FileBackfill(archive: Archive, faults: Faults, name: string): set<string> {
    if name !in archive then {} else LineNames(ReadLines(archive, faults, name))
  }

  /** `n` is backfilled from listing entry `name`: a daily log that opens and yields `n`. */
  predicate BackfillFrom(archive: Archive, faults: Faults, name: string, n: string) {
    EndsWith(name, DailySuffix) && name in archive && n in FileBackfill(archive, faults, name)
  }

  /** A listed daily log whose read raises `UnicodeDecodeError`, which no handler catches. */
  predicate DecodeFails(archive: Archive, faults: Faults, name: string) {
    EndsWith(name, DailySuffix) && name in archive && name in faults && faults[name].decode
  }

  /** The inner loop of the backfill: insert-or-ignore of every name the lines yield. */
  function InsertLines(db: Db, lines: seq<string>, now: string): (r: Db)
    ensures forall f :: f in db ==> f in r && r[f] == db[f]
    ensures forall f :: f in r && f !in db ==> r[f] == Record(MigratedPath, now)
    decreases |lines|
  {
    if lines == [] then db
    else
      var next := match BackfillName(lines[0])
        case None => db
        case Some(n) => Insert(db, n, Record(MigratedPath, now));
      InsertLines(next, lines[1..], now)
  }

  lemma {:induction false} InsertLinesKeys(db: Db, lines: seq<string>, now: string, n: string)
    ensures n in InsertLines(db, lines, now) <==>
      n in db || exists k :: 0 <= k < |lines| && BackfillName(lines[k]) == Some(n)
    decreases |lines|
  {
    if lines != [] {
      var next := match BackfillName(lines[0])
        case None => db
        case Some(x) => Insert(db, x, Record(MigratedPath, now));
      InsertLinesKeys(next, lines[1..], now, n);
      assert forall k :: 0 <= k < |lines| - 1 ==> lines[1..][k] == lines[k + 1];
      if exists k :: 0 <= k < |lines| && BackfillName(lines[k]) == Some(n) {
        var k :| 0 <= k < |lines| && BackfillName(lines[k]) == Some(n);
        if k > 0 {
          assert BackfillName(lines[1..][k - 1]) == Some(n);
        }
      }
    }
  }

  /**
   * The outer loop over the directory listing, in listing order. Names not ending in
   * `_daily.log` are passed over; a file that cannot be opened, or whose read raises an
   * `OSError`, keeps the rows already inserted and the loop goes on; a `UnicodeDecodeError`
   * leaves the loop and the function, so the transaction is never committed.
   */
  function MigrateFiles(db: Db, archive: Archive, faults: Faults, names: seq<string>, now: string): (r: Result<Db>)
    ensures r.Ok? ==> forall f :: f in db ==> f in r.value && r.value[f] == db[f]
    ensures r.Ok? ==> forall f :: f in r.value && f !in db ==> r.value[f] == Record(MigratedPath, now)
    decreases |names|
  {
    if names == [] then Ok(db)
    else
      var name := names[0];
      if !EndsWith(name, DailySuffix) || name !in archive then MigrateFiles(db, archive, faults, names[1..], now)
      else
        var next := InsertLines(db, ReadLines(archive, faults, name), now);
        if name in faults && faults[name].decode then Err("UnicodeDecodeError")
        else MigrateFiles(next, archive, faults, names[1..], now)
  }

  lemma {:induction false} MigrateFilesErr(db: Db, archive: Archive, faults: Faults, names: seq<string>, now: string)
    ensures MigrateFiles(db, archive, faults, names, now).Err? <==>
      exists k :: 0 <= k < |names| && DecodeFails(archive, faults, names[k])
    decreases |names|
  {
    if names != [] {
      var name := names[0];
      var next := if !EndsWith(name, DailySuffix) || name !in archive then db
        else InsertLines(db, ReadLines(archive, faults, name), now);
      MigrateFilesErr(next, archive, faults, names[1..], now);
      assert forall k :: 0 <= k < |names| - 1 ==> names[1..][k] == names[k + 1];
      if !DecodeFails(archive, faults, name) && exists k :: 0 <= k < |names| && DecodeFails(archive, faults, names[k]) {
        var k :| 0 <= k < |names| && DecodeFails(archive, faults, names[k]);
        assert k > 0 && DecodeFails(archive, faults, names[1..][k - 1]);
      }
    }
  }

  lemma {:induction false} MigrateFilesKeys(db: Db, archive: Archive, faults: Faults, names: seq<string>, now: string,
                                            n: string)
    requires MigrateFiles(db, archive, faults, names, now).Ok?
    ensures n in MigrateFiles(db, archive, faults, names, now).value <==>
      n in db || exists k :: 0 <= k < |names| && BackfillFrom(archive, faults, names[k], n)
    decreases |names|
  {
    if names != [] {
      var name := names[0];
      ShiftExists(archive, faults, names, n);
      if !EndsWith(name, DailySuffix) || name !in archive {
        MigrateFilesKeys(db, archive, faults, names[1..], now, n);
      } else {
        var lines := ReadLines(archive, faults, name);
        var next := InsertLines(db, lines, now);
        MigrateFilesKeys(next, archive, faults, names[1..], now, n);
        InsertLinesKeys(db, lines, now, n);
        LineNamesMembers(lines, n);
      }
    }
  }

  /** Splits an existential over the listing into its head and its tail. */
  lemma ShiftExists(archive: Archive, faults: Faults, names: seq<string>, n: string)
    requires names != []
    ensures (exists k :: 0 <= k < |names| && BackfillFrom(archive, faults, names[k], n)) <==>
      BackfillFrom(archive, faults, names[0], n) ||
      exists k :: 0 <= k < |names| - 1 && BackfillFrom(archive, faults, names[1..][k], n)
  {
    if exists k :: 0 <= k < |names| && BackfillFrom(archive, faults, names[k], n) {
      var k :| 0 <= k < |names| && BackfillFrom(archive, faults, names[k], n);
      if k > 0 {
        assert names[1..][k - 1] == names[k];
      }
    }
    if exists k :: 0 <= k < |names| - 1 && BackfillFrom(archive, faults, names[1..][k], n) {
      var k :| 0 <= k < |names| - 1 && BackfillFrom(archive, faults, names[1..][k], n);
      assert names[1..][k] == names[k + 1];
    }
  }

  /**
   * `migrate_from_logs`: nothing happens when the log directory is missing, when the
   * database fails, or when the table already holds a row; otherwise the listing is
   * backfilled inside one transaction, which a decode error abandons.
   */
  function MigrateFromLogs(db: Db, store: Store, dirExists: bool, listing: seq<string>,
                           archive: Archive, faults: Faults, now: string): (r: Result<Db>)
    ensures !dirExists || store.Failing? || |db| > 0 ==> r == Ok(db)
    ensures r.Ok? ==> forall f :: f in db ==> f in r.value && r.value[f] == db[f]
    ensures r.Ok? ==> forall f :: f in r.value && f !in db ==> r.value[f].filepath == MigratedPath
  {
    if !dirExists || store.Failing? || |db| > 0 then Ok(db)
    else MigrateFiles(db, archive, faults, listing, now)
  }

  /**
   * When the backfill runs, it fails exactly when a listed daily log raises a decode error,
   * and otherwise the ledger holds exactly the names the readable daily logs yield.
   */
  lemma MigrateRecoversLogNames(store: Store, dirExists: bool, listing: seq<string>,
                                archive: Archive, faults: Faults, now: string, n: string)
    requires dirExists && store.Available?
    ensures MigrateFromLogs(map[], store, dirExists, listing, archive, faults, now).Err? <==>
      exists k :: 0 <= k < |listing| && DecodeFails(archive, faults, listing[k])
    ensures MigrateFromLogs(map[], store, dirExists, listing, archive, faults, now).Ok? ==>
      (n in MigrateFromLogs(map[], store, dirExists, listing, archive, faults, now).value <==>
        exists k :: 0 <= k < |listing| && BackfillFrom(archive, faults, listing[k], n))
  {
    MigrateFilesErr(map[], archive, faults, listing, now);
    if MigrateFiles(map[], archive, faults, listing, now).Ok? {
      MigrateFilesKeys(map[], archive, faults, listing, now, n);
    }
  }
}

=== FILE: logformat.dfy ===
/**
 * The daily transcript log: the block `save_to_log` appends for every finished transcription,
 * Python's line iteration over a log file, and the startup reader `get_processed_history`
 * that recovers processed file names from the metadata lines.
 */
module LogFormat {
  import opened Wrappers
  import opened Text

  /** The transcript log directory: file name to file contents. */
  type Archive = map<string, string>

  /**
   * A read of one log file that raises after `afterLines` lines were delivered (0 when the
   * open itself fails). `decode` marks a UnicodeDecodeError; otherwise it is an OSError.
   */
  datatype ReadFault = ReadFault(afterLines: nat, decode: bool)

  /** The read faults the environment injects, by file name; files absent here read fully. */
  type Faults = map<string, ReadFault>

  const DailySuffix: string := "_daily.log"
  const HeaderWidth: nat := 80

  /** The file `save_to_log` writes to on a given calendar date (`%Y-%m-%d` text). */
  function DailyLogName(date: string): (r: string)
    ensures EndsWith(r, DailySuffix)
    ensures date <= r
  {
    date + DailySuffix
  }

  /** The header text before padding: `"─── <timestamp> INFO "`. */
  function HeaderStem(timestamp: string): string {
    [BoxDash, BoxDash, BoxDash, ' '] + timestamp + " INFO "
  }

  /** `str.ljust(80, "─")` of the header stem: padded with rule glyphs up to 80 characters. */
  function HeaderLine(timestamp: string): (r: string)
    ensures HeaderStem(timestamp) <= r
    ensures |r| == if |HeaderStem(timestamp)| < HeaderWidth then HeaderWidth else |HeaderStem(timestamp)|
    ensures forall i :: |HeaderStem(timestamp)| <= i < |r| ==> r[i] == BoxDash
  {
    var stem := HeaderStem(timestamp);
    stem + Repeat(BoxDash, HeaderWidth - |stem|)
  }

  /** What every metadata line starts with: the base name, the separator and the hourglass. */
  function MetaPrefix(base: string): string {
    base + "  " + [Pipe] + "  " + [Hourglass]
  }

  /** `"<basename>  |  ⏳ <duration>  |  ⏱ done in <elapsed>s"`; `elapsed` is the `.1f` text. */
  function MetaLine(base: string, duration: string, elapsed: string): (r: string)
    ensures MetaPrefix(base) <= r
    ensures EndsWith(r, "s")
  {
    MetaPrefix(base) + " " + duration + "  " + [Pipe] + "  " + [Stopwatch] + " done in " + elapsed + "s"
  }

  /**
   * The block appended for one transcription: header, metadata line, blank line, the stripped
   * text, blank line. `base` is the base name of the audio file.
   */
  function Entry(timestamp: string, text: string, base: string, duration: string, elapsed: string): string {
    HeaderLine(timestamp) + "\n" + EntryBody(text, base, duration, elapsed)
  }

  /** Everything of an entry after its header line. */
  function EntryBody(text: string, base: string, duration: string, elapsed: string): string {
    MetaLine(base, duration, elapsed) + EntryText(text)
  }

  /** The transcript itself, stripped, between two blank lines. */
  function EntryText(text: string): string {
    "\n\n" + Strip(text) + "\n\n"
  }

  /** What a log file holds before an append: its text, or nothing when it does not exist yet. */
  function Existing(archive: Archive, name: string): string {
    if name in archive then archive[name] else []
  }

  /** Opening `name` in append mode and writing `e`: only that file changes, by gaining `e` at its end. */
  function AppendTo(archive: Archive, name: string, e: string): (r: Archive)
    ensures r.Keys == archive.Keys + {name}
    ensures r[name] == Existing(archive, name) + e
    ensures forall f :: f in archive && f != name ==> r[f] == archive[f]
  {
    archive[name := Existing(archive, name) + e]
  }

  /**
   * How the `open(log_file, "a")` and `f.write(log_entry)` of `save_to_log` end: the open
   * raises; the write (or the flush when the file is closed) raises after the first `kept`
   * characters of the entry reached the file; or the whole entry is written.
   */
  datatype LogWrite = OpenFails | WriteFails(kept: nat) | Written

  /**
   * `save_to_log`: `Err` when creating the log directory raises (that call is outside the
   * function's try). An `IOError` from the open or the write is swallowed: a failed open
   * leaves the archive as it was, a write failing part-way leaves the part of the entry that
   * reached the file at its end. Otherwise the whole entry is appended to the day's file.
   */
  function SaveToLog(archive: Archive, date: string, timestamp: string, text: string, sourceFile: string,
                     duration: string, elapsed: string, dirOk: bool, write: LogWrite): (r: Result<Archive>)
    ensures r.Err? <==> !dirOk
    ensures dirOk && write == OpenFails ==> r == Ok(archive)
    ensures dirOk && write == Written ==>
      r == Ok(AppendTo(archive, DailyLogName(date), Entry(timestamp, text, Basename(sourceFile), duration, elapsed)))
  {
    if !dirOk then Err("OSError")
    else
      var e := Entry(timestamp, text, Basename(sourceFile), duration, elapsed);
      match write
      case OpenFails => Ok(archive)
      case WriteFails(kept) => Ok(AppendTo(archive, DailyLogName(date), e[..if kept < |e| then kept else |e|]))
      case Written => Ok(AppendTo(archive, DailyLogName(date), e))
  }

  /**
   * A write failing part-way after `kept` characters: the day's file keeps its old text,
   * followed by the first `kept` characters of the entry (all of it when `kept` reaches its
   * length); it exists afterwards, and no other file changes.
   */
  lemma PartialWriteKeepsPrefix(archive: Archive, date: string, timestamp: string, text: string, sourceFile: string,
                                duration: string, elapsed: string, kept: nat)
    ensures var r := SaveToLog(archive, date, timestamp, text, sourceFile, duration, elapsed, true, WriteFails(kept));
      var name := DailyLogName(date);
      var before := Existing(archive, name);
      var e := Entry(timestamp, text, Basename(sourceFile), duration, elapsed);
      && r.Ok?
      && r.value.Keys == archive.Keys + {name}
      && (forall f :: f in archive && f != name ==> r.value[f] == archive[f])
      && before <= r.value[name]
      && r.value[name][|before|..] <= e
      && |r.value[name]| - |before| == (if kept < |e| then kept else |e|)
  {
    var name := DailyLogName(date);
    var e := Entry(timestamp, text, Basename(sourceFile), duration, elapsed);
    var part := e[..if kept < |e| then kept else |e|];
    var r := AppendTo(archive, name, part);
    assert r[name][|Existing(archive, name)|..] == part;
  }

  /** Concatenation of a sequence of lines. */
  function Join(lines: seq<string>): string {
    if lines == [] then [] else lines[0] + Join(lines[1..])
  }

  /**
   * Python's universal-newline translation when a log file is read in text mode: `"\r\n"` and
   * a lone `"\r"` each become one `"\n"`; every other character is kept.
   */
  function Newlines(s: string): (r: string)
    ensures '\r' !in r
    ensures |r| <= |s| && (s == [] <==> r == [])
    decreases |s|
  {
    if s == [] then []
    else if s[0] == '\r' then
      if |s| > 1 && s[1] == '\n' then "\n" + Newlines(s[2..]) else "\n" + Newlines(s[1..])
    else [s[0]] + Newlines(s[1..])
  }

  /** A prefix without carriage returns passes through the translation untouched. */
  lemma {:induction false} NewlinesPrefix(p: string, rest: string)
    requires '\r' !in p
    ensures Newlines(p + rest) == p + Newlines(rest)
    decreases |p|
  {
    if p == [] {
      assert p + rest == rest;
    } else {
      var s := p + rest;
      assert s[0] == p[0] && s[1..] == p[1..] + rest;
      assert '\r' !in p[1..] by {
        assert forall k :: 0 <= k < |p| - 1 ==> p[1..][k] == p[k + 1];
      }
      NewlinesPrefix(p[1..], rest);
      assert p == [p[0]] + p[1..];
    }
  }

  /** Text without carriage returns reads back exactly as written. */
  lemma NewlinesPlain(s: string)
    requires '\r' !in s
    ensures Newlines(s) == s
  {
    NewlinesPrefix(s, []);
    assert s + [] == s;
  }

  /** Translating a text that ends with a complete line does not look past that line's end. */
  lemma {:induction false} NewlinesAppend(a: string, b: string)
    requires CompleteLines(a)
    ensures Newlines(a + b) == Newlines(a) + Newlines(b)
    ensures CompleteLines(Newlines(a))
    decreases |a|
  {
    if a == [] {
      assert a + b == b;
    } else if |a| == 1 {
      assert a == "\n";
      assert a + b == "\n" + b;
      assert Newlines(a) == "\n" + Newlines([]);
      assert ("\n" + b)[1..] == b;
    } else {
      var k, c := NewlinesStep(a, b);
      var t := a[k..];
      assert CompleteLines(t) by {
        if t != [] {
          assert t[|t| - 1] == a[|a| - 1];
        }
      }
      NewlinesAppend(t, b);
      AppendAssoc([c], Newlines(t), Newlines(b));
    }
  }

  /** One step of the translation of `a` and of `a + b`: the first `k` characters of `a` become `c`. */
  lemma NewlinesStep(a: string, b: string) returns (k: nat, c: char)
    requires |a| >= 2 && CompleteLines(a)
    ensures 1 <= k <= 2
    ensures Newlines(a) == [c] + Newlines(a[k..])
    ensures Newlines(a + b) == [c] + Newlines(a[k..] + b)
    ensures a[k..] == [] ==> c == '\n'
  {
    var s := a + b;
    assert s[0] == a[0] && s[1] == a[1];
    k := if a[0] == '\r' && a[1] == '\n' then 2 else 1;
    c := if a[0] == '\r' then '\n' else a[0];
    assert s[k..] == a[k..] + b;
  }

  /**
   * Splitting translated text into lines as Python's file iteration does: each line keeps its
   * terminating newline; the last line has none when the text does not end with one.
   */
  function SplitLines(s: string): (r: seq<string>)
    ensures s == [] <==> r == []
    decreases |s|
  {
    if s == [] then []
    else match FirstIndex(s, '\n')
      case None => [s]
      case Some(i) => [s[..i + 1]] + SplitLines(s[i + 1..])
  }

  /** A line as the splitter cuts it: not empty, and holding a newline at most as its last character. */
  predicate IsLine(l: string) {
    l != [] && '\n' !in l[..|l| - 1]
  }

  /** Every piece is a line, and every line but the last ends with its newline. */
  predicate LineShaped(r: seq<string>) {
    && (forall k :: 0 <= k < |r| ==> IsLine(r[k]))
    && (forall k :: 0 <= k < |r| - 1 ==> r[k][|r[k]| - 1] == '\n')
  }

  /** The splitter cuts at each newline and nowhere else. */
  lemma {:induction false} SplitLinesShape(s: string)
    ensures LineShaped(SplitLines(s))
    decreases |s|
  {
    if s != [] {
      match FirstIndex(s, '\n')
      case None =>
        assert SplitLines(s) == [s];
        assert s[..|s| - 1] <= s;
      case Some(i) =>
        var rest := SplitLines(s[i + 1..]);
        SplitLinesShape(s[i + 1..]);
        SplitLinesStep(s, i);
        LineShapedCons(s[..i + 1], rest);
    }
  }

  /** A line ending in a newline, followed by shaped lines, is shaped. */
  lemma LineShapedCons(l: string, rest: seq<string>)
    requires l != [] && l[|l| - 1] == '\n' && '\n' !in l[..|l| - 1]
    requires LineShaped(rest)
    ensures LineShaped([l] + rest)
  {
    var r := [l] + rest;
    assert forall k :: 1 <= k < |r| ==> r[k] == rest[k - 1];
  }

  /** The lines Python's `for line in f` yields from a log file with the given contents. */
  function Lines(s: string): (r: seq<string>)
    ensures s == [] <==> r == []
  {
    SplitLines(Newlines(s))
  }

  /**
   * Each line read is non-empty and holds a newline only as its last character; every line
   * but the last ends with one; and no line holds a carriage return.
   */
  lemma LinesShape(s: string)
    ensures LineShaped(Lines(s))
    ensures forall k :: 0 <= k < |Lines(s)| ==> '\r' !in Lines(s)[k]
  {
    SplitLinesShape(Newlines(s));
    forall k | 0 <= k < |Lines(s)|
      ensures '\r' !in Lines(s)[k]
    {
      SplitLinesInside(Newlines(s), k);
    }
  }

  /** Every character of a line comes from the text. */
  lemma {:induction false} SplitLinesInside(s: string, k: nat)
    requires k < |SplitLines(s)|
    ensures forall c :: c in SplitLines(s)[k] ==> c in s
    decreases |s|
  {
    match FirstIndex(s, '\n')
    case None =>
    case Some(i) =>
      SplitLinesStep(s, i);
      if k == 0 {
        assert forall c :: c in s[..i + 1] ==> c in s;
      } else {
        SplitLinesInside(s[i + 1..], k - 1);
        assert forall c :: c in s[i + 1..] ==> c in s;
      }
  }

  /**
   * Joining the lines gives back the file's text with its line ends translated: nothing is lost
   * or reordered, and a text without carriage returns comes back exactly.
   */
  lemma LinesJoin(s: string)
    ensures Join(Lines(s)) == Newlines(s)
    ensures '\r' !in s ==> Join(Lines(s)) == s
  {
    SplitLinesJoin(Newlines(s));
    if '\r' !in s {
      NewlinesPlain(s);
    }
  }

  /** A carriage return, alone or followed by a newline, ends a line just as a newline does. */
  lemma CarriageReturnEndsLine(x: string, rest: string)
    requires OneLine(x)
    ensures Lines(x + "\r\n" + rest) == [x + "\n"] + Lines(rest)
    ensures rest == [] || rest[0] != '\n' ==> Lines(x + "\r" + rest) == [x + "\n"] + Lines(rest)
  {
    var crlf := "\r\n" + rest;
    assert x + "\r\n" + rest == x + crlf;
    NewlinesCrLf(rest);
    TranslatedLineEnd(x, crlf, rest);
    if rest == [] || rest[0] != '\n' {
      var cr := "\r" + rest;
      assert x + "\r" + rest == x + cr;
      NewlinesCr(rest);
      TranslatedLineEnd(x, cr, rest);
    }
  }

  lemma NewlinesCrLf(rest: string)
    ensures Newlines("\r\n" + rest) == "\n" + Newlines(rest)
  {
    var s := "\r\n" + rest;
    assert s[0] == '\r' && s[1] == '\n' && s[2..] == rest;
  }

  lemma NewlinesCr(rest: string)
    requires rest == [] || rest[0] != '\n'
    ensures Newlines("\r" + rest) == "\n" + Newlines(rest)
  {
    var s := "\r" + rest;
    assert s[0] == '\r' && s[1..] == rest;
  }

  /** `x` followed by a line end whose translation is one newline and then `rest`. */
  lemma TranslatedLineEnd(x: string, end: string, rest: string)
    requires OneLine(x)
    requires Newlines(end) == "\n" + Newlines(rest)
    ensures Lines(x + end) == [x + "\n"] + Lines(rest)
  {
    NewlinesPrefix(x, end);
    assert x + ("\n" + Newlines(rest)) == x + "\n" + Newlines(rest);
    SplitLinesCons(x, Newlines(rest));
  }

  /** Joining the split lines gives back the text. */
  lemma {:induction false} SplitLinesJoin(s: string)
    ensures Join(SplitLines(s)) == s
    decreases |s|
  {
    if s != [] {
      var f := FirstIndex(s, '\n');
      if f.None? {
        JoinOne(s);
      } else {
        var i := f.value;
        SplitLinesJoinStep(s, i);
        SplitLinesJoin(s[i + 1..]);
      }
    }
  }

  lemma JoinOne(s: string)
    ensures Join([s]) == s
  {
    assert [s][1..] == [];
  }

  lemma SplitLinesJoinStep(s: string, i: nat)
    requires FirstIndex(s, '\n') == Some(i)
    ensures Join(SplitLines(s)) == s[..i + 1] + Join(SplitLines(s[i + 1..]))
    ensures s[..i + 1] + s[i + 1..] == s
  {
    SplitLinesStep(s, i);
    JoinCons(s[..i + 1], SplitLines(s[i + 1..]));
  }

  lemma JoinCons(x: string, rest: seq<string>)
    ensures Join([x] + rest) == x + Join(rest)
  {
    assert ([x] + rest)[1..] == rest;
  }

  /** A file that ends with a complete line splits independently of what is appended to it. */
  lemma LinesAppend(a: string, b: string)
    requires CompleteLines(a)
    ensures Lines(a + b) == Lines(a) + Lines(b)
  {
    NewlinesAppend(a, b);
    SplitLinesAppend(Newlines(a), Newlines(b));
  }

  lemma {:induction false} SplitLinesAppend(a: string, b: string)
    requires CompleteLines(a)
    ensures SplitLines(a + b) == SplitLines(a) + SplitLines(b)
    decreases |a|, 1
  {
    if a == [] {
      assert a + b == b;
      assert SplitLines(a) == [];
    } else {
      var i := FirstIndex(a, '\n').value;
      var rest := a[i + 1..];
      var first := [a[..i + 1]];
      assert CompleteLines(rest);
      calc {
        SplitLines(a + b);
      == { SplitLinesAppendSplit(a, b, i); }
        first + SplitLines(rest + b);
      == { SplitLinesAppend(rest, b); }
        first + (SplitLines(rest) + SplitLines(b));
      == { AppendAssoc(first, SplitLines(rest), SplitLines(b)); }
        (first + SplitLines(rest)) + SplitLines(b);
      == { SplitLinesStep(a, i); }
        SplitLines(a) + SplitLines(b);
      }
    }
  }

  /** Splitting `a + b` at the first newline of `a`. */
  lemma SplitLinesAppendSplit(a: string, b: string, i: nat)
    requires FirstIndex(a, '\n') == Some(i)
    ensures SplitLines(a + b) == [a[..i + 1]] + SplitLines(a[i + 1..] + b)
  {
    FirstIndexAppend(a, b, '\n', i);
    SplitLinesStep(a + b, i);
    assert (a + b)[i + 1..] == a[i + 1..] + b;
    assert (a + b)[..i + 1] == a[..i + 1];
  }

  /** The first occurrence in `a` stays the first one after appending to `a`. */
  lemma FirstIndexAppend(a: string, b: string, c: char, i: nat)
    requires FirstIndex(a, c) == Some(i)
    ensures FirstIndex(a + b, c) == Some(i)
  {
    assert (a + b)[..i] == a[..i];
    FirstIndexAt(a + b, c, i);
  }

  lemma AppendAssoc<T>(x: seq<T>, y: seq<T>, z: seq<T>)
    ensures x + (y + z) == (x + y) + z
  {
  }

  /** One step of the line splitter. */
  lemma SplitLinesStep(s: string, i: nat)
    requires FirstIndex(s, '\n') == Some(i)
    ensures SplitLines(s) == [s[..i + 1]] + SplitLines(s[i + 1..])
  {
  }

  /** A first line that starts with a newline-free `p` keeps `p` as its prefix. */
  lemma FirstLineStartsWith(p: string, rest: string)
    requires '\n' !in p && p != []
    ensures SplitLines(p + rest) != [] && p <= SplitLines(p + rest)[0]
  {
    var s := p + rest;
    match FirstIndex(s, '\n')
    case None =>
    case Some(i) =>
      assert i >= |p| by {
        assert forall k :: 0 <= k < |p| ==> s[k] == p[k];
      }
      assert s[..i + 1][..|p|] == p;
  }

  /** A line that is `x` plus a newline is split off as one line. */
  lemma SplitLinesCons(x: string, rest: string)
    requires '\n' !in x
    ensures SplitLines(x + "\n" + rest) == [x + "\n"] + SplitLines(rest)
  {
    var s := x + "\n" + rest;
    assert s[..|x|] == x;
    FirstIndexAt(s, '\n', |x|);
    assert s[|x| + 1..] == rest;
    assert s[..|x| + 1] == x + "\n";
  }

  /** The lines a reader obtains from `name` before any injected fault interrupts it. */
  function ReadLines(archive: Archive, faults: Faults, name: string): (r: seq<string>)
    requires name in archive
    ensures r <= Lines(archive[name])
    ensures name !in faults ==> r == Lines(archive[name])
  {
    var all := Lines(archive[name]);
    if name in faults && faults[name].afterLines < |all| then all[..faults[name].afterLines] else all
  }

  /**
   * One line as `get_processed_history` reads it: only lines holding both `|` and the
   * hourglass count; the name is the text before the first `|`, bullets removed, stripped.
   */
  function HistoryLineName(line: string): (r: Option<string>)
    ensures r.Some? <==> Pipe in line && Hourglass in line
    ensures r.Some? ==> IsTrimmed(r.value) && Pipe !in r.value && Bullet !in r.value
  {
    if Pipe in line && Hourglass in line then
      var name := Strip(RemoveAll(BeforeFirst(line, Pipe), Bullet));
      StripKeepsAbsent(RemoveAll(BeforeFirst(line, Pipe), Bullet), Pipe);
      StripKeepsAbsent(RemoveAll(BeforeFirst(line, Pipe), Bullet), Bullet);
      Some(name)
    else None
  }

  lemma StripKeepsAbsent(s: string, c: char)
    requires c !in s
    ensures c !in Strip(s)
  {
    var r := Strip(s);
    var i :| SliceAt(r, s, i);
    assert forall k :: 0 <= k < |r| ==> r[k] == s[i + k];
  }

  /** The names one log file contributes to the history. */
  function FileNames(archive: Archive, faults: Faults, name: string): set<string> {
    if name !in archive then {}
    else set l | l in ReadLines(archive, faults, name) && HistoryLineName(l).Some? :: HistoryLineName(l).value
  }

  /** The log file of the day `offset` days before `today`, as the calendar names it. */
  function DayFile(dateName: int -> string, today: int, offset: int): string {
    DailyLogName(dateName(today - offset))
  }

  /** The names the log of the day `offset` days before `today` yields. */
  function DayNames(archive: Archive, faults: Faults, dateName: int -> string, today: int): int -> set<string> {
    offset => FileNames(archive, faults, DayFile(dateName, today, offset))
  }

  /** `f(0) + f(1) + ... + f(n - 1)`. */
  function UnionUpTo(f: int -> set<string>, n: int): (r: set<string>)
    ensures n <= 0 ==> r == {}
    decreases n
  {
    if n <= 0 then {} else UnionUpTo(f, n - 1) + f(n - 1)
  }

  lemma {:induction false} UnionUpToMembers(f: int -> set<string>, n: int, v: string)
    ensures v in UnionUpTo(f, n) <==> exists k :: 0 <= k < n && v in f(k)
    decreases n
  {
    if n > 0 {
      UnionUpToMembers(f, n - 1, v);
      if v !in f(n - 1) && exists k :: 0 <= k < n && v in f(k) {
        var k :| 0 <= k < n && v in f(k);
        assert k != n - 1;
      }
    }
  }

  /**
   * `get_processed_history(days)`: the names read from the logs of today and the `days - 1`
   * days before it; nothing when the log directory is missing. A read fault keeps the names
   * already taken from that file and moves on to the next day.
   */
  function GetProcessedHistory(dirExists: bool, archive: Archive, faults: Faults,
                               dateName: int -> string, today: int, days: int): (r: set<string>)
    ensures !dirExists || days <= 0 ==> r == {}
  {
    if !dirExists then {} else UnionUpTo(DayNames(archive, faults, dateName, today), days)
  }

  /** A name is in the history exactly when the log of some day inside the window yields it. */
  lemma HistoryMembers(dirExists: bool, archive: Archive, faults: Faults,
                       dateName: int -> string, today: int, days: int, v: string)
    ensures v in GetProcessedHistory(dirExists, archive, faults, dateName, today, days) <==>
      dirExists && exists offset :: 0 <= offset < days && v in FileNames(archive, faults, DayFile(dateName, today, offset))
  {
    var f := DayNames(archive, faults, dateName, today);
    UnionUpToMembers(f, days, v);
    assert forall k :: f(k) == FileNames(archive, faults, DayFile(dateName, today, k));
  }

  /** Text that stays on one line when read back: no newline and no carriage return. */
  predicate OneLine(s: string) {
    '\n' !in s && '\r' !in s
  }

  /** A file name the writer can round-trip: no separator, bullet or line end, no outer blanks. */
  predicate RoundTrips(base: string) {
    Pipe !in base && Bullet !in base && OneLine(base) && IsTrimmed(base)
  }

  /** Any line that starts like a metadata line is read back as its base name. */
  lemma HistoryReadsMetaPrefix(base: string, rest: string)
    requires RoundTrips(base)
    ensures HistoryLineName(MetaPrefix(base) + rest) == Some(base)
  {
    var line := MetaPrefix(base) + rest;
    assert line == (base + "  ") + [Pipe] + ("  " + [Hourglass] + rest);
    assert line[|base| + 5] == Hourglass;
    BeforeFirstOf(base + "  ", Pipe, "  " + [Hourglass] + rest);
    assert RemoveAll(base + "  ", Bullet) == base + "  ";
    StripPadded([], base, "  ");
    assert [] + base + "  " == base + "  ";
  }

  /** The second line of every entry starts with its metadata prefix. */
  lemma EntrySecondLine(timestamp: string, text: string, base: string, duration: string, elapsed: string)
    requires OneLine(timestamp) && OneLine(base)
    ensures |Lines(Entry(timestamp, text, base, duration, elapsed))| >= 2
    ensures MetaPrefix(base) <= Lines(Entry(timestamp, text, base, duration, elapsed))[1]
  {
    var h := HeaderLine(timestamp);
    var body := EntryBody(text, base, duration, elapsed);
    var p := MetaPrefix(base);
    HeaderLineOneLine(timestamp);
    EntryBodyStartsWithMeta(text, base, duration, elapsed);
    MetaPrefixOneLine(base);
    assert '\r' !in h + "\n";
    NewlinesPrefix(h + "\n", body);
    PrefixRest(p, body);
    NewlinesPrefix(p, body[|p|..]);
    SecondLineStartsWith(h, Newlines(body), p);
  }

  lemma MetaPrefixOneLine(base: string)
    requires OneLine(base)
    ensures OneLine(MetaPrefix(base)) && MetaPrefix(base) != []
  {
    var p := MetaPrefix(base);
    assert p[|base| + 2] == Pipe;
    forall k | 0 <= k < |p|
      ensures p[k] != '\n' && p[k] != '\r'
    {
      if k < |base| {
        assert p[k] == base[k];
      }
    }
  }

  lemma EntryBodyStartsWithMeta(text: string, base: string, duration: string, elapsed: string)
    ensures MetaPrefix(base) <= EntryBody(text, base, duration, elapsed)
  {
    PrefixAppend(MetaPrefix(base), MetaLine(base, duration, elapsed), EntryText(text));
  }

  /** After a newline-free first line, a second line starting with a newline-free `p` keeps `p`. */
  lemma SecondLineStartsWith(h: string, tail: string, p: string)
    requires '\n' !in h && '\n' !in p && p != [] && p <= tail
    ensures |SplitLines(h + "\n" + tail)| >= 2 && p <= SplitLines(h + "\n" + tail)[1]
  {
    SplitLinesCons(h, tail);
    assert tail == p + tail[|p|..];
    FirstLineStartsWith(p, tail[|p|..]);
  }

  /** The padded header never contains a newline of its own. */
  lemma HeaderLineOneLine(timestamp: string)
    requires OneLine(timestamp)
    ensures OneLine(HeaderLine(timestamp))
  {
    var r := HeaderLine(timestamp);
    var stem := HeaderStem(timestamp);
    assert OneLine(stem);
    forall k | 0 <= k < |r|
      ensures r[k] != '\n' && r[k] != '\r'
    {
      if k < |stem| {
        assert r[k] == stem[k];
      }
    }
  }

  /**
   * Round trip of the writer and the history reader: after `save_to_log` appends an entry
   * for `sourceFile` to the day's log, whatever that log held before (even an unfinished
   * last line), reading it back yields the file's base name.
   */
  lemma SavedEntryIsRead(archive: Archive, date: string, timestamp: string, text: string, sourceFile: string,
                         duration: string, elapsed: string)
    requires OneLine(timestamp)
    requires RoundTrips(Basename(sourceFile))
    ensures var after := SaveToLog(archive, date, timestamp, text, sourceFile, duration, elapsed, true, Written).value;
      Basename(sourceFile) in FileNames(after, map[], DailyLogName(date))
  {
    var base := Basename(sourceFile);
    var name := DailyLogName(date);
    var after := AppendTo(archive, name, Entry(timestamp, text, base, duration, elapsed));
    SaveToLogAppends(archive, date, timestamp, text, sourceFile, duration, elapsed);
    var line := EntryMetaLine(Existing(archive, name), timestamp, text, base, duration, elapsed);
    LineInFileNames(after, name, line, base);
  }

  /** A text made of complete lines: it is empty or ends with a newline. */
  predicate CompleteLines(s: string) {
    s == [] || s[|s| - 1] == '\n'
  }

  /**
   * An entry cut off by a failed write does not hide the next one: after a write that fails
   * part-way, the next successful save for another file is still read back.
   */
  lemma CutOffEntryKeepsNextReadable(archive: Archive, date: string, kept: nat,
                                     timestamp1: string, text1: string, sourceFile1: string, duration1: string, elapsed1: string,
                                     timestamp2: string, text2: string, sourceFile2: string, duration2: string, elapsed2: string)
    requires OneLine(timestamp2)
    requires RoundTrips(Basename(sourceFile2))
    ensures var cut := SaveToLog(archive, date, timestamp1, text1, sourceFile1, duration1, elapsed1, true, WriteFails(kept)).value;
      var after := SaveToLog(cut, date, timestamp2, text2, sourceFile2, duration2, elapsed2, true, Written).value;
      Basename(sourceFile2) in FileNames(after, map[], DailyLogName(date))
  {
    var cut := SaveToLog(archive, date, timestamp1, text1, sourceFile1, duration1, elapsed1, true, WriteFails(kept)).value;
    SavedEntryIsRead(cut, date, timestamp2, text2, sourceFile2, duration2, elapsed2);
  }

  /** A successful `save_to_log` appends the entry to the day's file. */
  lemma SaveToLogAppends(archive: Archive, date: string, timestamp: string, text: string, sourceFile: string,
                         duration: string, elapsed: string)
    ensures SaveToLog(archive, date, timestamp, text, sourceFile, duration, elapsed, true, Written).value ==
      AppendTo(archive, DailyLogName(date), Entry(timestamp, text, Basename(sourceFile), duration, elapsed))
  {
  }

  /** The metadata line of an appended entry is one of the file's lines and reads as the base name. */
  lemma EntryMetaLine(before: string, timestamp: string, text: string, base: string,
                      duration: string, elapsed: string) returns (line: string)
    requires OneLine(timestamp)
    requires RoundTrips(base)
    ensures line in Lines(before + Entry(timestamp, text, base, duration, elapsed))
    ensures HistoryLineName(line) == Some(base)
  {
    var e := Entry(timestamp, text, base, duration, elapsed);
    var h := HeaderLine(timestamp);
    EntryReadsBase(timestamp, text, base, duration, elapsed);
    HeaderLineOneLine(timestamp);
    assert e[0] == h[0];
    line := Lines(e)[1];
    LaterLineOfAppended(before, e, 1);
  }

  /** Read on its own, the second line of an entry yields the base name. */
  lemma EntryReadsBase(timestamp: string, text: string, base: string, duration: string, elapsed: string)
    requires OneLine(timestamp)
    requires RoundTrips(base)
    ensures |Lines(Entry(timestamp, text, base, duration, elapsed))| >= 2
    ensures HistoryLineName(Lines(Entry(timestamp, text, base, duration, elapsed))[1]) == Some(base)
  {
    EntrySecondLine(timestamp, text, base, duration, elapsed);
    var line := Lines(Entry(timestamp, text, base, duration, elapsed))[1];
    var p := MetaPrefix(base);
    PrefixRest(p, line);
    HistoryReadsMetaPrefix(base, line[|p|..]);
  }

  /**
   * Whatever a file held before, every line of an appended text after its first is a line of
   * the result, provided the text does not start with a newline (which could complete a
   * `\r` the file ended with). The first line may merge with an unfinished last line.
   */
  lemma LaterLineOfAppended(before: string, e: string, k: nat)
    requires e != [] && e[0] != '\n'
    requires 1 <= k < |Lines(e)|
    ensures Lines(e)[k] in Lines(before + e)
  {
    NewlinesConcat(before, e);
    SplitLinesKeepsLater(Newlines(before), Newlines(e), k);
  }

  /** Translation splits at a boundary where the second part does not start with a newline. */
  lemma {:induction false} NewlinesConcat(a: string, b: string)
    requires b == [] || b[0] != '\n'
    ensures Newlines(a + b) == Newlines(a) + Newlines(b)
    decreases |a|
  {
    if a == [] {
      assert a + b == b;
    } else {
      var k, c := NewlinesConcatStep(a, b);
      NewlinesConcat(a[k..], b);
      AppendAssoc([c], Newlines(a[k..]), Newlines(b));
    }
  }

  /** One step of the translation of `a` and of `a + b`: the first `k` characters of `a` become `c`. */
  lemma NewlinesConcatStep(a: string, b: string) returns (k: nat, c: char)
    requires a != [] && (b == [] || b[0] != '\n')
    ensures 1 <= k <= |a|
    ensures Newlines(a) == [c] + Newlines(a[k..])
    ensures Newlines(a + b) == [c] + Newlines(a[k..] + b)
  {
    var s := a + b;
    assert s[0] == a[0];
    assert |a| > 1 ==> s[1] == a[1];
    assert |a| == 1 && b != [] ==> s[1] == b[0];
    k := if a[0] == '\r' && |a| > 1 && a[1] == '\n' then 2 else 1;
    c := if a[0] == '\r' then '\n' else a[0];
    assert s[k..] == a[k..] + b;
  }

  /** Putting any text in front of `b` keeps every line of `b` after its first. */
  lemma {:induction false} SplitLinesKeepsLater(a: string, b: string, k: nat)
    requires 1 <= k < |SplitLines(b)|
    ensures SplitLines(b)[k] in SplitLines(a + b)
    decreases |a|
  {
    match FirstIndex(a, '\n')
    case Some(i) =>
      SplitLinesAppendSplit(a, b, i);
      SplitLinesKeepsLater(a[i + 1..], b, k);
    case None =>
      // `a` is an unfinished line: it merges into the first line of `b`.
      var j := SplitLinesFirstBreak(b);
      var y := b[..j];
      var rest := b[j + 1..];
      assert b == y + "\n" + rest by {
        assert b[j] == '\n';
      }
      LaterLinesBehind(a, b, y, rest, k);
  }

  /** Lines after the first of `b`, a line `y` and `rest`, are still there with newline-free `a` in front. */
  lemma LaterLinesBehind(a: string, b: string, y: string, rest: string, k: nat)
    requires b == y + "\n" + rest
    requires '\n' !in a && '\n' !in y
    requires 1 <= k < |SplitLines(b)|
    ensures k < |SplitLines(a + b)| && SplitLines(a + b)[k] == SplitLines(b)[k]
  {
    SplitLinesCons(y, rest);
    SplitLinesMerge(a, y, rest);
    SameTail(SplitLines(b), SplitLines(a + b), SplitLines(rest), k);
  }

  /** Two lists that differ only in their first element agree at every later index. */
  lemma SameTail(l1: seq<string>, l2: seq<string>, tail: seq<string>, k: nat)
    requires |l1| == |tail| + 1 && l1[1..] == tail
    requires |l2| == |tail| + 1 && l2[1..] == tail
    requires 1 <= k < |l1|
    ensures k < |l2| && l2[k] == l1[k]
  {
    assert l1[k] == tail[k - 1] && l2[k] == tail[k - 1];
  }

  /** The line `y` plus a newline, with newline-free `a` in front, is split off as one line. */
  lemma SplitLinesMerge(a: string, y: string, rest: string)
    requires '\n' !in a && '\n' !in y
    ensures SplitLines(a + (y + "\n" + rest)) == [a + (y + "\n")] + SplitLines(rest)
  {
    var x := a + y;
    assert '\n' !in x by {
      assert forall i :: 0 <= i < |x| ==> x[i] == (if i < |a| then a[i] else y[i - |a|]);
    }
    Glue3(a, y, "\n", rest);
    Glue3(a, y, "\n", []);
    SplitLinesCons(x, rest);
  }

  lemma Glue3(a: string, y: string, m: string, rest: string)
    ensures a + (y + m + rest) == (a + y) + m + rest
    ensures a + (y + m) + rest == (a + y) + m + rest
  {
  }

  /** A text of two or more lines has a newline. */
  lemma SplitLinesFirstBreak(b: string) returns (j: nat)
    requires |SplitLines(b)| >= 2
    ensures FirstIndex(b, '\n') == Some(j)
  {
    j := FirstIndex(b, '\n').value;
  }

  lemma PrefixAppend(p: string, s: string, t: string)
    requires p <= s
    ensures p <= s + t
  {
    assert (s + t)[..|p|] == s[..|p|];
  }

  lemma PrefixRest(p: string, s: string)
    requires p <= s
    ensures s == p + s[|p|..]
  {
  }

  /** A line of a fault-free file that names `v` puts `v` into that file's names. */
  lemma LineInFileNames(archive: Archive, name: string, line: string, v: string)
    requires name in archive && line in Lines(archive[name])
    requires HistoryLineName(line) == Some(v)
    ensures v in FileNames(archive, map[], name)
  {
    assert line in ReadLines(archive, map[], name);
  }

  /**
   * End to end: a transcription logged on a day inside the history window is reported by
   * `get_processed_history`, whatever faults the other logs have, provided that day's log
   * reads without a fault.
   */
  lemma SavedEntryInHistory(archive: Archive, faults: Faults, date: string, timestamp: string, text: string,
                            sourceFile: string, duration: string, elapsed: string,
                            dateName: int -> string, today: int, days: int, offset: int)
    requires OneLine(timestamp)
    requires RoundTrips(Basename(sourceFile))
    requires DailyLogName(date) !in faults
    requires 0 <= offset < days && dateName(today - offset) == date
    ensures var after := SaveToLog(archive, date, timestamp, text, sourceFile, duration, elapsed, true, Written).value;
      Basename(sourceFile) in GetProcessedHistory(true, after, faults, dateName, today, days)
  {
    SavedEntryIsRead(archive, date, timestamp, text, sourceFile, duration, elapsed);
    var after := SaveToLog(archive, date, timestamp, text, sourceFile, duration, elapsed, true, Written).value;
    var name := DailyLogName(date);
    assert FileNames(after, faults, name) == FileNames(after, map[], name) by {
      assert ReadLines(after, faults, name) == ReadLines(after, map[], name);
    }
    assert DayFile(dateName, today, offset) == name;
    HistoryMembers(true, after, faults, dateName, today, days, Basename(sourceFile));
  }
}

=== FILE: maintenance.dfy ===
/**
 * The model-cache cleanup (`cleanup_unused_models` in `app/maintenance.py`): known model
 * files other than the current model's are removed once they have gone unused longer than
 * the retention period.
 */
module Maintenance {
  import opened Wrappers
  import opened Text

  /** `KNOWN_MODELS`: the cache file names the cleanup may remove. */
  const KnownModels: seq<string> := [
    "tiny.pt", "base.pt", "small.pt", "medium.pt", "large-v3.pt", "turbo.pt",
    "tiny.en.pt", "base.en.pt", "small.en.pt", "medium.en.pt"
  ]

  /** Seconds in a day: `24 * 60 * 60`. */
  const DaySeconds: int := 86400

  /**
   * One entry of the cache listing: its name, its last access time (`None` when `os.stat`
   * raised `OSError`), and whether `os.remove` on it would succeed.
   */
  datatype CacheEntry = CacheEntry(name: string, atime: Option<real>, removable: bool)

  /** The file of the model in use: `"<name>.pt"`. */
  function KeepName(currentModel: string): (r: string)
    ensures |r| == |currentModel| + 3 && r[..|currentModel|] == currentModel
  {
    currentModel + ".pt"
  }

  /** Unused for longer than the retention period; the comparison is strict. */
  predicate Expired(now: real, atime: real, retentionDays: int) {
    now - atime > (retentionDays * DaySeconds) as real
  }

  /** The cleanup removes this entry: known, not the current model, stat-able, expired, and the removal succeeds. */
  predicate Removed(e: CacheEntry, known: seq<string>, currentModel: string, retentionDays: int, now: real) {
    e.name in known && e.name != KeepName(currentModel) &&
    e.atime.Some? && Expired(now, e.atime.value, retentionDays) && e.removable
  }

  /** The entry is named `n` and is removed. */
  predicate RemovedAs(e: CacheEntry, n: string, known: seq<string>, currentModel: string, retentionDays: int, now: real) {
    e.name == n && Removed(e, known, currentModel, retentionDays, now)
  }

  /** What the cleanup did: the names removed, in listing order, and whether a `print` raised out of it. */
  datatype Cleanup = Cleanup(removed: seq<string>, raised: bool)

  /**
   * The loop over the cache listing. A failed stat or removal skips that entry and the loop goes
   * on; a removal is announced after `os.remove`, and an announcement that raises (not an
   * `OSError`, so the `except` does not catch it) ends the loop with that file already gone.
   */
  function Sweep(listing: seq<CacheEntry>, known: seq<string>, currentModel: string, retentionDays: int,
                 now: real, console: Console): (r: Cleanup)
    ensures |r.removed| <= |listing|
    ensures KeepName(currentModel) !in r.removed
    ensures forall n :: n in r.removed ==> n in known
    decreases |listing|
  {
    if listing == [] then Cleanup([], false)
    else
      var e := listing[0];
      if !Removed(e, known, currentModel, retentionDays, now) then
        Sweep(listing[1..], known, currentModel, retentionDays, now, console)
      else if PrintRaises(console) then Cleanup([e.name], true)
      else
        var rest := Sweep(listing[1..], known, currentModel, retentionDays, now, AfterPrint(console));
        Cleanup([e.name] + rest.removed, rest.raised)
  }

  /**
   * `cleanup_unused_models`: a missing cache directory removes nothing and prints nothing;
   * otherwise a banner is printed, and its raising ends the cleanup before any removal.
   */
  function CleanupUnusedModels(cacheExists: bool, listing: seq<CacheEntry>, known: seq<string>,
                               currentModel: string, retentionDays: int, now: real, console: Console): (r: Cleanup)
    ensures !cacheExists ==> r == Cleanup([], false)
    ensures |r.removed| <= |listing|
    ensures KeepName(currentModel) !in r.removed
    ensures forall n :: n in r.removed ==> n in known
  {
    if !cacheExists then Cleanup([], false)
    else if PrintRaises(console) then Cleanup([], true)
    else Sweep(listing, known, currentModel, retentionDays, now, AfterPrint(console))
  }

  /** A name is removed by a sweep whose prints all succeed exactly when some listed entry with that name meets the removal rule. */
  lemma {:induction false} SweepMembers(listing: seq<CacheEntry>, known: seq<string>, currentModel: string,
                                        retentionDays: int, now: real, n: string)
    ensures n in Sweep(listing, known, currentModel, retentionDays, now, None).removed <==>
      exists k :: 0 <= k < |listing| && RemovedAs(listing[k], n, known, currentModel, retentionDays, now)
    ensures !Sweep(listing, known, currentModel, retentionDays, now, None).raised
    decreases |listing|
  {
    if listing != [] {
      SweepMembers(listing[1..], known, currentModel, retentionDays, now, n);
      assert forall k :: 1 <= k < |listing| ==> listing[1..][k - 1] == listing[k];
    }
  }

  /**
   * With every print succeeding, a name is removed exactly when the cache exists and some listed
   * entry with that name meets the removal rule, and nothing raises.
   */
  lemma CleanupMembers(cacheExists: bool, listing: seq<CacheEntry>, known: seq<string>,
                       currentModel: string, retentionDays: int, now: real, n: string)
    ensures var r := CleanupUnusedModels(cacheExists, listing, known, currentModel, retentionDays, now, None);
      (n in r.removed <==>
        cacheExists && exists k :: 0 <= k < |listing| && RemovedAs(listing[k], n, known, currentModel, retentionDays, now)) &&
      !r.raised
  {
    SweepMembers(listing, known, currentModel, retentionDays, now, n);
  }

  /** A sweep on which `k` prints succeed removes the first `k + 1` files of the full sweep, raising iff there are that many. */
  lemma {:induction false} SweepCut(listing: seq<CacheEntry>, known: seq<string>, currentModel: string,
                                    retentionDays: int, now: real, k: nat)
    ensures var full := Sweep(listing, known, currentModel, retentionDays, now, None).removed;
      var r := Sweep(listing, known, currentModel, retentionDays, now, Some(k));
      (r.raised <==> k < |full|) && r.removed == full[..if k < |full| then k + 1 else |full|]
    decreases |listing|
  {
    if listing != [] {
      var e := listing[0];
      if !Removed(e, known, currentModel, retentionDays, now) {
        SweepCut(listing[1..], known, currentModel, retentionDays, now, k);
      } else {
        SweepCut(listing[1..], known, currentModel, retentionDays, now, 0);
        if k != 0 {
          SweepCut(listing[1..], known, currentModel, retentionDays, now, k - 1);
        }
      }
    }
  }

  /**
   * A raising print cuts the cleanup short: with `k` prints succeeding, the banner takes one, so
   * the first `k` removals of the full cleanup happen, and the exception leaves the cleanup iff
   * the cache exists and the full cleanup removes at least `k` files.
   */
  lemma RaisingPrintCutsCleanup(cacheExists: bool, listing: seq<CacheEntry>, known: seq<string>,
                                currentModel: string, retentionDays: int, now: real, k: nat)
    ensures var full := CleanupUnusedModels(cacheExists, listing, known, currentModel, retentionDays, now, None).removed;
      var r := CleanupUnusedModels(cacheExists, listing, known, currentModel, retentionDays, now, Some(k));
      (r.raised <==> cacheExists && k <= |full|) && r.removed == full[..if k < |full| then k else |full|]
  {
    if cacheExists && k != 0 {
      SweepCut(listing, known, currentModel, retentionDays, now, k - 1);
    }
  }

  /** An entry exactly at the retention boundary is kept. */
  lemma BoundaryKept(now: real, retentionDays: int)
    ensures !Expired(now, now - (retentionDays * DaySeconds) as real, retentionDays)
  {
  }

  /**
   * The cleanup example: of `turbo.pt` (current), `old.pt` (eight days unused) and `other.pt`
   * (one day unused), with all three known and three days of retention, only `old.pt` goes.
   */
  lemma CleanupExample(now: real)
    ensures var listing := [
        CacheEntry("turbo.pt", Some(now - 8.0 * 86400.0), true),
        CacheEntry("old.pt", Some(now - 8.0 * 86400.0), true),
        CacheEntry("other.pt", Some(now - 86400.0), true)];
      CleanupUnusedModels(true, listing, ["turbo.pt", "old.pt", "other.pt"], "turbo", 3, now, None) == Cleanup(["old.pt"], false)
  {
    var listing := [
        CacheEntry("turbo.pt", Some(now - 8.0 * 86400.0), true),
        CacheEntry("old.pt", Some(now - 8.0 * 86400.0), true),
        CacheEntry("other.pt", Some(now - 86400.0), true)];
    var known := ["turbo.pt", "old.pt", "other.pt"];
    assert KeepName("turbo") == "turbo.pt";
    assert "old.pt" != "turbo.pt" && "old.pt" in known;
    assert !Removed(listing[0], known, "turbo", 3, now);
    assert Removed(listing[1], known, "turbo", 3, now);
    assert !Removed(listing[2], known, "turbo", 3, now);
    calc {
      CleanupUnusedModels(true, listing, known, "turbo", 3, now, None);
      Sweep(listing, known, "turbo", 3, now, None);
      { assert listing[1..] == listing[1..3]; }
      Sweep(listing[1..3], known, "turbo", 3, now, None);
      { assert listing[1..3][1..] == listing[2..3]; }
      Cleanup(["old.pt"] + Sweep(listing[2..3], known, "turbo", 3, now, None).removed, false);
      { assert listing[2..3][1..] == []; }
      Cleanup(["old.pt"], false);
    }
  }

  /** With the shipped `KNOWN_MODELS`, a cached file that is not a known model (such as `other.pt`) is never removed. */
  lemma UnknownNeverRemoved(cacheExists: bool, listing: seq<CacheEntry>, currentModel: string,
                            retentionDays: int, now: real, console: Console)
    ensures "other.pt" !in CleanupUnusedModels(cacheExists, listing, KnownModels, currentModel, retentionDays, now, console).removed
  {
    assert "other.pt" !in KnownModels;
  }
}

=== FILE: monitor.dfy ===
/**
 * The folder watcher (`InternalAudioHandler` in `app/monitor.py`): a creation event for an
 * audio file is put on the work queue unless it repeats the path accepted last.
 */
module Monitor {
  import opened Wrappers
  import opened Text

  /** A file-system creation event: whether it names a directory, and its source path. */
  datatype Event = Event(isDirectory: bool, srcPath: string)

  /**
   * The handler's state: `queued` is every path it has put on the queue, in order (the
   * worker's consumption is not part of it), and `last` is `last_transcribed`.
   */
  datatype Handler = Handler(queued: seq<string>, last: Option<string>)

  /** A new handler: nothing queued, `last_transcribed` is `None`. */
  const Init: Handler := Handler([], None)

  /** Whether the event is a new audio file the handler accepts in state `h`. */
  predicate Accepts(h: Handler, e: Event) {
    !e.isDirectory && IsAudioName(e.srcPath) && h.last != Some(e.srcPath)
  }

  /**
   * `on_created`: directories and non-audio paths are ignored, a repeat of the last accepted path
   * is debounced. An accepted path becomes `last_transcribed` before it is announced, and it is
   * put on the queue after the announcement, so when the announcement raises (`echoOk` false)
   * the path is debounced but never queued.
   */
  function OnCreated(h: Handler, e: Event, echoOk: bool): (r: Handler)
    ensures Accepts(h, e) ==> r.queued == (if echoOk then h.queued + [e.srcPath] else h.queued)
    ensures Accepts(h, e) ==> r.last == Some(e.srcPath)
    ensures !Accepts(h, e) ==> r == h
  {
    if e.isDirectory || !IsAudioName(e.srcPath) || h.last == Some(e.srcPath) then h
    else
      var debounced := h.(last := Some(e.srcPath));
      if echoOk then debounced.(queued := h.queued + [e.srcPath]) else debounced
  }

  /**
   * The handler after a sequence of events, delivered in order, on a console that may raise.
   * Only accepted events print. An exception out of `on_created` ends watchdog's observer
   * thread, so no later event is handled.
   */
  function Run(h: Handler, events: seq<Event>, console: Console): (r: Handler)
    decreases |events|
  {
    if events == [] then h
    else if !Accepts(h, events[0]) then Run(h, events[1..], console)
    else if PrintRaises(console) then OnCreated(h, events[0], false)
    else Run(OnCreated(h, events[0], true), events[1..], AfterPrint(console))
  }

  /** No two neighbouring paths are equal. */
  predicate NoRepeats(s: seq<string>) {
    forall i :: 0 < i < |s| ==> s[i - 1] != s[i]
  }

  /**
   * What the handler state always satisfies: `last_transcribed` is `None` exactly when nothing
   * was queued and is otherwise the last queued path, and the queue never holds a path twice in a row.
   */
  predicate Valid(h: Handler) {
    (h.last.None? <==> h.queued == []) &&
    (h.queued != [] ==> h.last == Some(h.queued[|h.queued| - 1])) &&
    NoRepeats(h.queued)
  }

  /**
   * An event whose announcement succeeds keeps the handler valid. An accepted event whose
   * announcement raises breaks it: the last path is then one that was never queued.
   */
  lemma OnCreatedValid(h: Handler, e: Event)
    requires Valid(h)
    ensures Valid(OnCreated(h, e, true))
    ensures Accepts(h, e) ==> !Valid(OnCreated(h, e, false))
  {
    if Accepts(h, e) {
      var q := h.queued + [e.srcPath];
      forall i | 0 < i < |q|
        ensures q[i - 1] != q[i]
      {
        if i < |q| - 1 {
          assert q[i - 1] == h.queued[i - 1] && q[i] == h.queued[i];
        }
      }
    }
  }

  /**
   * A run from a valid state on a console that never raises ends in a valid state; in particular
   * from a new handler. On any console the queue never holds a path twice in a row.
   */
  lemma {:induction false} RunValid(h: Handler, events: seq<Event>, console: Console)
    requires Valid(h)
    ensures Valid(Run(h, events, None))
    ensures NoRepeats(Run(h, events, console).queued)
    decreases |events|
  {
    if events != [] {
      var e := events[0];
      OnCreatedValid(h, e);
      if !Accepts(h, e) {
        RunValid(h, events[1..], console);
      } else if PrintRaises(console) {
        RunValid(OnCreated(h, e, true), events[1..], None);
      } else {
        RunValid(OnCreated(h, e, true), events[1..], AfterPrint(console));
      }
    }
  }

  /** A run only appends to the queue, at most one path per event. */
  lemma {:induction false} RunAppends(h: Handler, events: seq<Event>, console: Console)
    ensures h.queued <= Run(h, events, console).queued
    ensures |Run(h, events, console).queued| <= |h.queued| + |events|
    decreases |events|
  {
    if events != [] && Accepts(h, events[0]) && !PrintRaises(console) {
      RunAppends(OnCreated(h, events[0], true), events[1..], AfterPrint(console));
    } else if events != [] && !Accepts(h, events[0]) {
      RunAppends(h, events[1..], console);
    }
  }

  /**
   * A raising announcement cuts the run short. Let `n` be the number of paths a run on a console
   * that never raises queues. On a console where `k < n` prints succeed, the run queues the first
   * `k` of them, and the next one is left debounced but never queued, so the handler is no longer
   * valid. With `k >= n` the run is the same as on a console that never raises.
   */
  lemma {:induction false} RaisingEchoCutsRun(h: Handler, events: seq<Event>, k: nat)
    requires Valid(h)
    ensures var full := Run(h, events, None).queued;
      var r := Run(h, events, Some(k));
      |h.queued| <= |full| &&
      (k < |full| - |h.queued| ==>
        r.queued == full[..|h.queued| + k] && r.last == Some(full[|h.queued| + k]) && !Valid(r)) &&
      (k >= |full| - |h.queued| ==> r == Run(h, events, None))
    decreases |events|
  {
    RunAppends(h, events, None);
    if events != [] {
      var e := events[0];
      OnCreatedValid(h, e);
      if !Accepts(h, e) {
        RaisingEchoCutsRun(h, events[1..], k);
      } else {
        var h' := OnCreated(h, e, true);
        RunAppends(h', events[1..], None);
        assert Run(h, events, None).queued[|h.queued|] == e.srcPath by {
          assert h'.queued[|h.queued|] == e.srcPath;
        }
        if k != 0 {
          RaisingEchoCutsRun(h', events[1..], k - 1);
        }
      }
    }
  }

  /** The source paths of the events that name audio files, directories left out. */
  function AudioPaths(events: seq<Event>): (r: seq<string>)
    ensures |r| <= |events|
    decreases |events|
  {
    if events == [] then []
    else
      var head := if !events[0].isDirectory && IsAudioName(events[0].srcPath) then [events[0].srcPath] else [];
      head + AudioPaths(events[1..])
  }

  /** `s` with every run of equal neighbours collapsed to one, given the path seen just before `s`. */
  function Collapse(prev: Option<string>, s: seq<string>): (r: seq<string>)
    decreases |s|
  {
    if s == [] then []
    else if prev == Some(s[0]) then Collapse(prev, s[1..])
    else [s[0]] + Collapse(Some(s[0]), s[1..])
  }

  /**
   * Reference behaviour: a run appends the audio paths of the events with immediate repeats
   * collapsed; non-audio events in between do not break a repeat.
   */
  lemma {:induction false} RunCollapses(h: Handler, events: seq<Event>)
    ensures Run(h, events, None).queued == h.queued + Collapse(h.last, AudioPaths(events))
    decreases |events|
  {
    if events == [] {
      assert h.queued + [] == h.queued;
    } else {
      var e := events[0];
      var h' := OnCreated(h, e, true);
      RunCollapses(h', events[1..]);
      var rest := AudioPaths(events[1..]);
      if !e.isDirectory && IsAudioName(e.srcPath) {
        assert AudioPaths(events) == [e.srcPath] + rest;
        assert ([e.srcPath] + rest)[1..] == rest;
        if h.last != Some(e.srcPath) {
          assert h'.queued + Collapse(h'.last, rest) == h.queued + ([e.srcPath] + Collapse(Some(e.srcPath), rest));
        }
      } else {
        assert AudioPaths(events) == rest;
      }
    }
  }

  /** The watcher example: a new audio path is queued once, even when its event fires twice. */
  lemma DuplicateEventQueuedOnce(path: string)
    requires IsAudioName(path)
    ensures var e := Event(false, path);
      Run(Init, [e], None).queued == [path] && Run(Init, [e, e], None).queued == [path]
  {
    var e := Event(false, path);
    assert [e][1..] == [];
    assert [e, e][1..] == [e];
  }

  /** The watcher example: a non-audio path is never queued. */
  lemma NonAudioIgnored(h: Handler, path: string, echoOk: bool)
    requires !IsAudioName(path)
    ensures OnCreated(h, Event(false, path), echoOk) == h
  {
  }

  /** Three events in a row, one at a time, when every announcement succeeds. */
  lemma RunThree(h: Handler, e1: Event, e2: Event, e3: Event)
    ensures Run(h, [e1, e2, e3], None) == OnCreated(OnCreated(OnCreated(h, e1, true), e2, true), e3, true)
  {
    var h1 := OnCreated(h, e1, true);
    var h2 := OnCreated(h1, e2, true);
    calc {
      Run(h, [e1, e2, e3], None);
      { assert [e1, e2, e3][1..] == [e2, e3]; }
      Run(h1, [e2, e3], None);
      { assert [e2, e3][1..] == [e3]; }
      Run(h2, [e3], None);
      { assert [e3][1..] == []; }
      Run(OnCreated(h2, e3, true), [], None);
    }
  }

  /** `A, B, A` with two different audio paths queues `A` again after `B`. */
  lemma AlternationRequeues(a: string, b: string)
    requires IsAudioName(a) && IsAudioName(b) && a != b
    ensures Run(Init, [Event(false, a), Event(false, b), Event(false, a)], None).queued == [a, b, a]
  {
    RunThree(Init, Event(false, a), Event(false, b), Event(false, a));
  }

  /** `A, x, A` with a non-audio `x` queues `A` once: the ignored event does not reset the debounce. */
  lemma IgnoredEventKeepsDebounce(a: string, x: string)
    requires IsAudioName(a) && !IsAudioName(x)
    ensures Run(Init, [Event(false, a), Event(false, x), Event(false, a)], None).queued == [a]
  {
    RunThree(Init, Event(false, a), Event(false, x), Event(false, a));
  }

  /**
   * A new audio file whose announcement raises is lost: it is debounced but not queued, and the
   * watcher handles nothing after it, not even the same file created again.
   */
  lemma RaisingEchoLosesFile(a: string)
    requires IsAudioName(a)
    ensures Run(Init, [Event(false, a), Event(false, a)], Some(0)) == Handler([], Some(a))
  {
  }
}

=== FILE: scanner.dfy ===
/**
 * The startup reconciliation scan (`queue_recent_files` in `app/core.py`): every audio file
 * under the watched folder modified inside the look-back window is queued, oldest first,
 * unless its name already appears in the transcript history.
 */
module Scanner {
  import opened Wrappers
  import opened Text
  import LogFormat

  /** One file as the directory walk reports it; `mtime` is `None` when reading it raises `OSError`. */
  datatype Walked = Walked(dir: string, name: string, mtime: Option<real>)

  /** The `(mtime, filepath, filename)` tuple collected for a file inside the window. */
  datatype Candidate = Candidate(mtime: real, path: string, name: string)

  /**
   * What the scan hands on: the queued paths in queue order, the count of them, and whether a
   * `print` raised and the exception left `queue_recent_files`.
   */
  datatype ScanResult = ScanResult(queued: seq<string>, count: nat, raised: bool)

  /** `now - lookback_hours * 3600`. */
  function Cutoff(now: real, hours: int): real {
    now - (hours as real) * 3600.0
  }

  /** The tuple one walked file contributes: audio names only, with a readable mtime strictly after the cutoff. */
  function Collect(w: Walked, cutoff: real): Option<Candidate> {
    if IsAudioName(w.name) && w.mtime.Some? && w.mtime.value > cutoff then
      Some(Candidate(w.mtime.value, PathJoin(w.dir, w.name), w.name))
    else None
  }

  /** The collection loop over the walk, in walk order. */
  function Candidates(walk: seq<Walked>, cutoff: real): (r: seq<Candidate>)
    ensures |r| <= |walk|
    ensures forall c :: c in r ==> IsAudioName(c.name) && c.mtime > cutoff
    decreases |walk|
  {
    if walk == [] then []
    else
      var head := match Collect(walk[0], cutoff)
        case None => []
        case Some(c) => [c];
      head + Candidates(walk[1..], cutoff)
  }

  /** A tuple is collected exactly when some walked file yields it. */
  lemma {:induction false} CandidatesMembers(walk: seq<Walked>, cutoff: real, c: Candidate)
    ensures c in Candidates(walk, cutoff) <==> exists i :: 0 <= i < |walk| && Collect(walk[i], cutoff) == Some(c)
    decreases |walk|
  {
    if walk != [] {
      CandidatesMembers(walk[1..], cutoff, c);
      assert forall i :: 0 <= i < |walk| - 1 ==> walk[1..][i] == walk[i + 1];
      if exists i :: 0 <= i < |walk| && Collect(walk[i], cutoff) == Some(c) {
        var i :| 0 <= i < |walk| && Collect(walk[i], cutoff) == Some(c);
        if i > 0 {
          assert Collect(walk[1..][i - 1], cutoff) == Some(c);
        }
      }
    }
  }

  /** Modification times never decrease along `s`. */
  predicate SortedByTime(s: seq<Candidate>) {
    forall i, j :: 0 <= i < j < |s| ==> s[i].mtime <= s[j].mtime
  }

  /** The elements of `s` whose modification time is exactly `t`, in order. */
  function WithTime(s: seq<Candidate>, t: real): (r: seq<Candidate>)
    ensures forall c :: c in r ==> c in s && c.mtime == t
    decreases |s|
  {
    if s == [] then []
    else (if s[0].mtime == t then [s[0]] else []) + WithTime(s[1..], t)
  }

  /** Filtering by modification time distributes over concatenation. */
  lemma {:induction false} WithTimeAppend(a: seq<Candidate>, b: seq<Candidate>, t: real)
    ensures WithTime(a + b, t) == WithTime(a, t) + WithTime(b, t)
    decreases |a|
  {
    if a == [] {
      assert a + b == b;
    } else {
      assert (a + b)[1..] == a[1..] + b;
      WithTimeAppend(a[1..], b, t);
    }
  }

  /** Where `c` goes: before the first element strictly newer than it. */
  function InsertPos(s: seq<Candidate>, c: Candidate): (p: nat)
    ensures p <= |s|
    ensures forall i :: 0 <= i < p ==> s[i].mtime <= c.mtime
    ensures p < |s| ==> s[p].mtime > c.mtime
    decreases |s|
  {
    if s == [] || s[0].mtime > c.mtime then 0 else 1 + InsertPos(s[1..], c)
  }

  /**
   * Places `c` before the first element that is strictly newer. On a sorted sequence that is
   * after every element with an equal time, which is what makes the sort stable.
   */
  function InsertByTime(s: seq<Candidate>, c: Candidate): (r: seq<Candidate>)
    ensures multiset(r) == multiset(s) + multiset{c}
  {
    var p := InsertPos(s, c);
    assert s == s[..p] + s[p..];
    s[..p] + [c] + s[p..]
  }

  /** Cutting a sequence at `p` and joining the pieces gives it back. */
  lemma SplitAt(s: seq<Candidate>, p: nat)
    requires p <= |s|
    ensures s[..p] + s[p..] == s
  {
  }

  /** In a sorted sequence everything from the insertion point on is strictly newer than `c`. */
  lemma AfterInsertPos(s: seq<Candidate>, c: Candidate)
    requires SortedByTime(s)
    ensures forall i :: InsertPos(s, c) <= i < |s| ==> s[i].mtime > c.mtime
  {
  }

  /** Two sorted pieces around `c`, older-or-equal before it and newer after it, form a sorted sequence. */
  lemma SortedAround(a: seq<Candidate>, c: Candidate, b: seq<Candidate>)
    requires SortedByTime(a) && SortedByTime(b)
    requires forall i :: 0 <= i < |a| ==> a[i].mtime <= c.mtime
    requires forall i :: 0 <= i < |b| ==> b[i].mtime > c.mtime
    ensures SortedByTime(a + [c] + b)
  {
    var r := a + [c] + b;
    forall i, j | 0 <= i < j < |r|
      ensures r[i].mtime <= r[j].mtime
    {
      if j < |a| {
        assert r[i] == a[i] && r[j] == a[j];
      } else if j == |a| {
        assert r[i] == a[i] && r[j] == c;
      } else if i < |a| {
        assert r[i] == a[i] && r[j] == b[j - |a| - 1];
      } else if i == |a| {
        assert r[i] == c && r[j] == b[j - |a| - 1];
      } else {
        assert r[i] == b[i - |a| - 1] && r[j] == b[j - |a| - 1];
      }
    }
  }

  /** Inserting into a sorted sequence keeps it sorted. */
  lemma InsertSorted(s: seq<Candidate>, c: Candidate)
    requires SortedByTime(s)
    ensures SortedByTime(InsertByTime(s, c))
  {
    var p := InsertPos(s, c);
    AfterInsertPos(s, c);
    assert SortedByTime(s[..p]) && SortedByTime(s[p..]);
    SortedAround(s[..p], c, s[p..]);
  }

  /** A sorted sequence whose elements are all newer than `t` holds nothing at `t`. */
  lemma {:induction false} WithTimeNewer(s: seq<Candidate>, t: real)
    requires forall i :: 0 <= i < |s| ==> s[i].mtime > t
    ensures WithTime(s, t) == []
    decreases |s|
  {
    if s != [] {
      WithTimeNewer(s[1..], t);
    }
  }

  /** Putting `c` in front of strictly newer elements adds it to the elements of its own time, at the end. */
  lemma WithTimeAround(a: seq<Candidate>, c: Candidate, b: seq<Candidate>, t: real)
    requires forall i :: 0 <= i < |b| ==> b[i].mtime > c.mtime
    ensures WithTime(a + [c] + b, t) == WithTime(a + b, t) + (if c.mtime == t then [c] else [])
  {
    var cb := [c] + b;
    assert a + [c] + b == a + cb;
    assert cb[0] == c && cb[1..] == b;
    WithTimeAppend(a, cb, t);
    WithTimeAppend(a, b, t);
    if c.mtime == t {
      WithTimeNewer(b, t);
      assert WithTime(cb, t) == [c];
    } else {
      assert WithTime(cb, t) == WithTime(b, t);
    }
  }

  /**
   * Inserting where everything after the insertion point is newer than `c` (as on a sorted
   * sequence) appends `c` to the elements of its own time and leaves the others alone.
   */
  lemma InsertWithTime(s: seq<Candidate>, c: Candidate, t: real)
    requires forall i :: InsertPos(s, c) <= i < |s| ==> s[i].mtime > c.mtime
    ensures WithTime(InsertByTime(s, c), t) == WithTime(s, t) + (if c.mtime == t then [c] else [])
  {
    var p := InsertPos(s, c);
    assert forall i :: 0 <= i < |s[p..]| ==> s[p..][i].mtime > c.mtime;
    WithTimeAround(s[..p], c, s[p..], t);
    SplitAt(s, p);
  }

  /** Python's `list.sort(key=mtime)`: sorted by time, stable, a permutation. */
  function SortByTime(s: seq<Candidate>): (r: seq<Candidate>)
    ensures SortedByTime(r)
    ensures multiset(r) == multiset(s)
    decreases |s|
  {
    if s == [] then []
    else
      var init := SortByTime(s[..|s| - 1]);
      assert s == s[..|s| - 1] + [s[|s| - 1]];
      InsertSorted(init, s[|s| - 1]);
      InsertByTime(init, s[|s| - 1])
  }

  /** Stability: the files sharing one modification time keep their walk order. */
  lemma {:induction false} SortStable(s: seq<Candidate>, t: real)
    ensures WithTime(SortByTime(s), t) == WithTime(s, t)
    decreases |s|
  {
    if s != [] {
      SortLastWithTime(s, t);
      SortStable(s[..|s| - 1], t);
      WithTimeLast(s, t);
    }
  }

  /** Sorting puts the last element after the sorted rest's elements of its own time. */
  lemma SortLastWithTime(s: seq<Candidate>, t: real)
    requires s != []
    ensures var last := s[|s| - 1];
      WithTime(SortByTime(s), t) == WithTime(SortByTime(s[..|s| - 1]), t) + (if last.mtime == t then [last] else [])
  {
    var sorted := SortByTime(s[..|s| - 1]);
    AfterInsertPos(sorted, s[|s| - 1]);
    InsertWithTime(sorted, s[|s| - 1], t);
  }

  /** The elements of one time in `s` are those of all but its last, then the last if it has that time. */
  lemma WithTimeLast(s: seq<Candidate>, t: real)
    requires s != []
    ensures var last := s[|s| - 1];
      WithTime(s, t) == WithTime(s[..|s| - 1], t) + (if last.mtime == t then [last] else [])
  {
    var init := s[..|s| - 1];
    WithTimeAppend(init, [s[|s| - 1]], t);
    assert [s[|s| - 1]][1..] == [];
    assert init + [s[|s| - 1]] == s;
  }

  /** Sorting a sequence that is already in time order leaves it as it is. */
  lemma {:induction false} SortSorted(s: seq<Candidate>)
    requires SortedByTime(s)
    ensures SortByTime(s) == s
    decreases |s|
  {
    if s != [] {
      var init := s[..|s| - 1];
      var last := s[|s| - 1];
      calc {
        SortByTime(s);
        InsertByTime(SortByTime(init), last);
        { assert SortedByTime(init); SortSorted(init); }
        InsertByTime(init, last);
        { assert forall i :: 0 <= i < |init| ==> init[i].mtime <= last.mtime;
          InsertAtEnd(init, last); }
        init + [last];
        s;
      }
    }
  }

  /** An element no older than any of `s` is inserted at the end. */
  lemma InsertAtEnd(s: seq<Candidate>, c: Candidate)
    requires forall i :: 0 <= i < |s| ==> s[i].mtime <= c.mtime
    ensures InsertByTime(s, c) == s + [c]
  {
    InsertPosAfterAll(s, c);
    assert s[..|s|] == s && s[|s|..] == [];
  }

  /** When no element is newer than `c`, it goes at the end. */
  lemma {:induction false} InsertPosAfterAll(s: seq<Candidate>, c: Candidate)
    requires forall i :: 0 <= i < |s| ==> s[i].mtime <= c.mtime
    ensures InsertPos(s, c) == |s|
    decreases |s|
  {
    if s != [] {
      InsertPosAfterAll(s[1..], c);
    }
  }

  /** The queuing loop: the tuples whose file name is not in the history, in order. */
  function Pending(s: seq<Candidate>, history: set<string>): (r: seq<Candidate>)
    ensures forall c :: c in r ==> c in s && c.name !in history
    ensures SortedByTime(s) ==> SortedByTime(r)
    decreases |s|
  {
    if s == [] then []
    else if s[0].name in history then Pending(s[1..], history)
    else
      var tail := Pending(s[1..], history);
      assert SortedByTime(s) ==> SortedByTime([s[0]] + tail) by {
        if SortedByTime(s) {
          forall x | x in tail
            ensures s[0].mtime <= x.mtime
          {
            var j :| 0 <= j < |s[1..]| && s[1..][j] == x;
            assert s[j + 1] == x;
          }
        }
      }
      [s[0]] + tail
  }

  /** Each tuple is queued as often as it was collected, unless its name is in the history. */
  lemma {:induction false} PendingCount(s: seq<Candidate>, history: set<string>, c: Candidate)
    ensures multiset(Pending(s, history))[c] == if c.name in history then 0 else multiset(s)[c]
    decreases |s|
  {
    if s != [] {
      PendingCount(s[1..], history, c);
      assert s == [s[0]] + s[1..];
      assert multiset(s) == multiset([s[0]]) + multiset(s[1..]);
      if s[0].name !in history {
        var tail := Pending(s[1..], history);
        assert Pending(s, history) == [s[0]] + tail;
        assert multiset(Pending(s, history)) == multiset([s[0]]) + multiset(tail);
      }
    }
  }

  /** With an empty history every collected tuple is queued. */
  lemma {:induction false} PendingNone(s: seq<Candidate>)
    ensures Pending(s, {}) == s
    decreases |s|
  {
    if s != [] {
      PendingNone(s[1..]);
    }
  }

  /** Filtering by name and by time commute. */
  lemma {:induction false} PendingWithTime(s: seq<Candidate>, history: set<string>, t: real)
    ensures WithTime(Pending(s, history), t) == Pending(WithTime(s, t), history)
    decreases |s|
  {
    if s != [] {
      PendingWithTime(s[1..], history, t);
      if s[0].name !in history {
        assert ([s[0]] + Pending(s[1..], history))[1..] == Pending(s[1..], history);
      }
      var head := if s[0].mtime == t then [s[0]] else [];
      var rest := WithTime(s[1..], t);
      if s[0].mtime == t {
        assert (head + rest)[1..] == rest;
      } else {
        assert head + rest == rest;
      }
    }
  }

  /** The tuples the scan queues, in queue order; nothing when the watched folder is missing. */
  function ScanQueue(rootExists: bool, walk: seq<Walked>, now: real, hours: int, history: set<string>): (r: seq<Candidate>)
    ensures !rootExists ==> r == []
  {
    if !rootExists then [] else Pending(SortByTime(Candidates(walk, Cutoff(now, hours))), history)
  }

  /** The queue is in non-decreasing modification-time order. */
  lemma ScanOrdered(rootExists: bool, walk: seq<Walked>, now: real, hours: int, history: set<string>)
    ensures SortedByTime(ScanQueue(rootExists, walk, now, hours, history))
  {
  }

  /** The paths of the queued tuples. */
  function Paths(s: seq<Candidate>): (r: seq<string>)
    ensures |r| == |s| && forall i :: 0 <= i < |s| ==> r[i] == s[i].path
  {
    seq(|s|, i requires 0 <= i < |s| => s[i].path)
  }

  /**
   * The queueing loop: each pending tuple is announced and then put on the queue, so an
   * announcement that raises ends the loop before its tuple is queued. The result is the
   * paths queued and the console left over.
   */
  function QueueEach(pending: seq<Candidate>, console: Console): (r: (seq<string>, Console))
    ensures |r.0| <= |pending| && r.0 == Paths(pending)[..|r.0|]
    ensures |r.0| < |pending| ==> PrintRaises(r.1)
    ensures console.None? ==> r.0 == Paths(pending) && r.1.None?
    decreases |pending|
  {
    if pending == [] || PrintRaises(console) then ([], console)
    else
      var rest := QueueEach(pending[1..], AfterPrint(console));
      var q := Paths(pending);
      assert q == [pending[0].path] + Paths(pending[1..]);
      assert [pending[0].path] + rest.0 == q[..1 + |rest.0|];
      ([pending[0].path] + rest.0, rest.1)
  }

  /**
   * `queue_recent_files`: the paths put on the queue and the count reported. The startup banner
   * is printed once the folder is found, each queued file is announced, and two summary lines
   * close the scan; the first of these prints that raises ends the scan.
   */
  function QueueRecentFiles(rootExists: bool, walk: seq<Walked>, now: real, hours: int, history: set<string>,
                            console: Console): (r: ScanResult)
    ensures r.count == |r.queued|
    ensures !rootExists ==> r.queued == [] && !r.raised
    ensures r.queued <= Paths(ScanQueue(rootExists, walk, now, hours, history))
    ensures console.None? ==> r.queued == Paths(ScanQueue(rootExists, walk, now, hours, history)) && !r.raised
  {
    if !rootExists then ScanResult([], 0, false)
    else Announce(ScanQueue(rootExists, walk, now, hours, history), console)
  }

  /** The printing part of the scan over the pending tuples: the banner, the queueing loop, and the two summary lines. */
  function Announce(pending: seq<Candidate>, console: Console): (r: ScanResult)
    ensures r.count == |r.queued|
    ensures r.queued <= Paths(pending)
    ensures console.None? ==> r.queued == Paths(pending) && !r.raised
  {
    if PrintRaises(console) then ScanResult([], 0, true)
    else
      var loop := QueueEach(pending, AfterPrint(console));
      ScanResult(loop.0, |loop.0|, loop.1.Some? && loop.1.value < 2)
  }

  /** The number of pending tuples the loop gets through when `k` prints succeed. */
  function Reached(k: nat, n: nat): (r: nat)
    ensures r <= n && r <= k
    ensures r == k || r == n
  {
    if k < n then k else n
  }

  /** With a console on which `k` prints succeed, the queueing loop queues the first `k` pending paths. */
  lemma {:induction false} QueueEachCut(pending: seq<Candidate>, k: nat)
    ensures var r := QueueEach(pending, Some(k));
      r.0 == Paths(pending)[..Reached(k, |pending|)] && r.1 == Some(k - Reached(k, |pending|))
    decreases |pending|
  {
    if pending != [] && k != 0 {
      QueueEachCut(pending[1..], k - 1);
    }
  }

  /**
   * A raising print cuts the scan short: with `k` prints succeeding, the banner takes one, so
   * the first `k - 1` pending paths are queued, and the exception leaves the scan unless the
   * banner, every announcement and both summary lines got through.
   */
  lemma RaisingPrintCutsScan(rootExists: bool, walk: seq<Walked>, now: real, hours: int, history: set<string>, k: nat)
    ensures var q := Paths(ScanQueue(rootExists, walk, now, hours, history));
      var r := QueueRecentFiles(rootExists, walk, now, hours, history, Some(k));
      (rootExists ==> r.queued == q[..if k == 0 then 0 else Reached(k - 1, |q|)]) &&
      (r.raised <==> rootExists && k <= |q| + 2)
  {
    if rootExists {
      AnnounceCut(ScanQueue(rootExists, walk, now, hours, history), k);
    }
  }

  /** `RaisingPrintCutsScan` for the printing part over any pending tuples. */
  lemma AnnounceCut(pending: seq<Candidate>, k: nat)
    ensures var q := Paths(pending);
      var r := Announce(pending, Some(k));
      r.queued == q[..if k == 0 then 0 else Reached(k - 1, |q|)] && (r.raised <==> k <= |q| + 2)
  {
    if k != 0 {
      QueueEachCut(pending, k - 1);
    }
  }

  /**
   * Exactly the new audio files inside the window are queued: a tuple is in the queue iff
   * the folder exists, some walked file yields it and its name is not in the history.
   */
  lemma ScanMembers(rootExists: bool, walk: seq<Walked>, now: real, hours: int, history: set<string>, c: Candidate)
    ensures c in ScanQueue(rootExists, walk, now, hours, history) <==>
      rootExists && c.name !in history &&
      exists i :: 0 <= i < |walk| && Collect(walk[i], Cutoff(now, hours)) == Some(c)
  {
    if rootExists {
      var cands := Candidates(walk, Cutoff(now, hours));
      CandidatesMembers(walk, Cutoff(now, hours), c);
      PendingCount(SortByTime(cands), history, c);
      assert multiset(SortByTime(cands))[c] == multiset(cands)[c];
    }
  }

  /** No file is queued twice unless the walk reported it twice: the queue is the pending tuples, permuted. */
  lemma ScanPermutes(rootExists: bool, walk: seq<Walked>, now: real, hours: int, history: set<string>)
    requires rootExists
    ensures multiset(ScanQueue(rootExists, walk, now, hours, history)) ==
      multiset(Pending(Candidates(walk, Cutoff(now, hours)), history))
  {
    var cands := Candidates(walk, Cutoff(now, hours));
    var q := ScanQueue(rootExists, walk, now, hours, history);
    forall c
      ensures multiset(q)[c] == multiset(Pending(cands, history))[c]
    {
      PendingCount(SortByTime(cands), history, c);
      PendingCount(cands, history, c);
    }
    assert multiset(q) == multiset(Pending(cands, history));
  }

  /** Files with the same modification time are queued in the order the walk met them. */
  lemma ScanStable(rootExists: bool, walk: seq<Walked>, now: real, hours: int, history: set<string>, t: real)
    requires rootExists
    ensures WithTime(ScanQueue(rootExists, walk, now, hours, history), t) ==
      Pending(WithTime(Candidates(walk, Cutoff(now, hours)), t), history)
  {
    var cands := Candidates(walk, Cutoff(now, hours));
    PendingWithTime(SortByTime(cands), history, t);
    SortStable(cands, t);
  }

  /** A file modified exactly at the cutoff is not collected: the window is open at its old end. */
  lemma CutoffExclusive(dir: string, name: string, now: real, hours: int)
    ensures Collect(Walked(dir, name, Some(Cutoff(now, hours))), Cutoff(now, hours)) == None
  {
  }

  /** The queued path of a walked file ends in its name, so the worker records that name in the ledger. */
  lemma QueuedPathBasename(w: Walked, cutoff: real, c: Candidate)
    requires '/' !in w.name
    requires Collect(w, cutoff) == Some(c)
    ensures Basename(c.path) == c.name && c.name == w.name
  {
    BasenameOfJoin(w.dir, w.name);
  }

  /**
   * A file transcribed and logged today is not queued again by the next startup scan, whose
   * history window covers the day of the log, provided that day's log reads without a fault.
   */
  lemma SavedFileNotRequeued(archive: LogFormat.Archive, faults: LogFormat.Faults, date: string, timestamp: string,
                             text: string, sourceFile: string, duration: string, elapsed: string,
                             dateName: int -> string, today: int, days: int, offset: int,
                             rootExists: bool, walk: seq<Walked>, now: real, hours: int, c: Candidate)
    requires LogFormat.OneLine(timestamp)
    requires LogFormat.RoundTrips(Basename(sourceFile))
    requires LogFormat.DailyLogName(date) !in faults
    requires 0 <= offset < days && dateName(today - offset) == date
    ensures var after := LogFormat.SaveToLog(archive, date, timestamp, text, sourceFile, duration, elapsed, true, LogFormat.Written).value;
      var history := LogFormat.GetProcessedHistory(true, after, faults, dateName, today, days);
      c in ScanQueue(rootExists, walk, now, hours, history) ==> c.name != Basename(sourceFile)
  {
    LogFormat.SavedEntryInHistory(archive, faults, date, timestamp, text, sourceFile, duration, elapsed, dateName, today, days, offset);
  }

  /** The file names of the scan example: two `.opus` names and a `.txt` name. */
  lemma ExampleNamesAudio()
    ensures IsAudioName("file1.opus") && !IsAudioName("file2.txt") && IsAudioName("file3.opus")
  {
    assert EndsWith("file1.opus", ".opus") && EndsWith("file3.opus", ".opus");
  }

  /** Two audio files around a non-audio file are collected in walk order. */
  lemma CandidatesSkipMiddle(dir: string, a: string, x: string, b: string, now: real, mx: Option<real>, cutoff: real)
    requires IsAudioName(a) && !IsAudioName(x) && IsAudioName(b) && now > cutoff
    ensures Candidates([Walked(dir, a, Some(now)), Walked(dir, x, mx), Walked(dir, b, Some(now))], cutoff) ==
      [Candidate(now, PathJoin(dir, a), a), Candidate(now, PathJoin(dir, b), b)]
  {
    var w0, w1, w2 := Walked(dir, a, Some(now)), Walked(dir, x, mx), Walked(dir, b, Some(now));
    CandidatesOfThree(w0, w1, w2, Candidate(now, PathJoin(dir, a), a), Candidate(now, PathJoin(dir, b), b), cutoff);
  }

  /** Three walked files of which the first and last yield a tuple and the middle one does not. */
  lemma CandidatesOfThree(w0: Walked, w1: Walked, w2: Walked, c0: Candidate, c2: Candidate, cutoff: real)
    requires Collect(w0, cutoff) == Some(c0) && Collect(w1, cutoff) == None && Collect(w2, cutoff) == Some(c2)
    ensures Candidates([w0, w1, w2], cutoff) == [c0, c2]
  {
    var walk := [w0, w1, w2];
    assert Candidates([w2], cutoff) == [c2] by {
      assert [w2][1..] == [];
    }
    assert Candidates(walk[1..], cutoff) == [c2] by {
      assert walk[1..][1..] == [w2];
    }
  }

  /** Two tuples with the same time, already in order, pass through the sort and an empty history unchanged. */
  lemma SortPendingPair(ca: Candidate, cb: Candidate)
    requires ca.mtime == cb.mtime
    ensures Pending(SortByTime([ca, cb]), {}) == [ca, cb]
  {
    assert SortedByTime([ca, cb]);
    SortSorted([ca, cb]);
    PendingNone([ca, cb]);
  }

  /**
   * The scan example, with the names abstracted: two audio files around a non-audio file, all
   * just modified, with no history. Both audio files are queued in walk order and the count is two;
   * `ExampleNamesAudio` supplies the names the example uses.
   */
  lemma ScanExampleFound(dir: string, a: string, x: string, b: string, now: real, mx: Option<real>)
    requires IsAudioName(a) && !IsAudioName(x) && IsAudioName(b)
    ensures QueueRecentFiles(true, [Walked(dir, a, Some(now)), Walked(dir, x, mx), Walked(dir, b, Some(now))], now, 1, {}, None) ==
      ScanResult([PathJoin(dir, a), PathJoin(dir, b)], 2, false)
  {
    var walk := [Walked(dir, a, Some(now)), Walked(dir, x, mx), Walked(dir, b, Some(now))];
    var ca := Candidate(now, PathJoin(dir, a), a);
    var cb := Candidate(now, PathJoin(dir, b), b);
    ScanExampleQueue(dir, a, x, b, now, mx);
    assert Paths([ca, cb]) == [ca.path, cb.path];
  }

  /** The tuples the scan example queues. */
  lemma ScanExampleQueue(dir: string, a: string, x: string, b: string, now: real, mx: Option<real>)
    requires IsAudioName(a) && !IsAudioName(x) && IsAudioName(b)
    ensures ScanQueue(true, [Walked(dir, a, Some(now)), Walked(dir, x, mx), Walked(dir, b, Some(now))], now, 1, {}) ==
      [Candidate(now, PathJoin(dir, a), a), Candidate(now, PathJoin(dir, b), b)]
  {
    var ca := Candidate(now, PathJoin(dir, a), a);
    var cb := Candidate(now, PathJoin(dir, b), b);
    CandidatesSkipMiddle(dir, a, x, b, now, mx, Cutoff(now, 1));
    SortPendingPair(ca, cb);
  }
}

=== FILE: sizing.dfy ===
/**
 * Choosing a Whisper model from the memory the machine has: the setup wizard's
 * `suggest_best_model` (`app/setup.py`), the health report's `suggest_model`, its progress
 * bar and its advice (`check_health.py`), and the wizard's forced-language answer.
 */
module Sizing {
  import opened Wrappers
  import opened Text

  /** The Whisper models both tables list. */
  datatype Model = Large | Turbo | Medium | Small | Base | Tiny

  /** The model's name as configured. */
  function Name(m: Model): string {
    match m
    case Large => "large"
    case Turbo => "turbo"
    case Medium => "medium"
    case Small => "small"
    case Base => "base"
    case Tiny => "tiny"
  }

  /** `MODEL_REQUIREMENTS`: gigabytes each model needs. */
  function Req(m: Model): real {
    match m
    case Large => 10.0
    case Turbo => 6.0
    case Medium => 5.0
    case Small => 2.0
    case Base => 1.0
    case Tiny => 1.0
  }

  /**
   * `sorted(MODEL_REQUIREMENTS.items(), key=size, reverse=True)`: the table's own order,
   * which is already non-increasing, so the stable sort keeps `base` before `tiny`.
   */
  const ByRequirement: seq<Model> := [Large, Turbo, Medium, Small, Base, Tiny]

  /** Where a model sits in `ByRequirement`. */
  function Position(m: Model): (i: nat)
    ensures i < |ByRequirement| && ByRequirement[i] == m
  {
    match m
    case Large => 0
    case Turbo => 1
    case Medium => 2
    case Small => 3
    case Base => 4
    case Tiny => 5
  }

  /** The table order is non-increasing in requirement, as the sort promises. */
  lemma ByRequirementSorted()
    ensures forall i, j :: 0 <= i < j < |ByRequirement| ==> Req(ByRequirement[i]) >= Req(ByRequirement[j])
  {
  }

  /** Gigabytes of VRAM kept free for the display and the system. */
  const MinFreeVram: real := 2.0

  /** The largest share of usable memory a model may take. */
  const SafetyRatio: real := 0.7

  function Min(a: real, b: real): real { if a <= b then a else b }
  function Max(a: real, b: real): real { if a >= b then a else b }

  /**
   * Usable gigabytes: on a GPU the smaller of the VRAM factor's share and the total less
   * 2 GB (never below 0); for any other memory the system factor's share.
   */
  function Usable(total: real, memType: string, vramFactor: real, systemFactor: real): (r: real)
    ensures memType == "vram" ==> r <= total * vramFactor && r <= Max(0.0, total - MinFreeVram)
    ensures memType == "vram" ==> r == total * vramFactor || r == Max(0.0, total - MinFreeVram)
    ensures memType != "vram" ==> r == total * systemFactor
  {
    if memType == "vram" then Min(total * vramFactor, Max(0.0, total - MinFreeVram))
    else total * systemFactor
  }

  /** `usable_gb > 0 and size / usable_gb <= 0.7`. */
  predicate Fits(m: Model, usable: real) {
    usable > 0.0 && Req(m) / usable <= SafetyRatio
  }

  /** The ratio test is the product test: a model fits when it needs at most 70% of the usable memory. */
  lemma FitsIff(m: Model, usable: real)
    ensures Fits(m, usable) <==> usable > 0.0 && Req(m) <= SafetyRatio * usable
  {
    if usable > 0.0 {
      calc {
        Req(m) / usable <= SafetyRatio;
      ==
        Req(m) / usable * usable <= SafetyRatio * usable;
      ==
        Req(m) <= SafetyRatio * usable;
      }
    }
  }

  /** The first model of `models` that fits. */
  function FirstFit(models: seq<Model>, usable: real): (r: Option<Model>)
    ensures r.Some? ==> r.value in models && Fits(r.value, usable)
    decreases |models|
  {
    if models == [] then None
    else if Fits(models[0], usable) then Some(models[0])
    else FirstFit(models[1..], usable)
  }

  /** `FirstFit` finds nothing exactly when no model fits, and otherwise the earliest that does. */
  lemma {:induction false} FirstFitIsFirst(models: seq<Model>, usable: real)
    ensures FirstFit(models, usable).None? <==> forall i :: 0 <= i < |models| ==> !Fits(models[i], usable)
    ensures FirstFit(models, usable).Some? ==>
      exists i :: 0 <= i < |models| && models[i] == FirstFit(models, usable).value &&
        forall j :: 0 <= j < i ==> !Fits(models[j], usable)
    decreases |models|
  {
    if models != [] && !Fits(models[0], usable) {
      FirstFitIsFirst(models[1..], usable);
      assert forall i :: 1 <= i < |models| ==> models[1..][i - 1] == models[i];
      if FirstFit(models, usable).Some? {
        var i :| 0 <= i < |models| - 1 && models[1..][i] == FirstFit(models, usable).value &&
          forall j :: 0 <= j < i ==> !Fits(models[1..][j], usable);
        assert models[i + 1] == FirstFit(models, usable).value;
      }
    }
  }

  /** The recommendation for a known amount of memory: the largest model that fits, else `tiny`. */
  function Recommend(usable: real): (r: Model)
    ensures Fits(r, usable) || r == Tiny
  {
    match FirstFit(ByRequirement, usable)
    case Some(m) => m
    case None => Tiny
  }

  /**
   * `suggest_best_model`: `turbo` when the memory is unknown, otherwise the recommendation
   * for the usable memory.
   */
  function SuggestBestModel(total: Option<real>, memType: Option<string>, vramFactor: real, systemFactor: real): (r: string)
    ensures total.None? || memType.None? ==> r == "turbo"
  {
    if total.None? || memType.None? then "turbo"
    else Name(Recommend(Usable(total.value, memType.value, vramFactor, systemFactor)))
  }

  /**
   * The recommendation is the largest model that fits: every model needing more does not fit,
   * and `tiny` is the answer only when nothing larger fits.
   */
  lemma RecommendIsLargestFit(usable: real, m: Model)
    requires Fits(m, usable)
    ensures Req(Recommend(usable)) >= Req(m)
    ensures Fits(Recommend(usable), usable)
  {
    FirstFitIsFirst(ByRequirement, usable);
    ByRequirementSorted();
    var i := Position(m);
    var r := FirstFit(ByRequirement, usable);
    var k :| 0 <= k < |ByRequirement| && ByRequirement[k] == r.value &&
      forall j :: 0 <= j < k ==> !Fits(ByRequirement[j], usable);
    assert k <= i;
  }

  /** More usable memory never recommends a model that needs less. */
  lemma RecommendMonotone(u1: real, u2: real)
    requires u1 <= u2
    ensures Req(Recommend(u1)) <= Req(Recommend(u2))
  {
    var m := Recommend(u1);
    if Fits(m, u1) {
      FitsIff(m, u1);
      FitsIff(m, u2);
      RecommendIsLargestFit(u2, m);
    } else {
      assert m == Tiny;
      var r := Recommend(u2);
      assert Req(r) >= 1.0;
    }
  }

  /** With no usable memory nothing fits and `tiny` is recommended. */
  lemma NoMemoryTiny(usable: real)
    requires usable <= 0.0
    ensures Recommend(usable) == Tiny
  {
    FirstFitIsFirst(ByRequirement, usable);
  }

  /** 24 GB of VRAM at the 0.7 factor leaves 16.8 GB usable, and `large` fits. */
  lemma SuggestVram24()
    ensures Usable(24.0, "vram", 0.7, 0.5) == 16.8
    ensures SuggestBestModel(Some(24.0), Some("vram"), 0.7, 0.5) == "large"
  {
    assert Fits(Large, 16.8);
  }

  /** 32 GB of system memory at the 0.5 factor leaves 16 GB usable, and `large` fits. */
  lemma SuggestRam32()
    ensures SuggestBestModel(Some(32.0), Some("ram"), 0.7, 0.5) == "large"
  {
    assert Fits(Large, 16.0);
  }

  /** The first of `models` configured under `name`, if any. */
  function Lookup(models: seq<Model>, name: string): (r: Option<Model>)
    ensures r.Some? ==> r.value in models && Name(r.value) == name
    ensures r.None? ==> forall m :: m in models ==> Name(m) != name
  {
    if models == [] then None
    else if Name(models[0]) == name then Some(models[0])
    else Lookup(models[1..], name)
  }

  /** `.get(name, fallback)` on `MODEL_REQUIREMENTS` for a configured model name. */
  function ReqOf(name: string, fallback: real): (r: real)
    ensures forall m: Model :: name == Name(m) ==> r == Req(m)
    ensures (forall m: Model :: name != Name(m)) ==> r == fallback
  {
    match Lookup(ByRequirement, name)
    case Some(m) => Req(m)
    case None =>
      assert forall m: Model :: m in ByRequirement by {
        forall m: Model
          ensures m in ByRequirement
        {
          assert ByRequirement[Position(m)] == m;
        }
      }
      fallback
  }

  /** A model's own name finds its requirement. */
  lemma ReqOfName(m: Model, fallback: real)
    ensures ReqOf(Name(m), fallback) == Req(m)
  {
  }

  /** The health report's sizing: recommended model name, usable gigabytes and the bar's percentage. */
  datatype Suggestion = Suggestion(model: string, usable: real, usagePct: real)

  /**
   * `suggest_model` in the health report: `base` with nothing usable when the memory is
   * unknown; otherwise the same rule as the wizard, and the share of the usable memory the
   * recommendation needs (100 when nothing is usable).
   */
  function SuggestModel(total: Option<real>, memType: Option<string>, vramFactor: real, systemFactor: real): (r: Suggestion)
    ensures total.None? || memType.None? ==> r == Suggestion("base", 0.0, 0.0)
    ensures total.Some? && memType.Some? ==> r.usable == Usable(total.value, memType.value, vramFactor, systemFactor)
    ensures total.Some? && memType.Some? && r.usable <= 0.0 ==> r.usagePct == 100.0
  {
    if total.None? || memType.None? then Suggestion("base", 0.0, 0.0)
    else
      var usable := Usable(total.value, memType.value, vramFactor, systemFactor);
      var rec := Recommend(usable);
      Suggestion(Name(rec), usable, if usable > 0.0 then Req(rec) / usable * 100.0 else 100.0)
  }

  /** The wizard and the health report recommend the same model whenever the memory is known. */
  lemma ReportAgreesWithWizard(total: real, memType: string, vramFactor: real, systemFactor: real)
    ensures SuggestModel(Some(total), Some(memType), vramFactor, systemFactor).model ==
      SuggestBestModel(Some(total), Some(memType), vramFactor, systemFactor)
  {
  }

  /** A recommendation that fits is drawn at no more than 70%. */
  lemma FittingUsageAtMost70(total: real, memType: string, vramFactor: real, systemFactor: real)
    requires Fits(Recommend(Usable(total, memType, vramFactor, systemFactor)), Usable(total, memType, vramFactor, systemFactor))
    ensures SuggestModel(Some(total), Some(memType), vramFactor, systemFactor).usagePct <= 70.0
  {
    var usable := Usable(total, memType, vramFactor, systemFactor);
    var rec := Recommend(usable);
    assert Req(rec) / usable <= 0.7;
    assert Req(rec) / usable * 100.0 <= 70.0;
  }

  /** 4 GB of VRAM: 2 GB usable (the 2 GB reserve bites first), and `base` wins over `tiny` at 1 GB. */
  lemma ReportVram4()
    ensures SuggestModel(Some(4.0), Some("vram"), 0.7, 0.5).model == "base"
    ensures SuggestModel(Some(4.0), Some("vram"), 0.7, 0.5).usable == 2.0
  {
    var u := Usable(4.0, "vram", 0.7, 0.5);
    assert u == 2.0;
    assert !Fits(Large, u) && !Fits(Turbo, u) && !Fits(Medium, u) && !Fits(Small, u) && Fits(Base, u);
    FirstFitIsFirst(ByRequirement, u);
    assert FirstFit(ByRequirement, u) == Some(Base);
  }

  /** 16 GB of system memory at the 0.5 factor: 8 GB usable, and `medium` is the largest fit. */
  lemma ReportSystem16()
    ensures SuggestModel(Some(16.0), Some("system"), 0.7, 0.5).model == "medium"
    ensures SuggestModel(Some(16.0), Some("system"), 0.7, 0.5).usable == 8.0
  {
    var u := Usable(16.0, "system", 0.7, 0.5);
    assert u == 8.0;
    assert !Fits(Large, u) && !Fits(Turbo, u) && Fits(Medium, u);
  }

  /** U+25A0 BLACK SQUARE, a filled cell of the bar. */
  const BarFilled: char := '\U{25A0}'
  /** U+00B7 MIDDLE DOT, an empty cell of the bar. */
  const BarEmpty: char := '\U{00B7}'

  /** Python's `int()` on a real: truncation toward zero. */
  function Trunc(x: real): (r: int)
    ensures x >= 0.0 ==> 0.0 <= r as real <= x < r as real + 1.0
    ensures x < 0.0 ==> r as real - 1.0 < x <= r as real <= 0.0
  {
    if x >= 0.0 then x.Floor else -((-x).Floor)
  }

  /** `max(0.0, min(100.0, percent))`. */
  function Clamp(percent: real): (r: real)
    ensures 0.0 <= r <= 100.0
    ensures 0.0 <= percent <= 100.0 ==> r == percent
  {
    Max(0.0, Min(100.0, percent))
  }

  /** The bar's colour. */
  datatype Colour = Green | Yellow | Red

  /** `int(width * percent / 100)` on the clamped percentage: the number of filled cells. */
  function Filled(percent: real, width: int): int {
    Trunc(width as real * Clamp(percent) / 100.0)
  }

  /** For a non-negative width the filled count is `floor(width * p / 100)`, between 0 and `width`. */
  lemma FilledInRange(percent: real, width: nat)
    ensures Filled(percent, width) == (width as real * Clamp(percent) / 100.0).Floor
    ensures 0 <= Filled(percent, width) <= width
  {
    var p := Clamp(percent);
    var w := width as real;
    MulMonotone(w, p, 100.0);
    var x := w * p / 100.0;
    assert 0.0 <= x <= w;
    assert x.Floor as real <= x;
    assert x.Floor <= width;
  }

  /** Scaling by a non-negative factor keeps the order. */
  lemma MulMonotone(a: real, b: real, c: real)
    requires 0.0 <= a && b <= c
    ensures a * b <= a * c
  {
    assert a * c - a * b == a * (c - b);
  }

  /** The cells of `draw_bar`: the filled cells, then empty ones up to `width`. */
  function Bar(percent: real, width: int): (r: string)
  {
    var filled := Filled(percent, width);
    Repeat(BarFilled, filled) + Repeat(BarEmpty, width - filled)
  }

  /**
   * For a non-negative width the bar has exactly `width` cells: the first
   * `floor(width * p / 100)` filled, the rest empty, `p` being the clamped percentage.
   */
  lemma BarShape(percent: real, width: nat)
    ensures var r := Bar(percent, width);
      |r| == width &&
      (forall i :: 0 <= i < Filled(percent, width) ==> r[i] == BarFilled) &&
      (forall i :: Filled(percent, width) <= i < width ==> r[i] == BarEmpty)
  {
    FilledInRange(percent, width);
    var filled := Filled(percent, width);
    var r := Bar(percent, width);
    assert forall i :: filled <= i < width ==> r[i] == Repeat(BarEmpty, width - filled)[i - filled];
  }

  /** The bar at 0%, 50% and 100% of 20 cells has 0, 10 and 20 filled cells. */
  lemma BarExamples()
    ensures Bar(0.0, 20) == Repeat(BarEmpty, 20)
    ensures Bar(50.0, 20) == Repeat(BarFilled, 10) + Repeat(BarEmpty, 10)
    ensures Bar(100.0, 20) == Repeat(BarFilled, 20)
    ensures Bar(250.0, 20) == Bar(100.0, 20) && Bar(-5.0, 20) == Bar(0.0, 20)
  {
    assert Filled(0.0, 20) == 0 && Filled(-5.0, 20) == 0;
    assert Filled(50.0, 20) == 10;
    assert Filled(100.0, 20) == 20 && Filled(250.0, 20) == 20;
    assert Repeat(BarFilled, 0) == [];
    assert Repeat(BarEmpty, 0) == [];
  }

  /** The bar's colour: green below 70%, yellow below 90%, red from there, on the clamped percentage. */
  function BarColour(percent: real): (r: Colour)
    ensures r == Green <==> Clamp(percent) < 70.0
    ensures r == Red <==> Clamp(percent) >= 90.0
  {
    var p := Clamp(percent);
    if p < 70.0 then Green else if p < 90.0 then Yellow else Red
  }

  /** A fitting recommendation is always drawn green. */
  lemma FittingIsGreen(total: real, memType: string, vramFactor: real, systemFactor: real)
    requires Fits(Recommend(Usable(total, memType, vramFactor, systemFactor)), Usable(total, memType, vramFactor, systemFactor))
    ensures BarColour(SuggestModel(Some(total), Some(memType), vramFactor, systemFactor).usagePct) != Red
  {
    FittingUsageAtMost70(total, memType, vramFactor, systemFactor);
  }

  /** What the health report advises about the configured model. */
  datatype Advice = Critical | LargeToTurbo | Optimise | Optimal | NoAdvice

  /**
   * The advice, first match wins: the configured model needs more than is usable; it is
   * `large` and `turbo` is recommended; it needs less than the recommendation; it is the
   * recommendation. An unlisted configured model is taken to need 6 GB.
   */
  function AdviceFor(current: string, rec: string, usable: real): (r: Advice)
    ensures r == Critical <==> ReqOf(current, 6.0) > usable
  {
    var currentReq := ReqOf(current, 6.0);
    var recReq := ReqOf(rec, 1.0);
    if currentReq > usable then Critical
    else if current == "large" && rec == "turbo" then LargeToTurbo
    else if currentReq < recReq then Optimise
    else if current == rec then Optimal
    else NoAdvice
  }

  /** Using the recommended model when it fits is reported as optimal. */
  lemma RecommendedIsOptimal(usable: real)
    requires Fits(Recommend(usable), usable)
    ensures AdviceFor(Name(Recommend(usable)), Name(Recommend(usable)), usable) == Optimal
  {
    var m := Recommend(usable);
    FitsIff(m, usable);
    assert ReqOf(Name(m), 6.0) == Req(m);
  }

  /** The report's advice examples: `large` on 4 GB of VRAM is critical, `tiny` on 24 GB is under-used, `large` on 24 GB is optimal. */
  lemma AdviceExamples()
    ensures AdviceFor("large", SuggestModel(Some(4.0), Some("vram"), 0.7, 0.5).model, 2.0) == Critical
    ensures AdviceFor("tiny", "large", 16.8) == Optimise
    ensures AdviceFor("large", "large", 16.8) == Optimal
  {
    ReportVram4();
    ReqOfName(Large, 6.0);
    ReqOfName(Base, 1.0);
    ReqOfName(Tiny, 6.0);
    ReqOfName(Large, 1.0);
  }

  /**
   * The wizard's forced-language answer: stripped, and no forced language when nothing is
   * left.
   */
  function NormalizeLanguage(answer: string): (r: Option<string>)
    ensures r.None? <==> Strip(answer) == []
    ensures r.Some? ==> r.value != [] && IsTrimmed(r.value)
  {
    var s := Strip(answer);
    if s == [] then None else Some(s)
  }

  /** Normalising an already normalised language keeps it; padding around a code is removed. */
  lemma NormalizeLanguageStable(pre: string, code: string, post: string)
    requires forall i :: 0 <= i < |pre| ==> IsSpace(pre[i])
    requires forall i :: 0 <= i < |post| ==> IsSpace(post[i])
    requires code != [] && IsTrimmed(code)
    ensures NormalizeLanguage(pre + code + post) == Some(code)
    ensures NormalizeLanguage(code) == Some(code)
  {
    StripPadded(pre, code, post);
    StripTrimmed(code);
  }

  /** A blank answer means automatic detection. */
  lemma BlankLanguageIsAuto(answer: string)
    requires forall i :: 0 <= i < |answer| ==> IsSpace(answer[i])
    ensures NormalizeLanguage(answer) == None
  {
    StripPadded(answer, [], []);
    assert answer + [] + [] == answer;
  }
}

=== FILE: text.dfy ===
/**
 * Character-level helpers shared by the log writer and its readers: Python's notion of
 * whitespace, `str.strip`, `str.split` on a single separator, `os.path.basename`, and the
 * marker glyphs that the transcript log and the health report use.
 */
module Text {
  import opened Wrappers

  /** U+25CF BLACK CIRCLE, the bullet the log readers tolerate before a file name. */
  const Bullet: char := '\U{25CF}'
  /** U+23F3 HOURGLASS WITH FLOWING SAND, marks the metadata line of a log entry. */
  const Hourglass: char := '\U{23F3}'
  /** U+23F1 STOPWATCH, precedes the processing time on the metadata line. */
  const Stopwatch: char := '\U{23F1}'
  /** U+2500 BOX DRAWINGS LIGHT HORIZONTAL, the rule glyph of a log entry header. */
  const BoxDash: char := '\U{2500}'
  /** The field separator of the metadata line. */
  const Pipe: char := '|'

  /** Python's `str.isspace()`; the regular-expression class `\s` on `str` accepts the same set. */
  predicate IsSpace(c: char) {
    || c == ' '
    || ('\t' <= c <= '\r')
    || ('\U{1C}' <= c <= '\U{1F}')
    || c == '\U{85}' || c == '\U{A0}' || c == '\U{1680}'
    || ('\U{2000}' <= c <= '\U{200A}')
    || c == '\U{2028}' || c == '\U{2029}' || c == '\U{202F}' || c == '\U{205F}' || c == '\U{3000}'
  }

  /** `s` neither starts nor ends with whitespace. */
  predicate IsTrimmed(s: string) {
    s == [] || (!IsSpace(s[0]) && !IsSpace(s[|s| - 1]))
  }

  /** `r` occurs in `s` starting at position `i`. */
  predicate SliceAt(r: string, s: string, i: int) {
    0 <= i <= |s| - |r| && r == s[i..i + |r|]
  }

  /** `str.lstrip()`: drops the leading whitespace run and nothing else. */
  function TrimLeft(s: string): (r: string)
    ensures |r| <= |s|
    ensures r == [] || !IsSpace(r[0])
    ensures forall i :: 0 <= i < |s| - |r| ==> IsSpace(s[i])
  {
    if s != [] && IsSpace(s[0]) then TrimLeft(s[1..]) else s
  }

  /** What `TrimLeft` keeps is a suffix of its input. */
  lemma {:induction false} TrimLeftSuffix(s: string)
    ensures TrimLeft(s) == s[|s| - |TrimLeft(s)|..]
  {
    if s != [] && IsSpace(s[0]) {
      TrimLeftSuffix(s[1..]);
    }
  }

  /** `str.rstrip()`: drops the trailing whitespace run and nothing else. */
  function TrimRight(s: string): (r: string)
    ensures |r| <= |s| && r == s[..|r|]
    ensures r == [] || !IsSpace(r[|r| - 1])
    ensures forall i :: |r| <= i < |s| ==> IsSpace(s[i])
  {
    if s != [] && IsSpace(s[|s| - 1]) then TrimRight(s[..|s| - 1]) else s
  }

  /** `str.strip()`: the slice of `s` left after removing whitespace at both ends. */
  function Strip(s: string): (r: string)
    ensures IsTrimmed(r)
    ensures exists i :: SliceAt(r, s, i)
  {
    var l := TrimLeft(s);
    TrimLeftSuffix(s);
    var r := TrimRight(l);
    SliceOfSuffix(s, |s| - |l|, l, r);
    r
  }

  /** A prefix of a suffix of `s` is a slice of `s`. */
  lemma SliceOfSuffix(s: string, i: nat, l: string, r: string)
    requires i <= |s| && l == s[i..] && |r| <= |l| && r == l[..|r|]
    ensures SliceAt(r, s, i)
  {
    assert s[i..][..|r|] == s[i..i + |r|];
  }

  /** Stripping a string that has no surrounding whitespace returns it unchanged. */
  lemma StripTrimmed(s: string)
    requires IsTrimmed(s)
    ensures Strip(s) == s
  {
  }

  /** Stripping removes exactly the surrounding whitespace: padding a trimmed string is undone. */
  lemma {:induction false} StripPadded(pre: string, s: string, post: string)
    requires forall i :: 0 <= i < |pre| ==> IsSpace(pre[i])
    requires forall i :: 0 <= i < |post| ==> IsSpace(post[i])
    requires IsTrimmed(s)
    ensures Strip(pre + s + post) == s
  {
    if s == [] {
      assert pre + s + post == pre + post;
      TrimLeftPadded(pre + post, []);
      assert pre + post + [] == pre + post;
      return;
    }
    assert pre + s + post == pre + (s + post);
    assert (s + post)[0] == s[0];
    TrimLeftPadded(pre, s + post);
    TrimRightPadded(s, post);
    StripTrimmed(s);
  }

  lemma {:induction false} TrimLeftPadded(pre: string, s: string)
    requires forall i :: 0 <= i < |pre| ==> IsSpace(pre[i])
    requires s == [] || !IsSpace(s[0])
    ensures TrimLeft(pre + s) == s
  {
    if pre != [] {
      assert (pre + s)[1..] == pre[1..] + s;
      TrimLeftPadded(pre[1..], s);
    } else {
      assert pre + s == s;
    }
  }

  lemma {:induction false} TrimRightPadded(s: string, post: string)
    requires forall i :: 0 <= i < |post| ==> IsSpace(post[i])
    requires s == [] || !IsSpace(s[|s| - 1])
    ensures TrimRight(s + post) == s
  {
    if post != [] {
      assert (s + post)[..|s + post| - 1] == s + post[..|post| - 1];
      TrimRightPadded(s, post[..|post| - 1]);
    } else {
      assert s + post == s;
    }
  }

  /** Position of the first occurrence of `c` in `s`, if any. */
  function FirstIndex(s: string, c: char): (r: Option<nat>)
    ensures r.None? <==> c !in s
    ensures r.Some? ==> r.value < |s| && s[r.value] == c && c !in s[..r.value]
  {
    if s == [] then None
    else if s[0] == c then Some(0)
    else
      match FirstIndex(s[1..], c)
      case None => None
      case Some(i) =>
        assert s[..i + 1] == [s[0]] + s[1..][..i];
        Some(i + 1)
  }

  /** Any first occurrence found by inspection is the one `FirstIndex` reports. */
  lemma {:induction false} FirstIndexAt(s: string, c: char, i: nat)
    requires i < |s| && s[i] == c && c !in s[..i]
    ensures FirstIndex(s, c) == Some(i)
  {
    if i > 0 {
      assert s[0] == s[..i][0];
      assert s[1..][..i - 1] == s[1..i];
      assert forall x :: x in s[1..i] ==> x in s[..i];
      FirstIndexAt(s[1..], c, i - 1);
    }
  }

  /** `s.split(c)[0]`: everything before the first `c`, or all of `s` when there is none. */
  function BeforeFirst(s: string, c: char): (r: string)
    ensures c !in r
    ensures r <= s
    ensures |r| < |s| ==> s[|r|] == c
  {
    match FirstIndex(s, c)
    case None => s
    case Some(i) => s[..i]
  }

  /** The text before the first separator is recovered exactly when it holds no separator. */
  lemma BeforeFirstOf(p: string, c: char, rest: string)
    requires c !in p
    ensures BeforeFirst(p + [c] + rest, c) == p
  {
    var s := p + [c] + rest;
    assert s[..|p|] == p;
    FirstIndexAt(s, c, |p|);
  }

  /** `s.replace(c, "")`: `s` with every `c` removed, order kept. */
  function RemoveAll(s: string, c: char): (r: string)
    ensures c !in r
    ensures |r| <= |s|
    ensures forall x :: x in r ==> x in s
    ensures c !in s ==> r == s
  {
    if s == [] then []
    else if s[0] == c then RemoveAll(s[1..], c)
    else [s[0]] + RemoveAll(s[1..], c)
  }

  /** `s.endswith(suffix)`. */
  predicate EndsWith(s: string, suffix: string) {
    |suffix| <= |s| && s[|s| - |suffix|..] == suffix
  }

  /** `os.path.basename` on a POSIX path: the part after the last '/'. */
  function Basename(p: string): (r: string)
    ensures '/' !in r
    ensures EndsWith(p, r)
    ensures |r| < |p| ==> p[|p| - |r| - 1] == '/'
  {
    if p == [] then []
    else if p[|p| - 1] == '/' then []
    else
      var q := p[..|p| - 1];
      var b := Basename(q);
      BasenameStep(p, q, b);
      b + [p[|p| - 1]]
  }

  /** One more non-'/' character at the end of the path extends its base name. */
  lemma BasenameStep(p: string, q: string, b: string)
    requires p != [] && q == p[..|p| - 1] && p[|p| - 1] != '/'
    requires '/' !in b && EndsWith(q, b) && (|b| < |q| ==> q[|q| - |b| - 1] == '/')
    ensures var r := b + [p[|p| - 1]];
      '/' !in r && EndsWith(p, r) && (|r| < |p| ==> p[|p| - |r| - 1] == '/')
  {
    var r := b + [p[|p| - 1]];
    assert p[|p| - |r|..] == q[|q| - |b|..] + [p[|p| - 1]];
  }

  /**
   * The console that `print` writes to, as a fault: `Some(k)` when the next `k` prints succeed
   * and the one after them raises (a `UnicodeEncodeError` on a console that cannot encode the
   * emoji, say), `None` when every print succeeds.
   */
  type Console = Option<nat>

  /** Whether the next print raises. */
  predicate PrintRaises(c: Console) {
    c == Some(0)
  }

  /** The console after a print that did not raise. */
  function AfterPrint(c: Console): (r: Console)
    requires !PrintRaises(c)
    ensures c.Some? ==> r == Some(c.value - 1)
    ensures c.None? ==> r.None?
  {
    if c.Some? then Some(c.value - 1) else None
  }

  /** `c * n` for a one-character string `c`: Python yields the empty string for `n <= 0`. */
  function Repeat(c: char, n: int): (r: string)
    ensures |r| == if n <= 0 then 0 else n
    ensures forall i :: 0 <= i < |r| ==> r[i] == c
  {
    if n <= 0 then [] else [c] + Repeat(c, n - 1)
  }

  /** `name.endswith((".opus", ".m4a", ".mp3", ".wav"))`: case-sensitive, as both the scan and the watcher test it. */
  predicate IsAudioName(name: string) {
    EndsWith(name, ".opus") || EndsWith(name, ".m4a") || EndsWith(name, ".mp3") || EndsWith(name, ".wav")
  }

  /**
   * `os.path.join(dir, name)` (POSIX): an absolute `name` replaces `dir`; otherwise a '/' is put
   * between them unless `dir` is empty or already ends with one.
   */
  function PathJoin(dir: string, name: string): (r: string)
    ensures name != [] && name[0] == '/' ==> r == name
    ensures (name == [] || name[0] != '/') ==> |dir| <= |r| <= |dir| + 1 + |name| && r[..|dir|] == dir
    ensures EndsWith(r, name)
    ensures |r| > |name| ==> r[|r| - |name| - 1] == '/'
  {
    if name != [] && name[0] == '/' then name
    else if dir == [] || dir[|dir| - 1] == '/' then dir + name
    else dir + "/" + name
  }

  /** The base name of a path ending in '/' followed by a name without '/' is that name. */
  lemma {:induction false} BasenameAfterSlash(p: string, name: string)
    requires p == [] || p[|p| - 1] == '/'
    requires '/' !in name
    ensures Basename(p + name) == name
    decreases |name|
  {
    if name == [] {
      assert p + name == p;
    } else {
      var init := name[..|name| - 1];
      assert (p + name)[..|p + name| - 1] == p + init;
      assert '/' !in init by {
        assert forall x :: x in init ==> x in name;
      }
      BasenameAfterSlash(p, init);
      assert init + [name[|name| - 1]] == name;
    }
  }

  /** Joining a directory and a plain file name and taking the base name gives the file name back. */
  lemma BasenameOfJoin(dir: string, name: string)
    requires '/' !in name
    ensures Basename(PathJoin(dir, name)) == name
  {
    if dir == [] || dir[|dir| - 1] == '/' {
      BasenameAfterSlash(dir, name);
    } else {
      assert dir + "/" + name == (dir + "/") + name;
      BasenameAfterSlash(dir + "/", name);
    }
  }
}

=== FILE: utils.dfy ===
/**
 * The helpers of `app/utils.py` the rest of the program relies on: the accelerator choice
 * and its label, the command lookup, the memory probe with its unit conversions, and the
 * recent-log view. What `torch`, `platform`, `shutil` and the file system would report
 * comes in as parameters.
 */
module Utils {
  import opened Wrappers
  import opened Text
  import Worker
  import Sizing

  // ---------------------------------------------------------------------------
  // Accelerator
  // ---------------------------------------------------------------------------

  /** `get_compute_device`: CUDA first, then Apple's MPS, then the CPU. */
  function ComputeDevice(cudaAvailable: bool, mpsAvailable: bool): (r: string)
  {
    if cudaAvailable then "cuda"
    else if mpsAvailable then "mps"
    else "cpu"
  }

  /** The priority: each device is chosen exactly when every device before it is unavailable. */
  lemma DevicePriority(cudaAvailable: bool, mpsAvailable: bool)
    ensures ComputeDevice(cudaAvailable, mpsAvailable) == "cuda" <==> cudaAvailable
    ensures ComputeDevice(cudaAvailable, mpsAvailable) == "mps" <==> !cudaAvailable && mpsAvailable
    ensures ComputeDevice(cudaAvailable, mpsAvailable) == "cpu" <==> !cudaAvailable && !mpsAvailable
  {
  }

  /** The label shown for a device name, `gpuName` being what CUDA reports for device 0. */
  function Label(device: string, gpuName: string): string {
    if device == "cuda" then "NVIDIA CUDA (" + gpuName + ")"
    else if device == "mps" then "Apple Silicon (MPS)"
    else "CPU Only"
  }

  /** `get_device_name`: the label of the accelerator in use, with the same priority. */
  function DeviceName(cudaAvailable: bool, mpsAvailable: bool, gpuName: string): (r: string)
  {
    if cudaAvailable then "NVIDIA CUDA (" + gpuName + ")"
    else if mpsAvailable then "Apple Silicon (MPS)"
    else "CPU Only"
  }

  /** The label always names the device `get_compute_device` picks. */
  lemma DeviceNameAgrees(cudaAvailable: bool, mpsAvailable: bool, gpuName: string)
    ensures DeviceName(cudaAvailable, mpsAvailable, gpuName) == Label(ComputeDevice(cudaAvailable, mpsAvailable), gpuName)
  {
  }

  /**
   * The device `run_transcriber` loads the model on: the one `get_compute_device` picks, or
   * the CPU when loading there raises `RuntimeError`.
   */
  function LoadedDevice(cudaAvailable: bool, mpsAvailable: bool, loadOk: bool): (r: string)
    ensures loadOk ==> r == ComputeDevice(cudaAvailable, mpsAvailable)
    ensures !loadOk ==> r == "cpu"
  {
    if loadOk then ComputeDevice(cudaAvailable, mpsAvailable) else "cpu"
  }

  /**
   * The running app's fp16 choice: `run_transcriber` starts the worker of `app/core.py`, so
   * half precision is used exactly when CUDA is available and the model loaded there.
   */
  lemma Fp16InRunningApp(cudaAvailable: bool, mpsAvailable: bool, loadOk: bool)
    ensures Worker.CoreUseFp16(Some(LoadedDevice(cudaAvailable, mpsAvailable, loadOk))) <==> cudaAvailable && loadOk
  {
    var d := LoadedDevice(cudaAvailable, mpsAvailable, loadOk);
    assert Worker.CoreUseFp16(Some(d)) <==> d == "cuda";
  }

  /**
   * For a model on the chosen device, the worker of `app/transcriber.py` would use half
   * precision with CUDA, or with MPS when the MPS flag is on.
   */
  lemma Fp16OnChosenDevice(cudaAvailable: bool, mpsAvailable: bool, mpsFp16: bool)
    ensures Worker.UseFp16(Some(ComputeDevice(cudaAvailable, mpsAvailable)), mpsFp16) <==>
      cudaAvailable || (mpsAvailable && mpsFp16)
  {
    Worker.Fp16Rule(Some(ComputeDevice(cudaAvailable, mpsAvailable)), mpsFp16);
  }

  // ---------------------------------------------------------------------------
  // Command lookup
  // ---------------------------------------------------------------------------

  /** `check_command`: `which` is what `shutil.which` returned; an empty path counts as absent. */
  function CheckCommand(which: Option<string>): (r: (bool, Option<string>))
    ensures r.0 <==> which.Some? && which.value != []
    ensures r.0 ==> r.1 == which
    ensures !r.0 ==> r.1 == None
  {
    match which
    case Some(p) => if p != [] then (true, Some(p)) else (false, None)
    case None => (false, None)
  }

  /**
   * The report is consistent: a path is returned exactly when the command counts as found,
   * and looking up what was returned again gives the same answer.
   */
  lemma CheckCommandStable(which: Option<string>)
    ensures CheckCommand(which).1.Some? <==> CheckCommand(which).0
    ensures CheckCommand(CheckCommand(which).1) == CheckCommand(which)
  {
  }

  // ---------------------------------------------------------------------------
  // Words and decimal numbers
  // ---------------------------------------------------------------------------

  /** A word of `str.split()`: non-empty and free of whitespace. */
  predicate IsWord(w: string) {
    w != [] && forall i :: 0 <= i < |w| ==> !IsSpace(w[i])
  }

  /** The length of the leading run of non-whitespace characters. */
  function TokenLen(s: string): (n: nat)
    ensures n <= |s|
    ensures forall i :: 0 <= i < n ==> !IsSpace(s[i])
    ensures n < |s| ==> IsSpace(s[n])
    decreases |s|
  {
    if s == [] || IsSpace(s[0]) then 0 else 1 + TokenLen(s[1..])
  }

  /** `str.split()` with no argument: the maximal runs of non-whitespace characters, in order. */
  function Words(s: string): (r: seq<string>)
    ensures forall i :: 0 <= i < |r| ==> IsWord(r[i])
    decreases |s|
  {
    if s == [] then []
    else if IsSpace(s[0]) then Words(s[1..])
    else
      var n := TokenLen(s);
      [s[..n]] + Words(s[n..])
  }

  /** The token run of a word followed by nothing or by whitespace is the whole word. */
  lemma {:induction false} TokenLenOfWord(w: string, rest: string)
    requires IsWord(w)
    requires rest == [] || IsSpace(rest[0])
    ensures TokenLen(w + rest) == |w|
    decreases |w|
  {
    var s := w + rest;
    if |w| > 1 {
      assert s[1..] == w[1..] + rest;
      TokenLenOfWord(w[1..], rest);
    } else {
      assert s[1..] == rest;
    }
  }

  /** Splitting whitespace, then a word, then nothing or more text starting with whitespace, yields that word first. */
  lemma {:induction false} WordsOfSpaced(sp: string, w: string, rest: string)
    requires forall i :: 0 <= i < |sp| ==> IsSpace(sp[i])
    requires IsWord(w)
    requires rest == [] || IsSpace(rest[0])
    ensures Words(sp + w + rest) == [w] + Words(rest)
    decreases |sp|
  {
    var s := sp + w + rest;
    if sp == [] {
      assert s == w + rest;
      TokenLenOfWord(w, rest);
      assert s[..|w|] == w;
      assert s[|w|..] == rest;
    } else {
      assert s[1..] == sp[1..] + w + rest;
      WordsOfSpaced(sp[1..], w, rest);
    }
  }

  predicate IsDigit(c: char) { '0' <= c <= '9' }

  /** The value of a string of decimal digits. */
  function DigitsValue(d: string): (r: nat)
    requires forall i :: 0 <= i < |d| ==> IsDigit(d[i])
    decreases |d|
  {
    if d == [] then 0
    else
      var digit := d[|d| - 1] as int - '0' as int;
      assert IsDigit(d[|d| - 1]);
      DigitsValue(d[..|d| - 1]) * 10 + (if digit < 0 then 0 else digit)
  }

  /**
   * `int(text)` on a string: surrounding whitespace is ignored, an optional sign, then one
   * or more decimal digits; anything else raises `ValueError` (`None` here).
   */
  function ParseInt(text: string): (r: Option<int>)
    ensures r.Some? <==> SignedDigits(Strip(text))
  {
    var t := Strip(text);
    if t == [] then None
    else
      var negative := t[0] == '-';
      var digits := if t[0] == '-' || t[0] == '+' then t[1..] else t;
      if digits == [] || exists i :: 0 <= i < |digits| && !IsDigit(digits[i]) then None
      else
        var v: int := DigitsValue(digits);
        if negative then Some(-v) else Some(v)
  }

  /** An optional `+` or `-` followed by one or more decimal digits. */
  predicate SignedDigits(t: string) {
    var start := if t != [] && (t[0] == '+' || t[0] == '-') then 1 else 0;
    start < |t| && forall i :: start <= i < |t| ==> IsDigit(t[i])
  }

  /** The decimal digits of `n`, with no leading zero. */
  function Show(n: nat): (r: string)
    ensures r != [] && forall i :: 0 <= i < |r| ==> IsDigit(r[i])
    decreases n
  {
    var last := [('0' as int + n % 10) as char];
    if n < 10 then last else Show(n / 10) + last
  }

  /** Reading back the digits of `n` gives `n`. */
  lemma {:induction false} ShowValue(n: nat)
    ensures DigitsValue(Show(n)) == n
    decreases n
  {
    var s := Show(n);
    if n >= 10 {
      ShowValue(n / 10);
      assert s[..|s| - 1] == Show(n / 10);
    }
  }

  /** `int(str(n))` is `n`, with any whitespace around the digits. */
  lemma ParseShow(n: nat, pre: string, post: string)
    requires forall i :: 0 <= i < |pre| ==> IsSpace(pre[i])
    requires forall i :: 0 <= i < |post| ==> IsSpace(post[i])
    ensures ParseInt(pre + Show(n) + post) == Some(n)
  {
    var s := Show(n);
    assert IsTrimmed(s) by {
      assert !IsSpace(s[0]) && !IsSpace(s[|s| - 1]);
    }
    StripPadded(pre, s, post);
    ShowValue(n);
  }

  /** A blank string is not a number. */
  lemma ParseBlank(blank: string)
    requires forall i :: 0 <= i < |blank| ==> IsSpace(blank[i])
    ensures ParseInt(blank) == None
  {
    StripPadded(blank, [], []);
    assert blank + [] + [] == blank;
  }

  /** A word with a character that is neither a digit nor a leading sign is not a number. */
  lemma ParseRejectsNonDigit(w: string, k: nat)
    requires IsWord(w) && 0 < k < |w| && !IsDigit(w[k])
    ensures ParseInt(w) == None
  {
    assert IsTrimmed(w) by {
      assert !IsSpace(w[0]) && !IsSpace(w[|w| - 1]);
    }
    StripTrimmed(w);
    var digits := if w[0] == '-' || w[0] == '+' then w[1..] else w;
    assert Strip(w)[k] == w[k];
  }

  /** `s` contains `pat` somewhere (Python's `pat in s`). */
  predicate Contains(s: string, pat: string) {
    exists i :: 0 <= i <= |s| - |pat| && MatchAt(s, pat, i)
  }

  /** `pat` occurs in `s` at index `i`. */
  predicate MatchAt(s: string, pat: string, i: int)
    requires 0 <= i <= |s| - |pat|
  {
    s[i..i + |pat|] == pat
  }

  /** The index of the first of `lines`, from `k` on, that contains `pat`. */
  function FirstContaining(lines: seq<string>, pat: string, k: nat): (r: Option<nat>)
    requires k <= |lines|
    ensures r.Some? ==> k <= r.value < |lines| && Contains(lines[r.value], pat)
    ensures r.Some? ==> forall j :: k <= j < r.value ==> !Contains(lines[j], pat)
    ensures r.None? ==> forall j :: k <= j < |lines| ==> !Contains(lines[j], pat)
    decreases |lines| - k
  {
    if k == |lines| then None
    else if Contains(lines[k], pat) then Some(k)
    else FirstContaining(lines, pat, k + 1)
  }

  // ---------------------------------------------------------------------------
  // Memory probe
  // ---------------------------------------------------------------------------

  /** Bytes in a gibibyte, `1024**3`. */
  const GiB: int := 1073741824
  /** Kibibytes in a gibibyte, `1024**2`. */
  const KiBPerGiB: int := 1048576

  /** The marker of the total-memory line of `/proc/meminfo`. */
  const MemTotalKey: string := "MemTotal"

  /**
   * What the machine reports: whether CUDA is available and, if asked, the device's total
   * bytes (`None` if the query raised); the `platform.system()` name; the output of
   * `sysctl -n hw.memsize` (`None` if the command failed); the lines of `/proc/meminfo`
   * (`None` if it could not be opened).
   */
  datatype Probe = Probe(cudaAvailable: bool, cudaBytes: Option<int>, system: string,
                         sysctl: Option<string>, meminfo: Option<seq<string>>)

  /** Total gigabytes and the kind of memory: `"vram"`, `"unified"` or `"system"`. */
  datatype Memory = Memory(totalGb: real, kind: string)

  /** `int(line.split()[1])`: the line's second word as a number; `None` when it has fewer words or the word is not a number. */
  function SecondWordValue(line: string): (r: Option<int>)
    ensures |Words(line)| < 2 ==> r.None?
  {
    var w := Words(line);
    if |w| < 2 then None else ParseInt(w[1])
  }

  /** The Linux reading: the second word of the first line mentioning `MemTotal`, in kB. */
  function MeminfoTotal(lines: seq<string>): (r: Option<Memory>)
    ensures r.Some? ==> r.value.kind == "system"
  {
    match FirstContaining(lines, MemTotalKey, 0)
    case None => None
    case Some(i) =>
      match SecondWordValue(lines[i])
      case None => None
      case Some(kb) => Some(Memory(kb as real / KiBPerGiB as real, "system"))
  }

  /**
   * `get_memory_info`: CUDA memory first, then macOS unified memory, then Linux system
   * memory; `None` for any other system, a missing `MemTotal` line, or any error on the way.
   */
  function MemoryInfo(p: Probe): (r: Option<Memory>)
    ensures p.cudaAvailable && r.Some? ==> r.value.kind == "vram"
    ensures !p.cudaAvailable && p.system == "Darwin" && r.Some? ==> r.value.kind == "unified"
    ensures !p.cudaAvailable && p.system == "Linux" && r.Some? ==> r.value.kind == "system"
    ensures !p.cudaAvailable && p.system != "Darwin" && p.system != "Linux" ==> r.None?
  {
    if p.cudaAvailable then
      match p.cudaBytes
      case None => None
      case Some(b) => Some(Memory(b as real / GiB as real, "vram"))
    else if p.system == "Darwin" then
      match p.sysctl
      case None => None
      case Some(out) =>
        match ParseInt(out)
        case None => None
        case Some(b) => Some(Memory(b as real / GiB as real, "unified"))
    else if p.system == "Linux" then
      match p.meminfo
      case None => None
      case Some(lines) => MeminfoTotal(lines)
    else None
  }

  /** Eight gibibytes of CUDA memory read as 8.0 GB of VRAM. */
  lemma CudaEightGb(system: string, sysctl: Option<string>, meminfo: Option<seq<string>>)
    ensures MemoryInfo(Probe(true, Some(8 * GiB), system, sysctl, meminfo)) == Some(Memory(8.0, "vram"))
  {
  }

  /** `sysctl` printing 17179869184 (and a newline) reads as 16.0 GB of unified memory. */
  lemma MacSixteenGb(cudaBytes: Option<int>, meminfo: Option<seq<string>>)
    ensures MemoryInfo(Probe(false, cudaBytes, "Darwin", Some(Show(17179869184) + "\n"), meminfo)) ==
      Some(Memory(16.0, "unified"))
  {
    MacReading(17179869184, cudaBytes, meminfo);
  }

  /** `sysctl` printing the digits of `b` and a newline reads as `b` bytes of unified memory. */
  lemma MacReading(b: nat, cudaBytes: Option<int>, meminfo: Option<seq<string>>)
    ensures MemoryInfo(Probe(false, cudaBytes, "Darwin", Some(Show(b) + "\n"), meminfo)) ==
      Some(Memory(b as real / GiB as real, "unified"))
  {
    ShowLine(b);
  }

  /** The digits of `b` and a newline read as `b`. */
  lemma ShowLine(b: nat)
    ensures ParseInt(Show(b) + "\n") == Some(b)
  {
    var d := Show(b);
    ShowWord(b);
    assert Strip(d + "\n") == d by {
      StripPadded([], d, "\n");
      assert [] + d + "\n" == d + "\n";
    }
    ParseOfStrip(d + "\n", d);
  }

  /** `int()` only sees the stripped text. */
  lemma ParseOfStrip(text: string, t: string)
    requires Strip(text) == Strip(t)
    ensures ParseInt(text) == ParseInt(t)
  {
  }

  /** Text containing `pat` still contains it with more text after it. */
  lemma ContainsExtends(s: string, rest: string, pat: string)
    requires Contains(s, pat)
    ensures Contains(s + rest, pat)
  {
    var k :| 0 <= k <= |s| - |pat| && MatchAt(s, pat, k);
    assert (s + rest)[k..k + |pat|] == s[k..k + |pat|];
    assert MatchAt(s + rest, pat, k);
  }

  /** When the first line contains `pat`, it is the one found. */
  lemma FirstLineContaining(line: string, more: seq<string>, pat: string)
    requires Contains(line, pat)
    ensures FirstContaining([line] + more, pat, 0) == Some(0)
  {
    assert ([line] + more)[0] == line;
  }

  /** A line of a tag word, whitespace, a word and then nothing or whitespace splits into those two words first. */
  lemma SecondWord(tag: string, sp: string, w: string, unit: string)
    requires IsWord(tag) && IsWord(w)
    requires sp != [] && forall i :: 0 <= i < |sp| ==> IsSpace(sp[i])
    requires unit == [] || IsSpace(unit[0])
    ensures |Words(tag + sp + w + unit)| >= 2 && Words(tag + sp + w + unit)[1] == w
    ensures SecondWordValue(tag + sp + w + unit) == ParseInt(w)
  {
    var tail := sp + w + unit;
    assert tag + sp + w + unit == [] + tag + tail;
    assert tail[0] == sp[0];
    WordsOfSpaced([], tag, tail);
    WordsOfSpaced(sp, w, unit);
  }

  /** A `MemTotal` line with a readable number as its second word gives the reading. */
  lemma MeminfoOfFirst(line: string, more: seq<string>, kb: int)
    requires Contains(line, MemTotalKey) && SecondWordValue(line) == Some(kb)
    ensures MeminfoTotal([line] + more) == Some(Memory(kb as real / 1048576.0, "system"))
  {
    FirstLineContaining(line, more, MemTotalKey);
    assert ([line] + more)[0] == line;
  }

  /** The digits of `n` form one word that reads back as `n`. */
  lemma ShowWord(n: nat)
    ensures IsWord(Show(n)) && ParseInt(Show(n)) == Some(n)
  {
    var d := Show(n);
    forall i | 0 <= i < |d|
      ensures !IsSpace(d[i])
    {
      assert IsDigit(d[i]);
    }
    StripTrimmed(d);
    ShowValue(n);
    assert IsDigit(d[0]) && d[0] != '-' && d[0] != '+';
  }

  /** `KbLine` for any word `d` that reads as `n`. */
  lemma WordLine(tag: string, sp: string, d: string, unit: string, n: int)
    requires IsWord(tag) && Contains(tag, MemTotalKey)
    requires sp != [] && forall i :: 0 <= i < |sp| ==> IsSpace(sp[i])
    requires unit == [] || IsSpace(unit[0])
    requires IsWord(d) && ParseInt(d) == Some(n)
    ensures Contains(tag + sp + d + unit, MemTotalKey)
    ensures SecondWordValue(tag + sp + d + unit) == Some(n)
  {
    SecondWord(tag, sp, d, unit);
    assert tag + sp + d + unit == tag + (sp + d + unit);
    ContainsExtends(tag, sp + d + unit, MemTotalKey);
  }

  /** A tag mentioning `MemTotal`, whitespace, the number `n` and a unit: a `MemTotal` line reading `n`. */
  lemma KbLine(tag: string, sp: string, n: nat, unit: string)
    requires IsWord(tag) && Contains(tag, MemTotalKey)
    requires sp != [] && forall i :: 0 <= i < |sp| ==> IsSpace(sp[i])
    requires unit == [] || IsSpace(unit[0])
    ensures Contains(tag + sp + Show(n) + unit, MemTotalKey)
    ensures SecondWordValue(tag + sp + Show(n) + unit) == Some(n)
  {
    ShowWord(n);
    WordLine(tag, sp, Show(n), unit, n);
  }

  /**
   * A `/proc/meminfo` whose first line is a tag mentioning `MemTotal`, some whitespace, the
   * number `n` and a unit yields `n` kB, as gigabytes.
   */
  lemma LinuxMeminfo(tag: string, sp: string, n: nat, unit: string, more: seq<string>)
    requires IsWord(tag) && Contains(tag, MemTotalKey)
    requires sp != [] && forall i :: 0 <= i < |sp| ==> IsSpace(sp[i])
    requires unit == [] || IsSpace(unit[0])
    ensures MeminfoTotal([tag + sp + Show(n) + unit] + more) == Some(Memory(n as real / 1048576.0, "system"))
  {
    KbLine(tag, sp, n, unit);
    MeminfoOfFirst(tag + sp + Show(n) + unit, more, n);
  }

  /** `MemTotal:` is such a tag, and 16384000 kB is 15.625 GB. */
  lemma MemTotalLabel()
    ensures IsWord("MemTotal:") && Contains("MemTotal:", MemTotalKey)
    ensures (16384000 as real) / 1048576.0 == 15.625
  {
    assert MatchAt("MemTotal:", MemTotalKey, 0);
  }

  /** No `MemTotal` line means the memory is unknown. */
  lemma MeminfoWithoutTotal(cudaBytes: Option<int>, sysctl: Option<string>, lines: seq<string>)
    requires forall j :: 0 <= j < |lines| ==> !Contains(lines[j], MemTotalKey)
    ensures MemoryInfo(Probe(false, cudaBytes, "Linux", sysctl, Some(lines))) == None
  {
  }

  /** On a system that is neither macOS nor Linux and has no CUDA, the wizard suggests `turbo`. */
  lemma UnknownSystemSuggestsTurbo(p: Probe, vramFactor: real, systemFactor: real)
    requires !p.cudaAvailable && p.system != "Darwin" && p.system != "Linux"
    ensures var m := MemoryInfo(p);
      Sizing.SuggestBestModel(if m.Some? then Some(m.value.totalGb) else None,
                              if m.Some? then Some(m.value.kind) else None, vramFactor, systemFactor) == "turbo"
  {
  }

  // ---------------------------------------------------------------------------
  // Recent logs
  // ---------------------------------------------------------------------------

  /** A `*_daily.log` file: its name, its modification time, and its lines (`None` if it cannot be read). */
  datatype LogFile = LogFile(name: string, mtime: real, lines: Option<seq<string>>)

  /** What `show_logs` shows. */
  datatype LogView =
    | InvalidType(kind: string)                  // `ValueError`
    | NoLogFiles                                 // the directory holds no daily log
    | Shown(file: string, lines: seq<string>)    // the last lines, stripped
    | ReadFailed(file: string)                   // the file could not be read

  /** `max(files, key=getmtime)`: the first file with the greatest modification time. */
  function Newest(files: seq<LogFile>): (r: nat)
    requires files != []
    ensures r < |files|
    ensures forall j :: 0 <= j < |files| ==> files[j].mtime <= files[r].mtime
    ensures forall j :: 0 <= j < r ==> files[j].mtime < files[r].mtime
    decreases |files|
  {
    if |files| == 1 then 0
    else
      var k := Newest(files[..|files| - 1]);
      if files[|files| - 1].mtime > files[k].mtime then |files| - 1 else k
  }

  /** `deque(lines, maxlen=n)`: the last `min(n, |lines|)` lines, in order. */
  function Tail(lines: seq<string>, n: nat): (r: seq<string>)
    ensures |r| == if n < |lines| then n else |lines|
    ensures forall i :: 0 <= i < |r| ==> r[i] == lines[|lines| - |r| + i]
  {
    if n < |lines| then lines[|lines| - n..] else lines
  }

  /**
   * `show_logs`: the application's or the transcription logs; the newest daily log, whose
   * last `n` lines are shown stripped. A negative `n` makes the `deque` raise, which is
   * reported like a read error.
   */
  function ShowLogs(kind: string, appLogs: seq<LogFile>, audioLogs: seq<LogFile>, n: int): (r: LogView)
    ensures kind != "app" && kind != "transcribed_audio" <==> r == InvalidType(kind)
    ensures r == NoLogFiles <==> (kind == "app" && appLogs == []) || (kind == "transcribed_audio" && audioLogs == [])
  {
    if kind != "app" && kind != "transcribed_audio" then InvalidType(kind)
    else
      var files := if kind == "app" then appLogs else audioLogs;
      if files == [] then NoLogFiles
      else
        var f := files[Newest(files)];
        if f.lines.None? || n < 0 then ReadFailed(f.name)
        else
          Shown(f.name, StripAll(Tail(f.lines.value, n)))
  }

  /** `line.strip()` on every line, in order. */
  function StripAll(lines: seq<string>): (r: seq<string>)
    ensures |r| == |lines| && forall i :: 0 <= i < |lines| ==> r[i] == Strip(lines[i])
  {
    seq(|lines|, i requires 0 <= i < |lines| => Strip(lines[i]))
  }

  /** `lines` are the last `min(n, count)` lines of `f`, stripped, in file order. */
  predicate StrippedTailOf(lines: seq<string>, f: LogFile, n: int) {
    f.lines.Some? && n >= 0 &&
    var all := f.lines.value;
    |lines| == (if n < |all| then n else |all|) &&
    lines == StripAll(all[|all| - |lines|..])
  }

  /**
   * A shown view is the newest file's last `min(n, count)` lines, stripped, in file order;
   * no file was modified later than it.
   */
  lemma ShownIsNewestTail(kind: string, appLogs: seq<LogFile>, audioLogs: seq<LogFile>, n: int)
    requires ShowLogs(kind, appLogs, audioLogs, n).Shown?
    ensures var files := if kind == "app" then appLogs else audioLogs;
      var v := ShowLogs(kind, appLogs, audioLogs, n);
      exists k :: 0 <= k < |files| && files[k].name == v.file &&
        (forall j :: 0 <= j < |files| ==> files[j].mtime <= files[k].mtime) &&
        StrippedTailOf(v.lines, files[k], n)
  {
    var files := if kind == "app" then appLogs else audioLogs;
    var k := Newest(files);
    var f := files[k];
    var v := ShowLogs(kind, appLogs, audioLogs, n);
    assert v == Shown(f.name, StripAll(Tail(f.lines.value, n)));
    TailStripped(f, n);
  }

  /** What `show_logs` shows of a readable file is its stripped tail. */
  lemma TailStripped(f: LogFile, n: int)
    requires f.lines.Some? && n >= 0
    ensures StrippedTailOf(StripAll(Tail(f.lines.value, n)), f, n)
  {
    var all := f.lines.value;
    var t := Tail(all, n);
    assert t == all[|all| - |t|..];
  }

  /** An empty log file is shown as empty. */
  lemma EmptyLogShownEmpty(f: LogFile, n: nat)
    requires f.lines == Some([])
    ensures ShowLogs("app", [f], [], n) == Shown(f.name, [])
  {
  }

  /** A file newer than every other is the newest. */
  lemma NewestOfAppended(files: seq<LogFile>, f: LogFile)
    requires forall j :: 0 <= j < |files| ==> files[j].mtime < f.mtime
    ensures Newest(files + [f]) == |files|
  {
    var all := files + [f];
    if files != [] {
      assert all[..|all| - 1] == files;
    }
  }

  /** A daily log newer than every other is the one shown. */
  lemma NewerLogIsShown(kind: string, files: seq<LogFile>, f: LogFile, n: nat)
    requires kind == "app" || kind == "transcribed_audio"
    requires forall j :: 0 <= j < |files| ==> files[j].mtime < f.mtime
    requires f.lines.Some?
    ensures ShowLogs(kind, files + [f], files + [f], n).Shown?
    ensures ShowLogs(kind, files + [f], files + [f], n).file == f.name
  {
    NewestOfAppended(files, f);
    assert (files + [f])[|files|] == f;
  }
}

=== FILE: worker.dfy ===
/**
 * The transcription worker (`TranscriptionWorker` in `app/transcriber.py`): the size-stability
 * wait before a file is read, the fp16 choice, and the effects `process_file` has on the
 * clipboard, the transcript log and the ledger, in the order it has them.
 */
module Worker {
  import opened Wrappers
  import opened Text
  import opened LogFormat
  import opened Ledger

  /**
   * What one poll of `os.path.getsize` observed: `Some(size)`, or `None` when it raised
   * `OSError`. The polls of a call are those that start before the timeout expires.
   */
  type Polls = seq<Option<nat>>

  /** The size of the last successful read among `polls`, or `-1` (the initial `last_size`) when there is none. */
  function LastSize(polls: Polls): (r: int)
    ensures r == -1 <==> forall i :: 0 <= i < |polls| ==> polls[i].None?
    ensures r != -1 ==> exists i :: 0 <= i < |polls| && polls[i] == Some(r) && NoReadAfter(polls, i)
    decreases |polls|
  {
    if polls == [] then -1
    else
      var init := polls[..|polls| - 1];
      match polls[|polls| - 1]
      case Some(size) =>
        assert NoReadAfter(polls, |polls| - 1);
        size
      case None =>
        assert forall i :: 0 <= i < |init| ==> init[i] == polls[i];
        var r := LastSize(init);
        assert r != -1 ==> exists i :: 0 <= i < |polls| && polls[i] == Some(r) && NoReadAfter(polls, i) by {
          if r != -1 {
            var i :| 0 <= i < |init| && init[i] == Some(r) && NoReadAfter(init, i);
            assert NoReadAfter(polls, i);
          }
        }
        r
  }

  /** Every poll after poll `i` failed. */
  predicate NoReadAfter(polls: Polls, i: int) {
    forall j :: 0 <= j < |polls| && i < j ==> polls[j].None?
  }

  /** A failed read leaves the remembered size as it was; a successful one replaces it. */
  lemma LastSizeAppend(polls: Polls, size: nat)
    ensures LastSize(polls + [None]) == LastSize(polls)
    ensures LastSize(polls + [Some(size)]) == size
  {
    assert (polls + [None])[..|polls|] == polls;
  }

  /** Poll `j` settles the wait: it read a positive size equal to the previous successful read. */
  predicate StableAt(polls: Polls, j: int)
    requires 0 <= j < |polls|
  {
    polls[j].Some? && polls[j].value > 0 && polls[j].value == LastSize(polls[..j])
  }

  /** Whether some poll settles the wait. */
  predicate Settles(polls: Polls) {
    exists j :: 0 <= j < |polls| && StableAt(polls, j)
  }

  /**
   * `wait_for_file_ready`: polls the size until one successful read repeats the previous
   * successful read with a positive size. `polled` is how many polls were made: up to and
   * including the first settling poll, or all of them when none settles.
   */
  method WaitForFileReady(polls: Polls) returns (ready: bool, polled: nat)
    ensures ready <==> Settles(polls)
    ensures polled <= |polls|
    ensures ready ==> 2 <= polled && StableAt(polls, polled - 1)
    ensures ready ==> forall j :: 0 <= j < polled - 1 ==> !StableAt(polls, j)
    ensures !ready ==> polled == |polls|
  {
    var last: int := -1;
    var i := 0;
    while i < |polls|
      invariant 0 <= i <= |polls|
      invariant last == LastSize(polls[..i])
      invariant forall j :: 0 <= j < i ==> !StableAt(polls, j)
    {
      assert polls[..i + 1][..i] == polls[..i];
      match polls[i] {
        case Some(size) =>
          if size == last && size > 0 {
            assert StableAt(polls, i);
            return true, i + 1;
          }
          last := size;
        case None =>
      }
      i := i + 1;
    }
    assert polls[..i] == polls;
    return false, |polls|;
  }

  /** The first poll never settles: `last_size` starts below every size. */
  lemma FirstPollNeverSettles(polls: Polls)
    requires polls != []
    ensures !StableAt(polls, 0)
  {
    assert polls[..0] == [];
  }

  /** A file that always reads as empty is never ready. */
  lemma EmptyFileNeverReady(polls: Polls)
    requires forall i :: 0 <= i < |polls| ==> polls[i].Some? ==> polls[i].value == 0
    ensures !Settles(polls)
  {
  }

  /** Two equal positive reads settle on the second poll. */
  lemma StableTwice(size: nat)
    requires size > 0
    ensures StableAt([Some(size), Some(size)], 1)
  {
    assert [Some(size), Some(size)][..1] == [Some(size)];
    assert [Some(size)][..0] == [];
  }

  /**
   * A failed read in between neither resets nor replaces the remembered size: after any
   * history, a read that repeats the last successful one across an error settles the wait,
   * and `100, error, 100` settles on its third poll.
   */
  lemma FailedReadKeepsLastSize(before: Polls, size: nat)
    requires size > 0 && LastSize(before) == size
    ensures StableAt(before + [None, Some(size)], |before| + 1)
    ensures !StableAt(before + [None, Some(size)], |before|)
    ensures StableAt([Some(size), None, Some(size)], 2)
  {
    ReadAcrossError(before, size);
    LastSizeAppend([], size);
    assert [] + [Some(size)] == [Some(size)];
    ReadAcrossError([Some(size)], size);
    assert [Some(size)] + [None, Some(size)] == [Some(size), None, Some(size)];
  }

  lemma ReadAcrossError(before: Polls, size: nat)
    requires size > 0 && LastSize(before) == size
    ensures StableAt(before + [None, Some(size)], |before| + 1)
    ensures !StableAt(before + [None, Some(size)], |before|)
  {
    var polls := before + [None, Some(size)];
    assert polls[..|before|] == before;
    assert polls[..|before| + 1] == before + [None];
    LastSizeAppend(before, size);
  }

  /** The successful reads among `polls` strictly grow. */
  predicate ReadsIncrease(polls: Polls) {
    forall i, j :: 0 <= i < j < |polls| && polls[i].Some? && polls[j].Some? ==> polls[i].value < polls[j].value
  }

  /** Sizes whose successful reads keep growing never settle, whatever reads fail in between. */
  lemma GrowingNeverSettles(polls: Polls)
    requires ReadsIncrease(polls)
    ensures !Settles(polls)
  {
    forall j | 0 <= j < |polls|
      ensures !StableAt(polls, j)
    {
      var before := polls[..j];
      if polls[j].Some? && LastSize(before) != -1 {
        var i :| 0 <= i < |before| && before[i] == Some(LastSize(before)) && NoReadAfter(before, i);
        assert polls[i] == before[i];
      }
    }
  }

  /**
   * The fp16 choice: `device` is the model's `device.type`, `None` when the model has no
   * `device` attribute (then the type is taken as "cpu"); `mpsFp16` is `ENABLE_MPS_FP16`.
   */
  function UseFp16(device: Option<string>, mpsFp16: bool): (r: bool)
    ensures r ==> device.Some?
  {
    var deviceType := match device case Some(t) => t case None => "cpu";
    if deviceType == "cuda" then true
    else if deviceType == "mps" then mpsFp16
    else false
  }

  /** fp16 is used on CUDA always, on MPS exactly when enabled, and on nothing else. */
  lemma Fp16Rule(device: Option<string>, mpsFp16: bool)
    ensures UseFp16(device, mpsFp16) <==> device == Some("cuda") || (device == Some("mps") && mpsFp16)
    ensures UseFp16(None, mpsFp16) == false && UseFp16(Some("cpu"), mpsFp16) == false
  {
  }

  /**
   * The fp16 choice of the worker copy in `app/core.py`, the one `run_transcriber` starts:
   * half precision on CUDA only, whatever the MPS flag says.
   */
  function CoreUseFp16(device: Option<string>): (r: bool)
    ensures r <==> device == Some("cuda")
  {
    match device
    case Some(t) => t == "cuda"
    case None => false
  }

  /** The two copies agree except on MPS with `ENABLE_MPS_FP16` on, where only this file's copy uses fp16. */
  lemma Fp16CopiesDiffer(device: Option<string>, mpsFp16: bool)
    ensures UseFp16(device, mpsFp16) != CoreUseFp16(device) <==> device == Some("mps") && mpsFp16
  {
    Fp16Rule(device, mpsFp16);
  }

  /** One observable effect of `process_file`. */
  datatype Effect =
    | Transcribe(path: string, fp16: bool)
    | CopyAttempt(text: string)
    | LogAppend(text: string, path: string, duration: string)
    | LedgerAdd(name: string, path: string)

  /** The clipboard, the transcript logs and the ledger, as `process_file` sees them. */
  datatype World = World(clipboard: Option<string>, archive: Archive, db: Db)

  /**
   * What the environment does during one `process_file` call. `polls` are the size polls;
   * `duration` is the formatted audio length, `None` when decoding raised; `engine` is the
   * raw text of `transcribe`, `Err` when it raised; the rest are the clock readings and the
   * outcomes of the clipboard, log-directory, log-write and database calls.
   */
  datatype Env = Env(
    polls: Polls, duration: Option<string>, device: Option<string>, mpsFp16: bool,
    engine: Result<string>, clipboardOk: bool,
    date: string, timestamp: string, elapsed: string, logDirOk: bool, logWrite: LogWrite,
    store: Store, now: string, failing: set<Notice>)

  /**
   * The console messages of `process_file` whose `print` can raise (an encoding error on a
   * console that cannot show the glyphs, say): the timeout notice and the working notice,
   * printed outside any `try`; the two result lines inside the outer `try`; the clipboard
   * confirmation and the clipboard warning; and the error line printed in the outer `except`.
   */
  datatype Notice = TimeoutNotice | WorkingNotice | DoneNotice | CopiedNotice | UnavailableNotice | ErrorNotice

  /**
   * The world after `process_file`, the effects it attempted in order, and whether an
   * exception escaped it.
   */
  datatype Outcome = Outcome(world: World, effects: seq<Effect>, raised: bool)

  /** The duration text logged: the formatted length, or "Unknown duration" when decoding raised. */
  function DurationText(duration: Option<string>): (r: string)
    ensures duration.Some? ==> r == duration.value
  {
    match duration
    case Some(d) => d
    case None => "Unknown duration"
  }

  /** Whether `wait_for_file_ready` returns true for these polls. */
  predicate Ready(env: Env) {
    Settles(env.polls)
  }

  /**
   * `process_file`: nothing happens unless the file is ready; then the engine runs, and on
   * success the stripped text is offered to the clipboard (a failure there is only reported),
   * appended to the log, and the base name recorded in the ledger. An exception from the
   * engine, from a result line or the clipboard warning, or from `save_to_log` is caught at the
   * end of the method, so whatever follows it is skipped; the error line printed there, the
   * timeout notice and the working notice are outside any `try`, so when one of them raises
   * the exception escapes.
   */
  function ProcessFile(w: World, filename: string, env: Env): (r: Outcome)
    ensures !Ready(env) ==> r == Outcome(w, [], TimeoutNotice in env.failing)
    ensures Ready(env) && WorkingNotice in env.failing ==> r == Outcome(w, [], true)
    ensures Ready(env) && WorkingNotice !in env.failing ==>
      |r.effects| >= 1 && r.effects[0] == Transcribe(filename, UseFp16(env.device, env.mpsFp16))
    ensures Ready(env) && env.engine.Err? ==> r.world == w && |r.effects| <= 1
    ensures r.world.db == w.db || r.world.db == AddProcessedFile(w.db, env.store, Basename(filename), filename, env.now)
    ensures r.raised ==> r.world.db == w.db
  {
    if !Ready(env) then Outcome(w, [], TimeoutNotice in env.failing)
    else if WorkingNotice in env.failing then Outcome(w, [], true)
    else
      var run := Transcribe(filename, UseFp16(env.device, env.mpsFp16));
      var errorRaises := ErrorNotice in env.failing;
      match env.engine
      case Err(_) => Outcome(w, [run], errorRaises)
      case Ok(raw) =>
        var text := Strip(raw);
        if DoneNotice in env.failing then Outcome(w, [run], errorRaises)
        else
          var clip := if env.clipboardOk then Some(text) else w.clipboard;
          var warned := !env.clipboardOk || CopiedNotice in env.failing;
          if warned && UnavailableNotice in env.failing then
            Outcome(World(clip, w.archive, w.db), [run, CopyAttempt(text)], errorRaises)
          else
            var logged := SaveToLog(w.archive, env.date, env.timestamp, text, filename,
                                    DurationText(env.duration), env.elapsed, env.logDirOk, env.logWrite);
            var tried := [run, CopyAttempt(text), LogAppend(text, filename, DurationText(env.duration))];
            match logged
            case Err(_) => Outcome(World(clip, w.archive, w.db), tried, errorRaises)
            case Ok(archive) =>
              var base := Basename(filename);
              Outcome(World(clip, archive, AddProcessedFile(w.db, env.store, base, filename, env.now)),
                      tried + [LedgerAdd(base, filename)], false)
  }

  /** The notices printed before the log write do not raise (the clipboard confirmation may: its warning replaces it). */
  predicate QuietUntilLogged(env: Env) {
    WorkingNotice !in env.failing && DoneNotice !in env.failing && UnavailableNotice !in env.failing
  }

  /** Position of an effect kind in the order `process_file` has them. */
  function Rank(e: Effect): nat {
    match e
    case Transcribe(_, _) => 0
    case CopyAttempt(_) => 1
    case LogAppend(_, _, _) => 2
    case LedgerAdd(_, _) => 3
  }

  /** Every effect kind occurs at most once, and in the order transcribe, clipboard, log, ledger. */
  predicate InOrder(effects: seq<Effect>) {
    forall i, j :: 0 <= i < j < |effects| ==> Rank(effects[i]) < Rank(effects[j])
  }

  /** The effects of `process_file` always come in order. */
  lemma ProcessFileInOrder(w: World, filename: string, env: Env)
    ensures InOrder(ProcessFile(w, filename, env).effects)
  {
    EffectsArePrefix(w, filename, env);
    FullEffectsRanked(filename, env);
    PrefixInOrder(ProcessFile(w, filename, env).effects, FullEffects(filename, env));
  }

  lemma FullEffectsRanked(filename: string, env: Env)
    ensures forall k :: 0 <= k < |FullEffects(filename, env)| ==> Rank(FullEffects(filename, env)[k]) == k
  {
  }

  /** A prefix of effects ranked by their positions is in order. */
  lemma PrefixInOrder(e: seq<Effect>, full: seq<Effect>)
    requires e <= full
    requires forall k :: 0 <= k < |full| ==> Rank(full[k]) == k
    ensures InOrder(e)
  {
    assert forall k :: 0 <= k < |e| ==> e[k] == full[k];
  }

  /** Everything a call can attempt, in order: all four effects when the engine succeeds, else the transcription alone. */
  function FullEffects(filename: string, env: Env): seq<Effect> {
    var run := Transcribe(filename, UseFp16(env.device, env.mpsFp16));
    match env.engine
    case Err(_) => [run]
    case Ok(raw) =>
      var text := Strip(raw);
      [run, CopyAttempt(text), LogAppend(text, filename, DurationText(env.duration)), LedgerAdd(Basename(filename), filename)]
  }

  /** A call attempts a prefix of those effects: it can only stop early. */
  lemma EffectsArePrefix(w: World, filename: string, env: Env)
    ensures ProcessFile(w, filename, env).effects <= FullEffects(filename, env)
  {
    var full := FullEffects(filename, env);
    var effects := ProcessFile(w, filename, env).effects;
    if Ready(env) && WorkingNotice !in env.failing && env.engine.Ok? {
      assert effects == full[..|effects|];
    }
  }

  /** A file that never becomes ready is not transcribed, and nothing is copied, logged or recorded. */
  lemma NotReadyNoEffects(w: World, filename: string, env: Env)
    requires !Ready(env)
    ensures ProcessFile(w, filename, env).effects == []
    ensures ProcessFile(w, filename, env).world == w
  {
  }

  /** An engine failure leaves the clipboard, the log and the ledger untouched. */
  lemma EngineFailureNoRecord(w: World, filename: string, env: Env)
    requires Ready(env) && env.engine.Err?
    ensures var r := ProcessFile(w, filename, env);
      r.world == w && forall i :: 0 <= i < |r.effects| ==> !r.effects[i].LogAppend? && !r.effects[i].LedgerAdd?
  {
  }

  /**
   * A clipboard failure changes only the clipboard: the same effects are attempted and the
   * log and ledger end up as with a working clipboard.
   */
  lemma ClipboardFailureKeepsLogAndLedger(w: World, filename: string, env: Env)
    requires Ready(env) && env.engine.Ok? && QuietUntilLogged(env)
    ensures var good := ProcessFile(w, filename, env.(clipboardOk := true));
      var bad := ProcessFile(w, filename, env.(clipboardOk := false));
      bad.effects == good.effects && bad.world.archive == good.world.archive && bad.world.db == good.world.db &&
      bad.world.clipboard == w.clipboard
  {
  }

  /** A duration that fails to decode is logged as "Unknown duration", and the file is still transcribed and recorded. */
  lemma UnknownDurationStillRecorded(w: World, filename: string, env: Env)
    requires Ready(env) && env.engine.Ok? && env.duration.None? && env.logDirOk && QuietUntilLogged(env)
    ensures var r := ProcessFile(w, filename, env);
      |r.effects| == 4 && r.effects[0].Transcribe? &&
      r.effects[2] == LogAppend(Strip(env.engine.value), filename, "Unknown duration") &&
      r.effects[3] == LedgerAdd(Basename(filename), filename)
  {
  }

  /** Stripping twice is stripping once: `save_to_log` strips a text `process_file` already stripped. */
  lemma StripIdempotent(s: string)
    ensures Strip(Strip(s)) == Strip(s)
  {
    StripTrimmed(Strip(s));
  }

  /**
   * End to end: a successful transcription with a working log and database leaves the file's
   * base name in the ledger and in the names the history reader recovers from that day's log.
   */
  lemma SuccessRecordsFile(w: World, filename: string, env: Env)
    requires Ready(env) && env.engine.Ok? && env.logDirOk && env.logWrite == Written && env.store.Available?
    requires QuietUntilLogged(env)
    requires OneLine(env.timestamp)
    requires RoundTrips(Basename(filename))
    ensures var r := ProcessFile(w, filename, env);
      IsFileProcessed(r.world.db, Available, Basename(filename)) &&
      Basename(filename) in FileNames(r.world.archive, map[], DailyLogName(env.date))
  {
    var text := Strip(env.engine.value);
    SavedEntryIsRead(w.archive, env.date, env.timestamp, text, filename, DurationText(env.duration), env.elapsed);
  }

  /** What the run loop records for one dequeued item: its effects, and whether an exception escaped its processing. */
  datatype Step = Step(item: string, effects: seq<Effect>, raised: bool)

  /**
   * The worker thread after a run: the world, the steps taken, the queue's count of items
   * still waiting for `task_done`, and whether the thread is still running.
   */
  datatype Run = Run(world: World, steps: seq<Step>, unfinished: nat, alive: bool)

  /** What the run loop does with one item: the world after it, its effects, and whether it raised. */
  type Processor = (World, string, Env) -> Outcome

  /**
   * The `run` loop over the items dequeued so far, `envs[k]` being the environment of item
   * `k` and `unfinished` the queue's count of unfinished tasks before the run: each item is
   * processed against the world the previous one left, and `task_done` follows every item
   * because it sits in a `finally`. An exception escaping an item is re-raised after that
   * `task_done` and ends the thread, so no later item is taken.
   */
  function RunLoop(w: World, items: seq<string>, envs: seq<Env>, unfinished: nat): (r: Run)
    requires |envs| == |items| && |items| <= unfinished
    ensures |r.steps| <= |items|
  {
    RunWith(ProcessFile, w, items, envs, unfinished)
  }

  /** The loop of `RunLoop` with the processing of one item as a parameter. */
  function RunWith(process: Processor, w: World, items: seq<string>, envs: seq<Env>, unfinished: nat): (r: Run)
    requires |envs| == |items| && |items| <= unfinished
    ensures |r.steps| <= |items|
    decreases |items|
  {
    if items == [] then Run(w, [], unfinished, true)
    else
      var o := process(w, items[0], envs[0]);
      var step := Step(items[0], o.effects, o.raised);
      if o.raised then Run(o.world, [step], unfinished - 1, false)
      else
        var rest := RunWith(process, o.world, items[1..], envs[1..], unfinished - 1);
        Run(rest.world, [step] + rest.steps, rest.unfinished, rest.alive)
  }

  /** Every run has the shape `RunShape` describes. */
  lemma RunLoopShape(w: World, items: seq<string>, envs: seq<Env>, unfinished: nat)
    requires |envs| == |items| && |items| <= unfinished
    ensures RunShape(RunLoop(w, items, envs, unfinished), items, unfinished)
  {
    RunWithShape(ProcessFile, w, items, envs, unfinished);
  }

  lemma {:induction false} RunWithShape(process: Processor, w: World, items: seq<string>, envs: seq<Env>, unfinished: nat)
    requires |envs| == |items| && |items| <= unfinished
    ensures RunShape(RunWith(process, w, items, envs, unfinished), items, unfinished)
    decreases |items|
  {
    if items != [] {
      var o := process(w, items[0], envs[0]);
      var step := Step(items[0], o.effects, o.raised);
      if !o.raised {
        var rest := RunWith(process, o.world, items[1..], envs[1..], unfinished - 1);
        RunWithShape(process, o.world, items[1..], envs[1..], unfinished - 1);
        RunShapeCons(step, rest, items, unfinished);
      }
    }
  }

  /**
   * What every run looks like: it took a prefix of the items in order; each item it took got
   * its `task_done`; it is still running exactly when nothing escaped, and then it took every
   * item; otherwise only its last step raised.
   */
  predicate RunShape(r: Run, items: seq<string>, unfinished: nat) {
    && |r.steps| <= |items|
    && (forall k :: 0 <= k < |r.steps| ==> r.steps[k].item == items[k])
    && r.unfinished + |r.steps| == unfinished
    && (r.alive <==> forall k :: 0 <= k < |r.steps| ==> !r.steps[k].raised)
    && (r.alive ==> |r.steps| == |items|)
    && (!r.alive ==> r.steps != [] && forall k :: 0 <= k < |r.steps| - 1 ==> !r.steps[k].raised)
  }

  /** A step that did not raise, followed by a run of the remaining items, is a run of all of them. */
  lemma RunShapeCons(step: Step, rest: Run, items: seq<string>, unfinished: nat)
    requires items != [] && unfinished > 0 && step.item == items[0] && !step.raised
    requires RunShape(rest, items[1..], unfinished - 1)
    ensures RunShape(Run(rest.world, [step] + rest.steps, rest.unfinished, rest.alive), items, unfinished)
  {
    var steps := [step] + rest.steps;
    assert forall k :: 1 <= k < |steps| ==> steps[k] == rest.steps[k - 1];
  }

  /** The world after processing the first `k` items one after another, nothing escaping. */
  function WorldAfter(w: World, items: seq<string>, envs: seq<Env>, k: nat): World
    requires |envs| == |items| && k <= |items|
  {
    WorldAfterWith(ProcessFile, w, items, envs, k)
  }

  function WorldAfterWith(process: Processor, w: World, items: seq<string>, envs: seq<Env>, k: nat): World
    requires |envs| == |items| && k <= |items|
    decreases k
  {
    if k == 0 then w else WorldAfterWith(process, process(w, items[0], envs[0]).world, items[1..], envs[1..], k - 1)
  }

  /**
   * Each step of a run is `process_file` on its own item against the world the items before
   * it left, and the run ends in the world its last step left.
   */
  lemma RunLoopFollowsProcessFile(w: World, items: seq<string>, envs: seq<Env>, unfinished: nat)
    requires |envs| == |items| && |items| <= unfinished
    ensures var r := RunLoop(w, items, envs, unfinished);
      forall k :: 0 <= k < |r.steps| ==>
        var o := ProcessFile(WorldAfter(w, items, envs, k), items[k], envs[k]);
        r.steps[k].effects == o.effects && r.steps[k].raised == o.raised
    ensures var r := RunLoop(w, items, envs, unfinished);
      r.steps != [] ==>
        r.world == ProcessFile(WorldAfter(w, items, envs, |r.steps| - 1), items[|r.steps| - 1], envs[|r.steps| - 1]).world
  {
    RunWithFollows(ProcessFile, w, items, envs, unfinished);
  }

  lemma RunWithFollows(process: Processor, w: World, items: seq<string>, envs: seq<Env>, unfinished: nat)
    requires |envs| == |items| && |items| <= unfinished
    ensures var r := RunWith(process, w, items, envs, unfinished);
      forall k :: 0 <= k < |r.steps| ==>
        var o := process(WorldAfterWith(process, w, items, envs, k), items[k], envs[k]);
        r.steps[k].effects == o.effects && r.steps[k].raised == o.raised
    ensures var r := RunWith(process, w, items, envs, unfinished);
      r.steps != [] ==>
        r.world == process(WorldAfterWith(process, w, items, envs, |r.steps| - 1), items[|r.steps| - 1], envs[|r.steps| - 1]).world
  {
    var r := RunWith(process, w, items, envs, unfinished);
    forall k | 0 <= k < |r.steps|
      ensures var o := process(WorldAfterWith(process, w, items, envs, k), items[k], envs[k]);
        r.steps[k].effects == o.effects && r.steps[k].raised == o.raised
    {
      RunWithStepAt(process, w, items, envs, unfinished, k);
    }
    if r.steps != [] {
      RunWithLastWorld(process, w, items, envs, unfinished);
    }
  }

  lemma {:induction false} RunWithStepAt(process: Processor, w: World, items: seq<string>, envs: seq<Env>, unfinished: nat, k: nat)
    requires |envs| == |items| && |items| <= unfinished
    requires k < |RunWith(process, w, items, envs, unfinished).steps|
    ensures var o := process(WorldAfterWith(process, w, items, envs, k), items[k], envs[k]);
      RunWith(process, w, items, envs, unfinished).steps[k].effects == o.effects &&
      RunWith(process, w, items, envs, unfinished).steps[k].raised == o.raised
    decreases k
  {
    var o := process(w, items[0], envs[0]);
    if k > 0 {
      var rest := RunWith(process, o.world, items[1..], envs[1..], unfinished - 1);
      assert RunWith(process, w, items, envs, unfinished).steps[k] == rest.steps[k - 1];
      RunWithStepAt(process, o.world, items[1..], envs[1..], unfinished - 1, k - 1);
      assert items[1..][k - 1] == items[k] && envs[1..][k - 1] == envs[k];
    }
  }

  lemma {:induction false} RunWithLastWorld(process: Processor, w: World, items: seq<string>, envs: seq<Env>, unfinished: nat)
    requires |envs| == |items| && |items| <= unfinished
    requires RunWith(process, w, items, envs, unfinished).steps != []
    ensures var r := RunWith(process, w, items, envs, unfinished);
      r.world == process(WorldAfterWith(process, w, items, envs, |r.steps| - 1), items[|r.steps| - 1], envs[|r.steps| - 1]).world
    decreases |items|
  {
    var o := process(w, items[0], envs[0]);
    var r := RunWith(process, w, items, envs, unfinished);
    if !o.raised && |r.steps| > 1 {
      var rest := RunWith(process, o.world, items[1..], envs[1..], unfinished - 1);
      assert |rest.steps| == |r.steps| - 1 && r.world == rest.world;
      RunWithLastWorld(process, o.world, items[1..], envs[1..], unfinished - 1);
      var n := |r.steps| - 1;
      assert items[1..][n - 1] == items[n] && envs[1..][n - 1] == envs[n];
    }
  }

  /** The ledger only grows over a run, and rows already there are kept. */
  lemma RunLoopKeepsLedger(w: World, items: seq<string>, envs: seq<Env>, unfinished: nat)
    requires |envs| == |items| && |items| <= unfinished
    ensures var end := RunLoop(w, items, envs, unfinished).world;
      forall f :: f in w.db ==> f in end.db && end.db[f] == w.db[f]
  {
    forall w': World, item: string, env: Env
      ensures KeepsRows(w', ProcessFile(w', item, env).world)
    {
    }
    RunWithKeepsLedger(ProcessFile, w, items, envs, unfinished);
  }

  /** Every row of `a`'s ledger is in `b`'s, unchanged. */
  predicate KeepsRows(a: World, b: World) {
    forall f :: f in a.db ==> f in b.db && b.db[f] == a.db[f]
  }

  lemma {:induction false} RunWithKeepsLedger(process: Processor, w: World, items: seq<string>, envs: seq<Env>, unfinished: nat)
    requires |envs| == |items| && |items| <= unfinished
    requires forall w': World, item: string, env: Env :: KeepsRows(w', process(w', item, env).world)
    ensures KeepsRows(w, RunWith(process, w, items, envs, unfinished).world)
    decreases |items|
  {
    if items != [] {
      var o := process(w, items[0], envs[0]);
      var r := RunWith(process, w, items, envs, unfinished);
      assert KeepsRows(w, o.world);
      if !o.raised {
        RunWithKeepsLedger(process, o.world, items[1..], envs[1..], unfinished - 1);
      }
    }
  }
}

=== FILE: wrappers.dfy ===
/** Failure-carrying values used in place of the source's exceptions and `None` returns. */
module Wrappers {

  datatype Option<+T> = None | Some(value: T) {

    /** The wrapped value, or `default` when there is none. */
    function GetOr(default: T): T {
      match this
      case Some(v) => v
      case None => default
    }
  }

  /** An operation that either produced a value or raised; `error` names what was raised. */
  datatype Result<+T> = Ok(value: T) | Err(error: string)
}
